=== FILE: README.md ===
# Observatorio de Desigualdad y Pobreza — a Dafny model of the data-shaping core

The observatory publishes a static dashboard (`docs/app.js`). It reads one
object, `DATA`, of socioeconomic collections: poverty, employment, wages,
inequality and taxation. Each `render*` function filters, groups, aligns,
sorts or derives figures from `DATA`, then hands the result to Chart.js.
`DATA` itself is produced by a build script
(`Automatizacion/convert_excel_to_js.py`). That script:

- turns every mapped spreadsheet into a dataset;
- renames columns with `clean_column_name`;
- wraps the JSON text in a `data.js` file.

A validator (`Automatizacion/validate_dashboard.py`) unwraps that file and
checks which datasets and fields are present.

This project models the computations only, as pure functions over immutable
record sequences. Chart.js and the DOM are left out. The modules follow
the program's structure:

- `Wrappers`, `Seqs`, `Sorting`: `Option` (JavaScript `null`, Python
  `None`), `filter`/`find`/`map`/`slice`, and `Array.prototype.sort` as a
  stable sort with a comparator.
- `Aggregate`: `uniqueSorted` and `groupBy`.
- `Records`: the row shape of each collection.
- `TimeSeries`, `Charts`: the line-chart template (filter, group, year axis,
  last row wins, `null` for a missing year) and each render that uses it.
- `CrossSection`, `Indicators`: the latest-year bar charts and the
  indicator-label mapping per collection.
- `Variation`, `Sector`, `Gic`, `Tables`: the derived metrics. These are the
  year-over-year table, sector growth with top ten, the growth incidence
  curve, the provincial table, demographic labels and the tax-burden bars.
- `Columns`, `Convert`, `DataFile`: the converter's column renaming, its
  file loop and its `data.js` format.
- `Validate`: the validator's checks on the parsed object.

Selector values are explicit parameters. These are the indicator, the
dimension, the year, the period, the selected countries and the gap type.
Numbers are `real`. `Math.pow` is a parameter `pow`. Reading a spreadsheet
is a parameter `read`.

In four places the code does something easy to misread; the model
follows the code:

- JavaScript's unary `+` turns a `null` value into 0 (`Coerce`) wherever the
  code applies it to rows it did not filter for `null`: the provincial
  table, the wage bars and the tax-burden bars. The demographic income bars
  spell the `null` default out (`r.ingreso != null ? +r.ingreso : 0`), to
  the same effect.
- Sector growth needs both endpoint employments truthy, that is present and
  not 0, and takes the first row of each year.
- The level/sex/education/age/region bars treat a latest year of 0 as no
  data (`!latestYear`).
- A wage-gap sheet that exists but is empty gives an empty chart.

## Model

| member | source | states |
|---|---|---|
| Aggregate.UniqueSorted | docs/app.js:61-63 | the result is strictly ascending (so without duplicates) and holds exactly the input's values |
| Aggregate.LastIsMax | docs/app.js:61-63 | for non-empty input the last element is at least every input value and is one of them |
| Aggregate.GroupBy | docs/app.js:65-73 | one non-empty group per distinct key, keys distinct and equal to the keys of the data, each group the rows carrying its key in input order, groups in first-seen order of their keys |
| Aggregate.GroupByLoop | docs/app.js:65-73 | the `forEach`-and-push loop yields distinct keys, the keys of the data, each group its matching rows, and a permutation of the input |
| Aggregate.GroupByPermutation | docs/app.js:65-73 | concatenating the groups gives a permutation of the input |
| Aggregate.GroupByPartition | docs/app.js:65-73 | every record lies in a group whose key is the record's key, and in no group with another key |
| Aggregate.GroupCount | docs/app.js:65-73 | there are exactly as many groups as distinct keys |
| Sorting.SortBy | docs/app.js:526 | with a total, transitive comparator the result is ordered and a permutation of the input |
| Sorting.InsertFilter | docs/app.js:526 | inserting an element keeps it ahead of every element of a group it may precede, so the group's order is kept |
| Sorting.SortByStable | docs/app.js:526 | the sort is stable: a group of elements that may all precede one another keeps its input order |
| Sorting.KeyStable | docs/app.js:1520 | with a comparator that lets equal keys stay either way, the elements of each key keep their input order |
| Sorting.SortAsc | docs/app.js:1520 | ascending by the key, a permutation of the input, and the elements of each key in their input order |
| Sorting.SortDesc | docs/app.js:282 | non-increasing by the key, a permutation of the input, and the elements of each key in their input order |
| Sorting.DescUnique | docs/app.js:282 | two permutations of one sequence that are both non-increasing by a key and keep each key's elements in the same order are equal |
| Sorting.SameStableSort | docs/app.js:282 | two stable descending sorts of one sequence by the same key are the same sequence |
| TimeSeries.Chart | docs/app.js:239-250 | the axis is exactly the ascending years of the passing rows; there is one dataset per category carrying the category's name and as many entries as the axis; an entry is the value of the last passing row of that category and year |
| TimeSeries.YearMapIsLastValue | docs/app.js:246-247 | reading the year object gives the value of the last row with that year, or null |
| TimeSeries.GroupValueIsLastMatch | docs/app.js:240-247 | a group's value for a year equals the last value for that category and year in the whole filtered input |
| TimeSeries.YearsOfFilter | docs/app.js:241 | a year is among the filtered rows' years exactly when some passing row has it |
| TimeSeries.NoHitNone | docs/app.js:250 | with no passing row of the category and year, the entry is null |
| TimeSeries.LastHitShown | docs/app.js:247-250 | the entry is the value of the last passing row of the category and year |
| TimeSeries.NullExactlyWhenAbsent | docs/app.js:239-250 | when every passing row has a value, an entry is null exactly when no passing row has that category and year (no zero-filling) |
| TimeSeries.ShowsBacked | docs/app.js:240-241 | every dataset is a category of some passing row and every axis year is the year of some passing row |
| Charts.PobrezaNivel | docs/app.js:237-255 | the template applied to `pobrezaTableau` with the unmapped indicator, non-null values, grouped by level |
| Charts.PobrezaNivelNullIffAbsent | docs/app.js:239-250 | in the level chart an entry is null exactly when that level has no row of the indicator in that year |
| Charts.PobrezaSexo | docs/app.js:310-329 | the template applied to the `'sexo'` rows of `pobrezaSexoEtnia` with the mapped indicator |
| Charts.PobrezaCategoria | docs/app.js:389-411 | the template applied to the education, age and region collections with the mapped indicator |
| Charts.EmpleoSeries | docs/app.js:719-740 | the template over every `empleoSeries` row, null values included |
| Charts.EmpleoSeriesLastRowWins | docs/app.js:729-735 | with nulls not filtered, a later null row overwrites an earlier value for the same year |
| Charts.GiniTax | docs/app.js:1265-1278 | the template over `giniTaxImpact` rows with a Gini value, one line per category |
| Charts.GiniFull | docs/app.js:1294-1303 | the template over `giniPanel` rows with a value, the `'LAC'` category excluded |
| Charts.GiniFullExcludesLac | docs/app.js:1295 | no dataset of that chart is named `'LAC'` |
| Charts.WidChart | docs/app.js:1398-1408 | an empty collection gives an empty chart; otherwise the template over rows with the chosen share, one line per percentile |
| Charts.LatamChart | docs/app.js:1438-1451 | the collection and share follow the variable; rows of the percentile and a selected country; axis cut to years from 1980 |
| Charts.LatamCutoff | docs/app.js:1447 | every axis year is at least 1980 and every line belongs to a selected country |
| CrossSection.LatestYear | docs/app.js:279-280 | the last of the sorted distinct years of the passing rows is a year some passing row has, and no passing row has a later one |
| CrossSection.LatestYearIsMax | docs/app.js:279-280 | a year among the filtered rows' years that bounds them all is the maximum year of the passing rows |
| CrossSection.SortedLatest | docs/app.js:275-282 | the placeholder exactly when no row passes; otherwise the maximum year and all of its passing rows, ordered by non-increasing value, a permutation of them in which rows of equal value keep their input order |
| CrossSection.SortedLatestDetermined | docs/app.js:275-282 | that promise fixes the view: two views that both keep it are equal |
| CrossSection.PlainLatest | docs/app.js:547-553 | an empty chart when no row passes or the latest year is 0; otherwise the maximum year and its passing rows in input order |
| CrossSection.PobrezaEtnia | docs/app.js:271-282 | the ethnic-group bars: the placeholder or the latest year's groups, largest rate first, groups of equal rate in sheet order |
| CrossSection.EmpleoDemo | docs/app.js:781-795 | the employment-demography bars: the placeholder or the latest year's categories, largest rate first, categories of equal rate in sheet order |
| CrossSection.BarNivel | docs/app.js:547-553 | the level bars with the unmapped indicator |
| CrossSection.BarSexo | docs/app.js:570-577 | the sex bars with the short indicator mapping |
| CrossSection.BarCategoria | docs/app.js:592-599 | the education, age and region bars with the short indicator mapping |
| CrossSection.BarFiltersAgree | docs/app.js:572-573 | the bars' short mapping selects the same rows as the time series' full mapping |
| CrossSection.FiltersUseStoredLabel | docs/app.js:239-274 | each render keeps a row exactly when its label equals the one its collection stores (`pobrezaTableau` the selector's label, the others the mapped one), with a value and, for `pobrezaSexoEtnia`, the right group type |
| CrossSection.SheetTypes | docs/app.js:942-949 | a gap type has a sheet exactly when it is one of the five listed |
| CrossSection.Brechas | docs/app.js:940-974 | the placeholder when the collection or the type's sheet is missing; otherwise one bar per row of the sheet's latest year, with the type's category field and the salary (`null` as 0) |
| CrossSection.Bars | docs/app.js:971-974 | one bar per row, in order |
| Indicators.MappingForms | docs/app.js:273 | the full and the short mapping agree; only `'Pobreza Extrema'` maps to `'Pobreza extrema'`; every other label is unchanged |
| Variation.National | docs/app.js:515-517 | the national non-null rows of the indicator, oldest first, a permutation of the filtered rows; rows of the same year keep their input order (stable sort) |
| Variation.NationalOneYear | docs/app.js:515-517 | when all of an indicator's national rows share one year, the sorted list is exactly the filtered rows in sheet order |
| Variation.Step | docs/app.js:519-523 | `varPp` is current minus previous; `varPct` is null exactly when the previous value is 0, else `varPp / prev * 100` |
| Variation.FallingRate | docs/app.js:518-524 | worked example: national rates 10, 9, 9 give a line of -1 point (-10%) and a line of no change |
| Variation.FromZero | docs/app.js:519-522 | worked example: from a previous rate of 0 to 5 the change is 5 points and the relative change is null |
| Variation.Pairs | docs/app.js:518-524 | n observations give n-1 lines, line i comparing observations i and i+1 |
| Variation.SigTable | docs/app.js:510-526 | a permutation of both indicators' lines, newest year first, ties by indicator name ascending |
| Variation.SigTableLines | docs/app.js:514-526 | a line is in the table exactly when it compares two consecutive national observations of one of the two indicators |
| Variation.NewerFirstTotal | docs/app.js:526 | the table comparator orders any two lines one way or the other |
| Variation.NewerFirstTransitive | docs/app.js:526 | the table comparator is transitive |
| Sector.GrowthOf | docs/app.js:832-836 | a growth exactly when both first rows exist with truthy employment, equal to `(end - start) / start * 100` |
| Sector.CollectGrows | docs/app.js:829-837 | each collected growth is its sector's growth read off the whole table |
| Sector.GrowsCollected | docs/app.js:829-837 | each sector with a growth in the whole table is collected with it |
| Sector.TopSectors | docs/app.js:823-842 | at most ten sectors, each listed once, non-increasing growth, each with its true growth; they are the first ten of a stable descending ranking of all collected results |
| Sector.TopSectorsDetermined | docs/app.js:839-842 | every stable descending ranking of the collected results has the chart as its first ten |
| Sector.TopSectorsComplete | docs/app.js:839-842 | a sector with a growth is shown, or ten sectors with growth at least as large are |
| Gic.PointsFrom | docs/app.js:1113-1120 | bars within the decile range, strictly ascending deciles |
| Gic.PointsFromSound | docs/app.js:1113-1120 | each bar drawn is the loop body's bar for its decile |
| Gic.PointsFromComplete | docs/app.js:1113-1120 | every visited decile for which the loop body gives a bar has that bar drawn |
| Gic.PointIsExpected | docs/app.js:1108-1118 | the loop body gives a bar for decile d exactly when the whole table's first rows of d in both years exist with a positive start income, and that bar carries the annualised growth between them |
| Gic.PointsAreExpected | docs/app.js:1108-1118 | the bars are exactly the deciles with both first rows and a positive start income, with their growth |
| Gic.StrictDeciles | docs/app.js:1113 | strictly ascending deciles between 1 and 10 are at most ten |
| Gic.GicOf | docs/app.js:1092-1120 | an empty chart exactly for no data; the distinct-years state exactly when start >= end; otherwise at most ten bars, ascending deciles, exactly the computable deciles |
| Tables.GroupReading | docs/app.js:364-371 | a province group's first row of an indicator is the first such row of the year in the whole table |
| Tables.ProvTable | docs/app.js:361-372 | one line per province of the year, each its true readings, highest poverty rate first (null as 0); a permutation of the lines in first-seen province order in which provinces of equal rate keep that order |
| Tables.ProvTableDetermined | docs/app.js:367-372 | any stable descending ordering of the first-seen lines by poverty rate is the table |
| Tables.ProvTableCovers | docs/app.js:363-372 | every province with a row in the year has a line |
| Tables.LabelOf | docs/app.js:1159-1164 | the present parts among dimension and category, joined by `': '` |
| Tables.CrecDemo | docs/app.js:1159-1172 | one bar per row in order, its label and its income with null as 0 |
| Tables.TaxBurden | docs/app.js:1517-1525 | the bars are a permutation of the year's rows drawn with null burden as 0, lowest decile first |
| Tables.TaxBurdenCovers | docs/app.js:1517-1525 | every row of the year has its bar drawn |
| Tables.SortedYearRows | docs/app.js:1519-1520 | every sorted row is a row of the table with the chosen year |
| Convert.KeyFor | Automatizacion/convert_excel_to_js.py:131-136 | a key only for a mapped name with a non-empty key |
| Convert.EveryFileCounted | Automatizacion/convert_excel_to_js.py:125-146 | processed plus skipped equals the number of files that are not lock files |
| Convert.KeysOfConverted | Automatizacion/convert_excel_to_js.py:125-146 | the keys of the output are exactly the keys of the converted files |
| Convert.ProcessedAreKeys | Automatizacion/convert_excel_to_js.py:140-144 | with distinct file names each processed file adds exactly one key |
| Convert.MappingKeysDistinct | Automatizacion/convert_excel_to_js.py:17-53 | no two mapping entries share a key |
| Convert.MappingNamesDistinct | Automatizacion/convert_excel_to_js.py:17-53 | no two mapping entries share a file name |
| Convert.KeyInjective | Automatizacion/convert_excel_to_js.py:17-53 | two files with the same key are the same file |
| DataFile.Wrap | Automatizacion/convert_excel_to_js.py:157-158 | the file is exactly the header, `const DATA = `, the JSON text and `;\n` |
| DataFile.RStrip | Automatizacion/validate_dashboard.py:23 | a prefix of the input not ending in a stripped character, everything after it stripped |
| DataFile.RemoveAbsent | Automatizacion/validate_dashboard.py:23 | removing a pattern that does not occur changes nothing |
| DataFile.HeaderRemoved | Automatizacion/validate_dashboard.py:23 | deleting the header from a wrapped file leaves the assignment |
| DataFile.PrefixRemoved | Automatizacion/validate_dashboard.py:23 | deleting `const DATA = ` leaves the JSON text and `;\n` |
| DataFile.SuffixStripped | Automatizacion/validate_dashboard.py:23 | stripping `;` and newlines drops exactly the suffix |
| DataFile.UnwrapWrap | Automatizacion/validate_dashboard.py:23 | unwrapping a wrapped file returns the JSON text, for text free of the header and prefix and not ending in `;` or a newline |
| Columns.Strip | Automatizacion/convert_excel_to_js.py:58 | the result neither starts nor ends with whitespace |
| Columns.StripSurrounded | Automatizacion/convert_excel_to_js.py:58 | stripping whitespace around a text without surrounding whitespace recovers the text |
| Columns.AccentsReplaced | Automatizacion/convert_excel_to_js.py:60-64 | the dictionary replaces exactly the twelve accented characters |
| Columns.ReplacementsSettled | Automatizacion/convert_excel_to_js.py:60-64 | no replacement is itself replaced by a later entry |
| Columns.ReplaceEachPointwise | Automatizacion/convert_excel_to_js.py:65-66 | with settled entries the sequential replacements act character by character |
| Columns.Deaccented | Automatizacion/convert_excel_to_js.py:60-66 | same length; each character loses its accent and other characters stay |
| Columns.Split | Automatizacion/convert_excel_to_js.py:70 | at least one word; no word holds a separator; middle words are non-empty; the words concatenate to the input without separators |
| Columns.SplitJoins | Automatizacion/convert_excel_to_js.py:70 | the input is its words joined by non-empty runs of separators |
| Columns.SplitJoined | Automatizacion/convert_excel_to_js.py:70 | words without separators, the inner ones non-empty, joined by runs of separators split back into those words, so the split is the only such decomposition |
| Columns.SplitKeeps | Automatizacion/convert_excel_to_js.py:70 | words keep every property all input characters have |
| Columns.Capitalize | Automatizacion/convert_excel_to_js.py:78 | first character upper case, the rest lower case, same length |
| Columns.HumpsLower | Automatizacion/convert_excel_to_js.py:76-78 | lower-cased, the capitalised later words read as their concatenation |
| Columns.CamelPlain | Automatizacion/convert_excel_to_js.py:75-78 | camel-casing plain words gives a plain name |
| Columns.DeaccentedPlain | Automatizacion/convert_excel_to_js.py:60-70 | the words of a de-accented name hold no separator and no accented character |
| Columns.CleanColumnName | Automatizacion/convert_excel_to_js.py:55-80 | the result holds no whitespace, `_`, `-` or any of the twelve accented characters |
| Columns.PlainNameLowered | Automatizacion/convert_excel_to_js.py:70-75 | a name without whitespace, separators or accents comes out lower-cased |
| Columns.HumpsCapitalized | Automatizacion/convert_excel_to_js.py:76-78 | with no empty word, the later words come out capitalised and concatenated |
| Columns.CamelCapitalized | Automatizacion/convert_excel_to_js.py:75-78 | with no empty word, the first word is lower-cased and every later word capitalised |
| Columns.JoinedUnchanged | Automatizacion/convert_excel_to_js.py:58-66 | stripping and removing accents leave plain words joined by separator runs unchanged |
| Columns.CleanJoined | Automatizacion/convert_excel_to_js.py:55-80 | non-empty plain words joined by runs of whitespace, `_` or `-` become the first word lower-cased followed by each later word capitalised |
| Columns.CleanDropsOnlySeparators | Automatizacion/convert_excel_to_js.py:55-80 | up to letter case, the result is the stripped, de-accented name with its separators removed |
| Validate.PresenceOf | Automatizacion/validate_dashboard.py:49-58 | missing exactly when the dataset is absent; an object reports its sheet count, a list its row count, any other value is unexpected |
| Validate.RequiredCheck | Automatizacion/validate_dashboard.py:45-59 | one report per visited dataset, in order; `all_good` exactly when every required dataset is present, and exactly when no report says missing |
| Validate.AllPresentIgnoresTypes | Automatizacion/validate_dashboard.py:49-59 | replacing a present dataset by one of another type leaves `all_good` unchanged |
| Validate.AllPresentKeys | Automatizacion/validate_dashboard.py:45-59 | `all_good` exactly when the required names are a subset of the data's keys |
| Validate.RequiredAreMapped | Automatizacion/validate_dashboard.py:36-43 | every required dataset is a key the converter's mapping produces |
| Validate.FieldCheck | Automatizacion/validate_dashboard.py:75-95 | clean exactly when a non-empty list's first record has exactly the expected fields, a mismatch exactly when it has other fields, carrying `expected - actual` and `actual - expected`; a non-empty object reports its first sheet's name and the fields of that sheet's first record; otherwise not checked |
| Validate.MismatchAccounts | Automatizacion/validate_dashboard.py:77-82 | the missing and extra sets account for the whole difference between expected and actual fields |
| Validate.MultiSheetCheck | Automatizacion/validate_dashboard.py:105-118 | sheets present exactly when the dataset is a non-empty object whose sheets include every expected sheet; missing sheets are exactly the expected ones absent; the report names the first sheet and the field names of its first row, none when that sheet has no rows |
| Validate.WithIndicator | Automatizacion/validate_dashboard.py:135-136 | exactly the records whose `indicador` equals the indicator |
| Validate.Values | Automatizacion/validate_dashboard.py:139 | exactly the truthy values of the field |
| Validate.Years | Automatizacion/validate_dashboard.py:140 | exactly the truthy years, `anio` falling back to `ano` |
| Validate.Completeness | Automatizacion/validate_dashboard.py:131-143 | a result exactly for a list dataset and a group field; the groups and years of the records left after the optional indicator filter |

## Left out

- Chart.js and the DOM are presentation and I/O. This covers `makeChart`, colours, tooltips, `toFixed` formatting, HTML templating, navigation, sub-tabs and `<select>` population. The selections those controls hold are parameters.
- The session state (`selectedCountries`, `giniLacCountries`, the `*Rendered` flags) is UI state. The selected countries are a parameter.
- Renders outside the data-shaping core are not modelled:
  - the home scorecards;
  - IESS;
  - wage series and trends;
  - the historical combined charts;
  - the SRI income and tax-composition charts;
  - the LAC Gini chart and population cards;
  - the employment significance table.
- Floating point is modelled as `real`. `Math.pow` in the growth incidence curve is a parameter, so only the guards, selection and order of the curve are proved, not its numeric values.
- `Object.entries` lists integer-like keys first. Groups are modelled in first-seen order, which is what the string category keys used produce.
- Years (`anio`, `ano`) are modelled as integers, that is as JSON numbers, which is what the converter produces from numeric spreadsheet columns. A year stored as a string such as `"2020"` would fail every `===` year match (for example `docs/app.js:363`, `:1108`, `:1519`) and add a second entry to the year axis built with `new Set` (`docs/app.js:62`); the model does not represent that case.
- `localeCompare` is modelled as lexicographic order on characters (`Sorting.StrLe`).
- `read_excel_file`, pandas, the globbing and sorting of file names, `json.dumps`/`json.loads`, paths and `print` are foreign libraries or I/O. Reading is a parameter, file names arrive sorted, and JSON text is an opaque string.
- Python's `lower`/`capitalize` are modelled on ASCII letters only. Other characters are left unchanged.
- The `if not words` branch of `clean_column_name` is not modelled. `re.split` always returns at least one word (`Columns.Split` proves it), so the branch is dead.
- Validate.FieldCheck: on an object with no sheets the source raises `IndexError` (`list(...)[0]`). The model reports the outcome `NoFirstSheet` instead of failing.
- Validate.MultiSheetCheck: when nothing is expected and the object is empty, the source raises `IndexError`. The model reports `EmptyObject`.
- Validate.Completeness: returns the sets of groups and years. It does not model the printed `sorted`, `min` and `max`, nor the `TypeError` they raise on mixed types.
- Validate: values are compared structurally, so Python's `True == 1` is not reproduced.
- Section 6 of the validator (its JavaScript access-pattern samples) and its summary printing are diagnostics, not checks on the data.

=== FILE: aggregate.dfy ===
/** The dashboard's two aggregation helpers, `uniqueSorted` and `groupBy`
    (docs/app.js). */
module Aggregate {
  import opened Wrappers
  import opened Seqs

  /* ---------- uniqueSorted ---------- */

  ghost predicate StrictlyAscending(s: seq<int>) {
    forall i, j :: 0 <= i < j < |s| ==> s[i] < s[j]
  }

  /** Adds `x` to a strictly ascending sequence, keeping it strictly ascending. */
  function Insert(s: seq<int>, x: int): (r: seq<int>)
    requires StrictlyAscending(s)
    ensures StrictlyAscending(r)
    ensures forall y :: y in r <==> y in s || y == x
    ensures |r| <= |s| + 1
  {
    if |s| == 0 then [x]
    else if x < s[0] then [x] + s
    else if x == s[0] then s
    else
      var t := Insert(s[1..], x);
      assert forall i :: 0 <= i < |t| ==> t[i] in s[1..] || t[i] == x;
      [s[0]] + t
  }

  /** `[...new Set(arr)].sort((a, b) => a - b)`: the distinct values of `xs`
      in strictly ascending numeric order. */
  function UniqueSorted(xs: seq<int>): (r: seq<int>)
    ensures StrictlyAscending(r)
    ensures forall y :: y in r <==> y in xs
    ensures |r| <= |xs|
  {
    if |xs| == 0 then []
    else Insert(UniqueSorted(xs[..|xs| - 1]), xs[|xs| - 1])
  }

  /** The last element of a non-empty `UniqueSorted` result is the maximum. */
  lemma LastIsMax(xs: seq<int>)
    requires |xs| > 0
    ensures |UniqueSorted(xs)| > 0
    ensures var u := UniqueSorted(xs);
            u[|u| - 1] in xs && forall i :: 0 <= i < |xs| ==> xs[i] <= u[|u| - 1]
  {
    var u := UniqueSorted(xs);
    assert xs[0] in xs;
    assert u[|u| - 1] in u;
    forall i | 0 <= i < |xs|
      ensures xs[i] <= u[|u| - 1]
    {
      assert xs[i] in xs;
      var k :| 0 <= k < |u| && u[k] == xs[i];
      AscendingToLast(u, k);
    }
  }

  lemma AscendingToLast(u: seq<int>, k: nat)
    requires StrictlyAscending(u) && k < |u|
    ensures u[k] <= u[|u| - 1]
  {
    if k < |u| - 1 {
      assert u[k] < u[|u| - 1];
    }
  }

  /* ---------- groupBy ---------- */

  /** One entry of the object `groupBy` returns: a key and the rows carrying it. */
  datatype Group<K, T> = Group(key: K, rows: seq<T>)

  /** The rows of `data` whose key is `k`, in input order. */
  function Matching<K(==), T>(data: seq<T>, key: T -> K, k: K): seq<T>
  {
    if |data| == 0 then []
    else
      var x := data[|data| - 1];
      Matching(data[..|data| - 1], key, k) + (if key(x) == k then [x] else [])
  }

  /** The matches of a sequence extended by one row. */
  lemma MatchingSnoc<K, T>(data: seq<T>, x: T, key: T -> K, k: K)
    ensures Matching(data + [x], key, k) == Matching(data, key, k) + (if key(x) == k then [x] else [])
  {
    assert (data + [x])[..|data|] == data;
  }

  /** Searching the group of key `k` finds what searching the whole data for
      rows with key `k` that satisfy `q` finds. */
  lemma {:induction false} FindMatching<K, T>(data: seq<T>, key: T -> K, k: K, q: T -> bool, kq: T -> bool)
    requires forall x :: kq(x) == (key(x) == k && q(x))
    ensures Find(Matching(data, key, k), q) == Find(data, kq)
  {
    if |data| > 0 {
      var d := data[..|data| - 1];
      var x := data[|data| - 1];
      assert data == d + [x];
      FindMatching(d, key, k, q, kq);
      FindAppend(d, x, kq);
      MatchingSnoc(d, x, key, k);
      if key(x) == k {
        FindAppend(Matching(d, key, k), x, q);
      } else {
        assert Matching(data, key, k) == Matching(d, key, k);
      }
    }
  }

  /** The keys the rows of `data` carry. */
  ghost function KeysIn<K, T>(data: seq<T>, key: T -> K): set<K>
  {
    if |data| == 0 then {} else KeysIn(data[..|data| - 1], key) + {key(data[|data| - 1])}
  }

  /** The position of the first row of `data` whose key is `k`, if any. */
  ghost function FirstSeen<K, T>(data: seq<T>, key: T -> K, k: K): Option<nat>
  {
    if |data| == 0 then None
    else
      var f := FirstSeen(data[..|data| - 1], key, k);
      if f.Some? then f
      else if key(data[|data| - 1]) == k then Some(|data| - 1)
      else None
  }

  /** Key `a` is first seen strictly before key `b`. */
  ghost predicate SeenBefore<K, T>(data: seq<T>, key: T -> K, a: K, b: K) {
    var fa := FirstSeen(data, key, a);
    var fb := FirstSeen(data, key, b);
    fa.Some? && fb.Some? && fa.value < fb.value
  }

  ghost predicate DistinctKeys<K, T>(gs: seq<Group<K, T>>) {
    forall i, j :: 0 <= i < j < |gs| ==> gs[i].key != gs[j].key
  }

  /** The keys of a sequence of groups. */
  ghost function GroupKeys<K, T>(gs: seq<Group<K, T>>): set<K> {
    set i | 0 <= i < |gs| :: gs[i].key
  }

  /** One step of the `forEach` in `groupBy`: push `x` onto the group for `k`,
      creating that group at the end when it does not exist yet. */
  function AddTo<K(==), T>(gs: seq<Group<K, T>>, k: K, x: T): seq<Group<K, T>>
  {
    if |gs| == 0 then [Group(k, [x])]
    else if gs[0].key == k then [Group(k, gs[0].rows + [x])] + gs[1..]
    else [gs[0]] + AddTo(gs[1..], k, x)
  }

  /** With distinct keys, `AddTo` appends `x` to the one group keyed `k`, or
      opens a new last group for it. */
  lemma {:induction false} AddToShape<K, T>(gs: seq<Group<K, T>>, k: K, x: T)
    requires DistinctKeys(gs)
    ensures var r := AddTo(gs, k, x);
            k in GroupKeys(gs) ==>
              |r| == |gs| &&
              (forall i :: 0 <= i < |gs| && gs[i].key == k ==> r[i] == Group(k, gs[i].rows + [x])) &&
              (forall i :: 0 <= i < |gs| && gs[i].key != k ==> r[i] == gs[i])
    ensures k !in GroupKeys(gs) ==> AddTo(gs, k, x) == gs + [Group(k, [x])]
  {
    if |gs| > 0 && gs[0].key != k {
      var t := gs[1..];
      assert DistinctKeys(t);
      AddToShape(t, k, x);
      assert GroupKeys(gs) == {gs[0].key} + GroupKeys(t) by {
        assert forall i :: 0 < i < |gs| ==> gs[i] == t[i - 1];
        assert forall i :: 0 <= i < |t| ==> t[i] == gs[i + 1];
      }
    } else if |gs| > 0 {
      assert k in GroupKeys(gs);
    }
  }

  /** Adding a row keeps the keys distinct and adds the row's key to the key set. */
  lemma AddToKeys<K, T>(gs: seq<Group<K, T>>, k: K, x: T)
    requires DistinctKeys(gs)
    ensures DistinctKeys(AddTo(gs, k, x))
    ensures GroupKeys(AddTo(gs, k, x)) == GroupKeys(gs) + {k}
  {
    AddToShape(gs, k, x);
    var r := AddTo(gs, k, x);
    if k in GroupKeys(gs) {
      assert forall i :: 0 <= i < |gs| ==> r[i].key == gs[i].key;
    } else {
      assert forall i :: 0 <= i < |gs| ==> r[i] == gs[i];
      assert r[|gs|].key == k;
    }
  }

  /** The grouping as a fold of `AddTo` over the rows, which is what the
      `forEach` in `groupBy` computes. */
  function Fold<K(==), T>(data: seq<T>, key: T -> K): (gs: seq<Group<K, T>>)
    ensures DistinctKeys(gs)
    ensures GroupKeys(gs) == KeysIn(data, key)
  {
    if |data| == 0 then []
    else
      var g := Fold(data[..|data| - 1], key);
      AddToKeys(g, key(data[|data| - 1]), data[|data| - 1]);
      AddTo(g, key(data[|data| - 1]), data[|data| - 1])
  }

  /** Each group of the fold holds exactly the rows carrying its key. */
  lemma {:induction false} FoldRows<K, T>(data: seq<T>, key: T -> K)
    ensures forall i :: 0 <= i < |Fold(data, key)| ==>
              Fold(data, key)[i].rows == Matching(data, key, Fold(data, key)[i].key)
  {
    if |data| > 0 {
      var d := data[..|data| - 1];
      var x := data[|data| - 1];
      var g := Fold(d, key);
      var r := Fold(data, key);
      FoldRows(d, key);
      AddToShape(g, key(x), x);
      forall i | 0 <= i < |r|
        ensures r[i].rows == Matching(data, key, r[i].key)
      {
        if key(x) in GroupKeys(g) {
          assert r[i].key == g[i].key;
        } else if i == |g| {
          MatchingEmpty(d, key, key(x));
        } else {
          assert r[i] == g[i];
        }
      }
    }
  }

  /** A key no row carries matches no row. */
  lemma {:induction false} MatchingEmpty<K, T>(d: seq<T>, key: T -> K, c: K)
    requires c !in KeysIn(d, key)
    ensures Matching(d, key, c) == []
  {
    if |d| > 0 {
      MatchingEmpty(d[..|d| - 1], key, c);
    }
  }

  /** A key carried by some row is first seen inside the data; an absent one never. */
  lemma {:induction false} FirstSeenKeys<K, T>(d: seq<T>, key: T -> K, c: K)
    ensures c in KeysIn(d, key) ==> FirstSeen(d, key, c).Some? && FirstSeen(d, key, c).value < |d|
    ensures c !in KeysIn(d, key) ==> FirstSeen(d, key, c).None?
  {
    if |d| > 0 {
      FirstSeenKeys(d[..|d| - 1], key, c);
    }
  }

  /** Groups of the fold appear in the order their keys are first seen. */
  lemma {:induction false} FoldOrder<K, T>(data: seq<T>, key: T -> K)
    ensures forall i, j :: 0 <= i < j < |Fold(data, key)| ==>
              SeenBefore(data, key, Fold(data, key)[i].key, Fold(data, key)[j].key)
  {
    if |data| > 0 {
      var d := data[..|data| - 1];
      var x := data[|data| - 1];
      var g := Fold(d, key);
      var r := Fold(data, key);
      FoldOrder(d, key);
      AddToShape(g, key(x), x);
      forall i, j | 0 <= i < j < |r|
        ensures SeenBefore(data, key, r[i].key, r[j].key)
      {
        if j < |g| {
          assert r[i].key == g[i].key && r[j].key == g[j].key;
          assert SeenBefore(d, key, g[i].key, g[j].key);
        } else {
          assert r[i] == g[i] && r[j].key == key(x);
          assert g[i].key in GroupKeys(g);
          FirstSeenKeys(d, key, g[i].key);
          FirstSeenKeys(d, key, key(x));
        }
      }
    }
  }

  /** `groupBy(data, key)`: one group per distinct key, in first-seen order,
      each holding exactly the rows with that key in input order. */
  function GroupBy<K(==), T>(data: seq<T>, key: T -> K): (gs: seq<Group<K, T>>)
    ensures DistinctKeys(gs)
    ensures GroupKeys(gs) == KeysIn(data, key)
    ensures forall i :: 0 <= i < |gs| ==> gs[i].rows == Matching(data, key, gs[i].key)
    ensures forall i :: 0 <= i < |gs| ==> |gs[i].rows| > 0
    ensures forall i, j :: 0 <= i < j < |gs| ==> SeenBefore(data, key, gs[i].key, gs[j].key)
  {
    FoldRows(data, key);
    FoldOrder(data, key);
    GroupsNonEmpty(data, key, Fold(data, key));
    Fold(data, key)
  }

  lemma GroupsNonEmpty<K, T>(data: seq<T>, key: T -> K, gs: seq<Group<K, T>>)
    requires GroupKeys(gs) == KeysIn(data, key)
    requires forall i :: 0 <= i < |gs| ==> gs[i].rows == Matching(data, key, gs[i].key)
    ensures forall i :: 0 <= i < |gs| ==> |gs[i].rows| > 0
  {
    forall i | 0 <= i < |gs| ensures |gs[i].rows| > 0 {
      assert gs[i].key in GroupKeys(gs);
      MatchingNonEmpty(data, key, gs[i].key);
    }
  }

  /** A key some row carries matches at least one row. */
  lemma {:induction false} MatchingNonEmpty<K, T>(d: seq<T>, key: T -> K, c: K)
    requires c in KeysIn(d, key)
    ensures |Matching(d, key, c)| > 0
  {
    var x := d[|d| - 1];
    if key(x) != c {
      MatchingNonEmpty(d[..|d| - 1], key, c);
    }
  }

  /** A row is among the matches of `c` exactly when it is in the data and carries `c`. */
  lemma {:induction false} MatchingMembers<K, T>(d: seq<T>, key: T -> K, c: K, y: T)
    ensures y in Matching(d, key, c) <==> y in d && key(y) == c
  {
    if |d| > 0 {
      var p := d[..|d| - 1];
      MatchingMembers(p, key, c, y);
      assert d == p + [d[|d| - 1]];
    }
  }

  /** A row's key is among the keys of the data. */
  lemma {:induction false} KeysInMember<K, T>(d: seq<T>, key: T -> K, q: nat)
    requires q < |d|
    ensures key(d[q]) in KeysIn(d, key)
  {
    if q < |d| - 1 {
      KeysInMember(d[..|d| - 1], key, q);
    }
  }

  /** Groups with distinct keys are as many as their keys. */
  lemma {:induction false} DistinctCount<K, T>(gs: seq<Group<K, T>>)
    requires DistinctKeys(gs)
    ensures |GroupKeys(gs)| == |gs|
  {
    if |gs| > 0 {
      var p := gs[..|gs| - 1];
      var k := gs[|gs| - 1].key;
      DistinctCount(p);
      assert GroupKeys(gs) == GroupKeys(p) + {k} by {
        forall c | c in GroupKeys(gs)
          ensures c in GroupKeys(p) + {k}
        {
          var i :| 0 <= i < |gs| && gs[i].key == c;
          if i < |p| {
            assert p[i] == gs[i];
          }
        }
        forall c | c in GroupKeys(p)
          ensures c in GroupKeys(gs)
        {
          var i :| 0 <= i < |p| && p[i].key == c;
          assert gs[i] == p[i];
        }
        assert gs[|gs| - 1].key in GroupKeys(gs);
      }
      forall i | 0 <= i < |p|
        ensures p[i].key != k
      {
        assert p[i] == gs[i];
      }
      assert k !in GroupKeys(p);
      assert |GroupKeys(p) + {k}| == |GroupKeys(p)| + 1;
    }
  }

  /** `groupBy` makes one group per distinct key. */
  lemma {:induction false} GroupCount<K, T>(data: seq<T>, key: T -> K)
    ensures |GroupBy(data, key)| == |KeysIn(data, key)|
  {
    DistinctCount(GroupBy(data, key));
  }

  /** The rows of all groups, concatenated in group order. */
  function Rows<K, T>(gs: seq<Group<K, T>>): seq<T>
  {
    if |gs| == 0 then [] else Rows(gs[..|gs| - 1]) + gs[|gs| - 1].rows
  }

  /** `groupBy` loses and invents no record: concatenating the groups gives a
      permutation of the input. */
  lemma {:induction false} GroupByPermutation<K, T>(data: seq<T>, key: T -> K)
    ensures multiset(Rows(GroupBy(data, key))) == multiset(data)
  {
    FoldPermutation(data, key);
  }

  lemma {:induction false} FoldPermutation<K, T>(data: seq<T>, key: T -> K)
    ensures multiset(Rows(Fold(data, key))) == multiset(data)
  {
    if |data| > 0 {
      var d := data[..|data| - 1];
      var x := data[|data| - 1];
      FoldPermutation(d, key);
      StepPermutation(Fold(d, key), d, x, data, key);
    }
  }

  /** One step of the fold keeps the rows a permutation of the input read so far. */
  lemma {:induction false} StepPermutation<K, T>(g: seq<Group<K, T>>, d: seq<T>, x: T, data: seq<T>, key: T -> K)
    requires DistinctKeys(g) && multiset(Rows(g)) == multiset(d)
    requires data == d + [x]
    ensures multiset(Rows(AddTo(g, key(x), x))) == multiset(data)
  {
    AddToMultiset(g, key(x), x);
  }

  lemma {:induction false} AddToMultiset<K, T>(gs: seq<Group<K, T>>, k: K, x: T)
    requires DistinctKeys(gs)
    ensures multiset(Rows(AddTo(gs, k, x))) == multiset(Rows(gs)) + multiset{x}
  {
    AddToShape(gs, k, x);
    var r := AddTo(gs, k, x);
    if k in GroupKeys(gs) {
      var m :| 0 <= m < |gs| && gs[m].key == k;
      RowsUpdate(gs, r, m, x);
    } else {
      assert r[..|r| - 1] == gs;
    }
  }

  lemma {:induction false} RowsUpdate<K, T>(gs: seq<Group<K, T>>, r: seq<Group<K, T>>, m: nat, x: T)
    requires m < |gs| && |r| == |gs|
    requires r[m].rows == gs[m].rows + [x]
    requires forall i :: 0 <= i < |gs| && i != m ==> r[i] == gs[i]
    ensures multiset(Rows(r)) == multiset(Rows(gs)) + multiset{x}
  {
    var n := |gs| - 1;
    if m == n {
      assert r[..n] == gs[..n];
    } else {
      RowsUpdate(gs[..n], r[..n], m, x);
      assert r[n] == gs[n];
    }
  }

  /** Every record lands in exactly one group, the one whose key is the record's key. */
  lemma GroupByPartition<K, T>(data: seq<T>, key: T -> K, q: nat)
    requires q < |data|
    ensures exists i :: 0 <= i < |GroupBy(data, key)| && GroupBy(data, key)[i].key == key(data[q])
                        && data[q] in GroupBy(data, key)[i].rows
    ensures forall i :: 0 <= i < |GroupBy(data, key)| && data[q] in GroupBy(data, key)[i].rows ==>
                        GroupBy(data, key)[i].key == key(data[q])
  {
    var gs := GroupBy(data, key);
    KeysInMember(data, key, q);
    assert key(data[q]) in GroupKeys(gs);
    var i :| 0 <= i < |gs| && gs[i].key == key(data[q]);
    MatchingMembers(data, key, gs[i].key, data[q]);
    forall j | 0 <= j < |gs| && data[q] in gs[j].rows
      ensures gs[j].key == key(data[q])
    {
      MatchingMembers(data, key, gs[j].key, data[q]);
    }
  }

  /** `groupBy` as written: a `forEach` over the records that pushes each one
      onto its key's group. */
  method GroupByLoop<K(==), T>(data: seq<T>, key: T -> K) returns (gs: seq<Group<K, T>>)
    ensures DistinctKeys(gs)
    ensures GroupKeys(gs) == KeysIn(data, key)
    ensures forall i :: 0 <= i < |gs| ==> gs[i].rows == Matching(data, key, gs[i].key)
    ensures multiset(Rows(gs)) == multiset(data)
  {
    gs := [];
    var n := 0;
    while n < |data|
      invariant 0 <= n <= |data|
      invariant gs == Fold(data[..n], key)
    {
      assert data[..n + 1][..n] == data[..n];
      gs := AddTo(gs, key(data[n]), data[n]);
      n := n + 1;
    }
    assert data[..n] == data;
    FoldRows(data, key);
    FoldPermutation(data, key);
  }
}

=== FILE: charts.dfy ===
/** The dashboard's time-series renders, each an instance of the chart
    template with its own filter, category field, year field and value field.
    Selector values (indicator, variable, percentile, selected countries) are
    parameters. */
module Charts {
  import opened Wrappers
  import opened Aggregate
  import opened TimeSeries
  import opened Records
  import opened Indicators

  /** The axis keeps every year. */
  function AnyYear(y: int): bool { true }

  /** `renderLatamChart` keeps only axis years from 1980 on. */
  function From1980(y: int): bool { y >= 1980 }

  /* ---------- poverty ---------- */

  function LevelKeep(indicator: string): LevelRow -> bool {
    (r: LevelRow) => r.indicador == indicator && r.valor.Some?
  }
  function LevelNivel(r: LevelRow): string { r.nivel }
  function LevelAno(r: LevelRow): int { r.ano }
  function LevelValor(r: LevelRow): Option<real> { r.valor }

  /** `renderPobrezaNivel`: `pobrezaTableau` rows of the selected indicator
      (unmapped) with a value, one line per level. */
  function PobrezaNivel(rows: seq<LevelRow>, indicator: string): (c: LineChart<string>)
    ensures Shows(c, rows, LevelKeep(indicator), LevelNivel, LevelAno, LevelValor, AnyYear)
  {
    Chart(rows, LevelKeep(indicator), LevelNivel, LevelAno, LevelValor, AnyYear)
  }

  /** In the level chart a year shows `null` for a level exactly when that level
      has no row of the indicator with a value in that year; it is never 0. */
  lemma PobrezaNivelNullIffAbsent(rows: seq<LevelRow>, indicator: string, s: nat, j: nat)
    requires var c := PobrezaNivel(rows, indicator); s < |c.series| && j < |c.years|
    ensures var c := PobrezaNivel(rows, indicator);
            c.series[s].data[j].None? <==>
              forall i :: 0 <= i < |rows| ==>
                !(rows[i].indicador == indicator && rows[i].valor.Some? &&
                  rows[i].nivel == c.series[s].name && rows[i].ano == c.years[j])
  {
    var c := PobrezaNivel(rows, indicator);
    NullExactlyWhenAbsent(rows, LevelKeep(indicator), LevelNivel, LevelAno, LevelValor, c.series[s].name, c.years[j]);
  }

  function SexoKeep(indicator: string): GroupRow -> bool {
    (r: GroupRow) => r.tipoGrupo == "sexo" && r.indicador == MapIndicator(indicator) && r.valor.Some?
  }
  function GroupGrupo(r: GroupRow): string { r.grupo }
  function GroupAnio(r: GroupRow): int { r.anio }
  function GroupValor(r: GroupRow): Option<real> { r.valor }

  /** `renderPobrezaSexo`: `pobrezaSexoEtnia` rows of type `'sexo'` and the
      mapped indicator with a value, one line per group. */
  function PobrezaSexo(rows: seq<GroupRow>, indicator: string): (c: LineChart<string>)
    ensures Shows(c, rows, SexoKeep(indicator), GroupGrupo, GroupAnio, GroupValor, AnyYear)
  {
    Chart(rows, SexoKeep(indicator), GroupGrupo, GroupAnio, GroupValor, AnyYear)
  }

  function CategoryKeep(indicator: string): CategoryRow -> bool {
    (r: CategoryRow) => r.indicador == MapIndicator(indicator) && r.valor.Some?
  }
  function CategoryOf(r: CategoryRow): string { r.categoria }
  function CategoryAnio(r: CategoryRow): int { r.anio }
  function CategoryValor(r: CategoryRow): Option<real> { r.valor }

  /** `renderPobrezaEducacion`, `renderPobrezaEdad` and `renderPobrezaRegion`:
      rows of the mapped indicator with a value, one line per education level,
      age group or region. */
  function PobrezaCategoria(rows: seq<CategoryRow>, indicator: string): (c: LineChart<string>)
    ensures Shows(c, rows, CategoryKeep(indicator), CategoryOf, CategoryAnio, CategoryValor, AnyYear)
  {
    Chart(rows, CategoryKeep(indicator), CategoryOf, CategoryAnio, CategoryValor, AnyYear)
  }

  /* ---------- employment ---------- */

  function KeepAll<T>(r: T): bool { true }
  function SeriesIndicador(r: SeriesRow): string { r.indicador }
  function SeriesAnio(r: SeriesRow): int { r.anio }
  function SeriesValor(r: SeriesRow): Option<real> { r.valor }

  /** `renderEmpleoSeries`: every `empleoSeries` row, including those whose
      value is `null`, one line per indicator. */
  function EmpleoSeries(rows: seq<SeriesRow>): (c: LineChart<string>)
    ensures Shows(c, rows, KeepAll, SeriesIndicador, SeriesAnio, SeriesValor, AnyYear)
  {
    Chart(rows, KeepAll, SeriesIndicador, SeriesAnio, SeriesValor, AnyYear)
  }

  /** Because the employment series does not drop `null` rows, an entry is the
      value of the last row for its indicator and year even when that value is
      `null`, hiding any earlier value for the same year. */
  lemma EmpleoSeriesLastRowWins(rows: seq<SeriesRow>, s: nat, j: nat, i: nat)
    ensures var c := EmpleoSeries(rows);
            s < |c.series| && j < |c.years| && i < |rows|
            && rows[i].indicador == c.series[s].name && rows[i].anio == c.years[j]
            && (forall q :: i < q < |rows| ==> !(rows[q].indicador == c.series[s].name && rows[q].anio == c.years[j]))
            ==> c.series[s].data[j] == rows[i].valor
  {
    var c := EmpleoSeries(rows);
    if s < |c.series| && j < |c.years| && i < |rows|
       && rows[i].indicador == c.series[s].name && rows[i].anio == c.years[j]
       && (forall q :: i < q < |rows| ==> !(rows[q].indicador == c.series[s].name && rows[q].anio == c.years[j]))
    {
      ShownIsLastHit(c, rows, KeepAll, SeriesIndicador, SeriesAnio, SeriesValor, AnyYear, s, j, i);
    }
  }

  /* ---------- inequality ---------- */

  function TaxKeep(r: GiniTaxRow): bool { r.gini.Some? }
  function TaxCategoria(r: GiniTaxRow): string { r.categoria }
  function TaxAnio(r: GiniTaxRow): int { r.anio }
  function TaxGini(r: GiniTaxRow): Option<real> { r.gini }

  /** `renderGiniTax`: `giniTaxImpact` rows with a Gini value, one line per
      stage of taxation (`map[y] ?? null` reads like the template's lookup). */
  function GiniTax(rows: seq<GiniTaxRow>): (c: LineChart<string>)
    ensures Shows(c, rows, TaxKeep, TaxCategoria, TaxAnio, TaxGini, AnyYear)
  {
    Chart(rows, TaxKeep, TaxCategoria, TaxAnio, TaxGini, AnyYear)
  }

  function PanelKeep(r: GiniPanelRow): bool { r.valor.Some? && r.categoria != "LAC" }
  function PanelCategoria(r: GiniPanelRow): string { r.categoria }
  function PanelAno(r: GiniPanelRow): int { r.ano }
  function PanelValor(r: GiniPanelRow): Option<real> { r.valor }

  /** `renderGiniFull`: `giniPanel` rows with a value except the `'LAC'`
      category, one line per category. */
  function GiniFull(rows: seq<GiniPanelRow>): (c: LineChart<string>)
    ensures Shows(c, rows, PanelKeep, PanelCategoria, PanelAno, PanelValor, AnyYear)
  {
    Chart(rows, PanelKeep, PanelCategoria, PanelAno, PanelValor, AnyYear)
  }

  /** The Ecuador Gini chart never has a `'LAC'` line. */
  lemma GiniFullExcludesLac(rows: seq<GiniPanelRow>)
    ensures forall s :: 0 <= s < |GiniFull(rows).series| ==> GiniFull(rows).series[s].name != "LAC"
  {
    ShowsBacked(GiniFull(rows), rows, PanelKeep, PanelCategoria, PanelAno, PanelValor, AnyYear);
  }

  /** Which WID share a chart plots: `valueKey` in `renderWIDChart`. */
  datatype ShareKind = Income | Wealth

  function Share(kind: ShareKind): ShareRow -> Option<real> {
    (r: ShareRow) => if kind == Income then r.income else r.wealth
  }
  function ShareKeep(kind: ShareKind): ShareRow -> bool {
    (r: ShareRow) => Share(kind)(r).Some?
  }
  function SharePercentil(r: ShareRow): string { r.percentil }
  function SharePais(r: ShareRow): string { r.pais }
  function ShareAno(r: ShareRow): int { r.ano }

  /** `renderWIDChart`: an empty collection gives an empty chart; otherwise the
      rows with a value for the chosen share, one line per percentile. */
  function WidChart(rows: seq<ShareRow>, kind: ShareKind): (c: LineChart<string>)
    ensures Shows(c, rows, ShareKeep(kind), SharePercentil, ShareAno, Share(kind), AnyYear)
    ensures |rows| == 0 ==> c == LineChart([], [])
  {
    if |rows| == 0 then
      var c := LineChart([], []);
      assert Names(c.series) == {};
      c
    else Chart(rows, ShareKeep(kind), SharePercentil, ShareAno, Share(kind), AnyYear)
  }

  /** The rows `renderLatamChart` keeps: the chosen percentile, a selected
      country, and a value for the chosen share. */
  function LatamKeep(kind: ShareKind, percentile: string, selected: seq<string>): ShareRow -> bool {
    (r: ShareRow) => r.percentil == percentile && r.pais in selected && Share(kind)(r).Some?
  }

  /** `'income'` selects the income collection and share, anything else the
      wealth ones. */
  function KindOf(variable: string): ShareKind {
    if variable == "income" then Income else Wealth
  }

  /** `renderLatamChart`: one line per selected country, on an axis of the
      kept rows' years from 1980 on. */
  function LatamChart(incomeRows: seq<ShareRow>, wealthRows: seq<ShareRow>, variable: string,
                      percentile: string, selected: seq<string>): (c: LineChart<string>)
    ensures var rows := if variable == "income" then incomeRows else wealthRows;
            Shows(c, rows, LatamKeep(KindOf(variable), percentile, selected), SharePais, ShareAno,
                  Share(KindOf(variable)), From1980)
  {
    var rows := if variable == "income" then incomeRows else wealthRows;
    var kind := KindOf(variable);
    Chart(rows, LatamKeep(kind, percentile, selected), SharePais, ShareAno, Share(kind), From1980)
  }

  /** The LatAm chart's axis starts no earlier than 1980 and its lines are all
      selected countries. */
  lemma LatamCutoff(incomeRows: seq<ShareRow>, wealthRows: seq<ShareRow>, variable: string,
                    percentile: string, selected: seq<string>)
    ensures var c := LatamChart(incomeRows, wealthRows, variable, percentile, selected);
            (forall j :: 0 <= j < |c.years| ==> c.years[j] >= 1980) &&
            (forall s :: 0 <= s < |c.series| ==> c.series[s].name in selected)
  {
    var rows := if variable == "income" then incomeRows else wealthRows;
    var c := LatamChart(incomeRows, wealthRows, variable, percentile, selected);
    ShowsBacked(c, rows, LatamKeep(KindOf(variable), percentile, selected), SharePais, ShareAno,
                Share(KindOf(variable)), From1980);
  }
}

=== FILE: columns.dfy ===
/** `clean_column_name`: the converter's renaming of spreadsheet column and
    sheet names to camelCase JavaScript field names. */
module Columns {
  import opened Seqs

  /* ---------- whitespace and stripping ---------- */

  /** Python's `str.isspace`, which is also what `\s` matches in a `str`
      regular expression. */
  predicate IsSpace(c: char) {
    c == ' ' || ('\t' <= c <= '\r') || ('\U{1C}' <= c <= '\U{1F}')
    || c == '\U{85}' || c == '\U{A0}' || c == '\U{1680}' || ('\U{2000}' <= c <= '\U{200A}')
    || c == '\U{2028}' || c == '\U{2029}' || c == '\U{202F}' || c == '\U{205F}' || c == '\U{3000}'
  }

  /** The number of leading whitespace characters. */
  function StartOf(s: string): (i: nat)
    ensures i <= |s| && (i < |s| ==> !IsSpace(s[i]))
    ensures forall k :: 0 <= k < i ==> IsSpace(s[k])
  {
    if |s| > 0 && IsSpace(s[0]) then 1 + StartOf(s[1..]) else 0
  }

  /** The end of `s` once trailing whitespace after position `i` is dropped. */
  function EndOf(s: string, i: nat): (j: nat)
    requires i <= |s|
    ensures i <= j <= |s| && (j > i ==> !IsSpace(s[j - 1]))
    ensures forall k :: j <= k < |s| ==> IsSpace(s[k])
    decreases |s|
  {
    if |s| > i && IsSpace(s[|s| - 1]) then EndOf(s[..|s| - 1], i) else |s|
  }

  /** `str.strip()`: `s` without its leading and trailing whitespace. */
  function Strip(s: string): (r: string)
    ensures |r| > 0 ==> !IsSpace(r[0]) && !IsSpace(r[|r| - 1])
  {
    var i := StartOf(s);
    s[i..EndOf(s, i)]
  }

  /** Stripping recovers any text without surrounding whitespace from between
      any two runs of whitespace. */
  lemma StripSurrounded(a: string, m: string, b: string)
    requires forall k :: 0 <= k < |a| ==> IsSpace(a[k])
    requires forall k :: 0 <= k < |b| ==> IsSpace(b[k])
    requires |m| > 0 ==> !IsSpace(m[0]) && !IsSpace(m[|m| - 1])
    ensures Strip(a + m + b) == m
  {
    var s := a + m + b;
    var i := StartOf(s);
    var j := EndOf(s, i);
    if |m| > 0 {
      assert s[|a|] == m[0];
      assert s[|a| + |m| - 1] == m[|m| - 1];
      assert i == |a|;
      assert j == |a| + |m|;
      assert s[i..j] == m;
    } else {
      assert j == i;
    }
  }

  /* ---------- accents ---------- */

  /** The `replacements` dictionary, in its iteration order. */
  const Replacements: seq<(char, char)> :=
    [('á', 'a'), ('é', 'e'), ('í', 'i'), ('ó', 'o'), ('ú', 'u'),
     ('Á', 'A'), ('É', 'E'), ('Í', 'I'), ('Ó', 'O'), ('Ú', 'U'),
     ('ñ', 'n'), ('Ñ', 'N')]

  /** The twelve characters the dictionary replaces. */
  const Accents: string := "áéíóúÁÉÍÓÚñÑ"

  predicate Accented(c: char) {
    c in Accents
  }

  /** The dictionary replaces exactly the accented characters. */
  lemma AccentsReplaced()
    ensures |Accents| == |Replacements|
    ensures forall k :: 0 <= k < |Replacements| ==> Replacements[k].0 == Accents[k]
  {
  }

  /** `name.replace(old, new)` for one-character `old` and `new`, here `from` and `to`. */
  function ReplaceChar(s: string, from: char, to: char): (r: string)
    ensures |r| == |s|
    ensures forall i :: 0 <= i < |s| ==> r[i] == (if s[i] == from then to else s[i])
  {
    if |s| == 0 then []
    else [if s[0] == from then to else s[0]] + ReplaceChar(s[1..], from, to)
  }

  /** The loop `for old, new in replacements.items(): name = name.replace(old, new)`. */
  function ReplaceEach(s: string, reps: seq<(char, char)>): string
    decreases |reps|
  {
    if |reps| == 0 then s else ReplaceEach(ReplaceChar(s, reps[0].0, reps[0].1), reps[1..])
  }

  /** Reference: what `c` becomes under the first entry replacing it. */
  function Lookup(reps: seq<(char, char)>, c: char): char
    decreases |reps|
  {
    if |reps| == 0 then c else if reps[0].0 == c then reps[0].1 else Lookup(reps[1..], c)
  }

  /** No entry's replacement is itself replaced by an entry. */
  ghost predicate Settled(reps: seq<(char, char)>) {
    forall j, k :: 0 <= j < |reps| && 0 <= k < |reps| ==> reps[j].1 != reps[k].0
  }

  lemma SettledTail(reps: seq<(char, char)>)
    requires |reps| > 0 && Settled(reps)
    ensures Settled(reps[1..])
  {
    var rest := reps[1..];
    forall j, k | 0 <= j < |rest| && 0 <= k < |rest|
      ensures rest[j].1 != rest[k].0
    {
      assert rest[j] == reps[j + 1] && rest[k] == reps[k + 1];
    }
  }

  /** A character no entry replaces is left alone. */
  lemma {:induction false} LookupMissing(reps: seq<(char, char)>, c: char)
    requires forall k :: 0 <= k < |reps| ==> reps[k].0 != c
    ensures Lookup(reps, c) == c
  {
    if |reps| > 0 {
      LookupMissing(reps[1..], c);
    }
  }

  /** With settled entries, what a character becomes is never replaced again. */
  lemma {:induction false} LookupSettled(reps: seq<(char, char)>, c: char)
    requires Settled(reps)
    ensures forall k :: 0 <= k < |reps| ==> Lookup(reps, c) != reps[k].0
  {
    if |reps| > 0 && reps[0].0 != c {
      var rest := reps[1..];
      SettledTail(reps);
      LookupSettled(rest, c);
      LookupFrom(rest, c);
      forall k | 0 <= k < |reps|
        ensures Lookup(reps, c) != reps[k].0
      {
        if k > 0 {
          assert reps[k] == rest[k - 1];
        } else if Lookup(rest, c) != c {
          var m :| 0 <= m < |rest| && Lookup(rest, c) == rest[m].1;
          assert rest[m] == reps[m + 1];
        }
      }
    }
  }

  /** A character becomes itself or the replacement of some entry. */
  lemma {:induction false} LookupFrom(reps: seq<(char, char)>, c: char)
    ensures Lookup(reps, c) == c || exists m :: 0 <= m < |reps| && Lookup(reps, c) == reps[m].1
  {
    if |reps| > 0 && reps[0].0 != c {
      LookupFrom(reps[1..], c);
      if Lookup(reps[1..], c) != c {
        var m :| 0 <= m < |reps[1..]| && Lookup(reps[1..], c) == reps[1..][m].1;
        assert reps[1..][m] == reps[m + 1];
      }
    }
  }

  /** When no replacement is replaced again, the sequential replacements act
      on each character independently. */
  lemma {:induction false} ReplaceEachPointwise(s: string, reps: seq<(char, char)>)
    requires Settled(reps)
    ensures |ReplaceEach(s, reps)| == |s|
    ensures forall i :: 0 <= i < |s| ==> ReplaceEach(s, reps)[i] == Lookup(reps, s[i])
    decreases |reps|
  {
    if |reps| > 0 {
      var t := ReplaceChar(s, reps[0].0, reps[0].1);
      var rest := reps[1..];
      SettledTail(reps);
      ReplaceEachPointwise(t, rest);
      forall i | 0 <= i < |s|
        ensures ReplaceEach(s, reps)[i] == Lookup(reps, s[i])
      {
        if s[i] == reps[0].0 {
          forall k | 0 <= k < |rest|
            ensures rest[k].0 != reps[0].1
          {
            assert rest[k] == reps[k + 1];
          }
          LookupMissing(rest, reps[0].1);
        }
      }
    }
  }

  lemma ReplacementsSettled()
    ensures Settled(Replacements)
  {
  }

  /** One character with its accent removed. */
  function Deaccent(c: char): (d: char)
    ensures !Accented(d)
    ensures !Accented(c) ==> d == c
  {
    ReplacementsSettled();
    AccentsReplaced();
    LookupSettled(Replacements, c);
    if !Accented(c) then LookupMissing(Replacements, c); Lookup(Replacements, c)
    else Lookup(Replacements, c)
  }

  /** The replacement loop, which removes the accents character by character. */
  function Deaccented(s: string): (r: string)
    ensures |r| == |s|
    ensures forall i :: 0 <= i < |s| ==> r[i] == Deaccent(s[i])
  {
    ReplacementsSettled();
    ReplaceEachPointwise(s, Replacements);
    ReplaceEach(s, Replacements)
  }

  /* ---------- splitting ---------- */

  /** A character of the class `[\s_-]`. */
  predicate IsSep(c: char) {
    IsSpace(c) || c == '_' || c == '-'
  }

  /** Every character of `s` satisfies `p`. */
  predicate Every(s: string, p: char -> bool) {
    forall k :: 0 <= k < |s| ==> p(s[k])
  }

  /** No character of `s` is in the class `sep`. */
  predicate NoneIn(s: string, sep: char -> bool) {
    forall k :: 0 <= k < |s| ==> !sep(s[k])
  }

  lemma EveryAppend(a: string, b: string, p: char -> bool)
    ensures Every(a + b, p) <==> Every(a, p) && Every(b, p)
  {
    if Every(a, p) && Every(b, p) {
      forall k | 0 <= k < |a + b|
        ensures p((a + b)[k])
      {
        if k >= |a| {
          assert (a + b)[k] == b[k - |a|];
        }
      }
    }
    if Every(a + b, p) {
      forall k | 0 <= k < |a|
        ensures p(a[k])
      {
        assert a[k] == (a + b)[k];
      }
      forall k | 0 <= k < |b|
        ensures p(b[k])
      {
        assert b[k] == (a + b)[k + |a|];
      }
    }
  }

  /* The splitting functions take the separator class as a parameter `sep`;
     the conversion uses them with `IsSep`. */

  /** The index of the first separator, or `|s|`. */
  function SepIndex(s: string, sep: char -> bool): (i: nat)
    ensures i <= |s| && (i < |s| ==> sep(s[i]))
    ensures NoneIn(s[..i], sep)
  {
    if |s| == 0 || sep(s[0]) then 0
    else
      var i := SepIndex(s[1..], sep);
      assert s[..1 + i] == [s[0]] + s[1..][..i];
      1 + i
  }

  /** The end of the run of separators starting at `i`. */
  function RunEnd(s: string, i: nat, sep: char -> bool): (j: nat)
    requires i <= |s|
    ensures i <= j <= |s| && (j < |s| ==> !sep(s[j]))
    ensures forall k :: i <= k < j ==> sep(s[k])
    decreases |s| - i
  {
    if i < |s| && sep(s[i]) then RunEnd(s, i + 1, sep) else i
  }

  /** The run starting at `i` consists of separators. */
  lemma RunEvery(s: string, i: nat, sep: char -> bool)
    requires i <= |s|
    ensures Every(s[i..RunEnd(s, i, sep)], sep)
  {
    var j := RunEnd(s, i, sep);
    forall k | 0 <= k < j - i ensures sep(s[i..j][k]) {
      assert s[i..j][k] == s[i + k];
    }
  }

  /** The characters of `s` that are not separators, in order. */
  function Unseparated(s: string, sep: char -> bool): (r: string)
    ensures NoneIn(r, sep)
  {
    if |s| == 0 then []
    else
      var h := if sep(s[0]) then [] else [s[0]];
      var t := Unseparated(s[1..], sep);
      assert forall k :: |h| <= k < |h + t| ==> (h + t)[k] == t[k - |h|];
      h + t
  }

  /** The words concatenated. */
  function Concat(ws: seq<string>): string {
    if |ws| == 0 then "" else ws[0] + Concat(ws[1..])
  }

  /** Each of `runs` is a non-empty run of separators. */
  predicate SepRuns(runs: seq<string>, sep: char -> bool) {
    forall q :: 0 <= q < |runs| ==> |runs[q]| > 0 && Every(runs[q], sep)
  }

  /** The words `ws` with `runs[q]` between `ws[q]` and `ws[q + 1]`. */
  function Joined(ws: seq<string>, runs: seq<string>): string
    requires |ws| >= 1 && |runs| == |ws| - 1
    decreases |ws|
  {
    if |ws| == 1 then ws[0] else ws[0] + runs[0] + Joined(ws[1..], runs[1..])
  }

  /** `re.split(r'[\s_-]+', s)` for the class `sep`: the pieces between
      maximal runs of separators; a leading or trailing run yields an empty
      first or last word. */
  function Split(s: string, sep: char -> bool): (ws: seq<string>)
    ensures |ws| >= 1
    ensures forall q :: 0 <= q < |ws| ==> NoneIn(ws[q], sep)
    ensures forall q :: 0 < q < |ws| - 1 ==> |ws[q]| > 0
    ensures Concat(ws) == Unseparated(s, sep)
    decreases |s|
  {
    var i := SepIndex(s, sep);
    if i == |s| then
      assert s[..i] == s;
      NoSepUnseparated(s, sep);
      assert Concat([s]) == s + Concat([]);
      [s]
    else
      var j := RunEnd(s, i, sep);
      var rest := Split(s[j..], sep);
      assert s == s[..i] + s[i..j] + s[j..];
      UnseparatedSplit(s[..i], s[i..j], s[j..], sep);
      var ws := [s[..i]] + rest;
      assert ws[1..] == rest;
      assert forall q :: 1 <= q < |ws| ==> ws[q] == rest[q - 1];
      ws
  }

  /** The words of `s` joined by non-empty runs of separators give back `s`. */
  lemma {:induction false} SplitJoins(s: string, sep: char -> bool)
    ensures exists runs :: |runs| == |Split(s, sep)| - 1 && SepRuns(runs, sep) && s == Joined(Split(s, sep), runs)
    decreases |s|
  {
    var i := SepIndex(s, sep);
    if i == |s| {
      assert s[..i] == s;
      assert Split(s, sep) == [s];
      assert s == Joined([s], []);
    } else {
      var j := RunEnd(s, i, sep);
      var w, run, tail := s[..i], s[i..j], s[j..];
      assert s == w + run + tail;
      RunEvery(s, i, sep);
      var rest := Split(tail, sep);
      assert Split(s, sep) == [w] + rest;
      SplitJoins(tail, sep);
      var more :| |more| == |rest| - 1 && SepRuns(more, sep) && tail == Joined(rest, more);
      JoinedCons(w, run, tail, rest, more, sep);
      assert s == Joined(Split(s, sep), [run] + more);
    }
  }

  /** A word and a separator run in front of a joined string make a joined string. */
  lemma JoinedCons(w: string, run: string, tail: string, ws: seq<string>, runs: seq<string>, sep: char -> bool)
    requires |ws| >= 1 && |runs| == |ws| - 1 && tail == Joined(ws, runs)
    requires |run| > 0 && Every(run, sep) && SepRuns(runs, sep)
    ensures SepRuns([run] + runs, sep)
    ensures w + run + tail == Joined([w] + ws, [run] + runs)
  {
    assert ([w] + ws)[1..] == ws && ([run] + runs)[1..] == runs;
    SepRunsCons(run, runs, sep);
  }

  lemma SepRunsCons(run: string, runs: seq<string>, sep: char -> bool)
    requires |run| > 0 && Every(run, sep) && SepRuns(runs, sep)
    ensures SepRuns([run] + runs, sep)
  {
    forall q | 0 < q < |runs| + 1 ensures |([run] + runs)[q]| > 0 && Every(([run] + runs)[q], sep) {
      assert ([run] + runs)[q] == runs[q - 1];
    }
  }

  /** A joined string starts like its first word, when that word is not
      alone and empty. */
  lemma JoinedHead(ws: seq<string>, runs: seq<string>)
    requires |ws| >= 1 && |runs| == |ws| - 1
    requires |ws| > 1 ==> |ws[0]| > 0
    ensures |Joined(ws, runs)| > 0 ==> |ws[0]| > 0 && Joined(ws, runs)[0] == ws[0][0]
  {
  }

  /** A joined string ends like its last word, when that word is not empty. */
  lemma {:induction false} JoinedLast(ws: seq<string>, runs: seq<string>)
    requires |ws| >= 1 && |runs| == |ws| - 1
    requires |ws[|ws| - 1]| > 0
    ensures |Joined(ws, runs)| > 0
    ensures Joined(ws, runs)[|Joined(ws, runs)| - 1] == ws[|ws| - 1][|ws[|ws| - 1]| - 1]
    decreases |ws|
  {
    if |ws| > 1 {
      var tail := Joined(ws[1..], runs[1..]);
      JoinedLast(ws[1..], runs[1..]);
      assert ws[1..][|ws| - 2] == ws[|ws| - 1];
      assert Joined(ws, runs) == (ws[0] + runs[0]) + tail;
    }
  }

  /** A property of every character of the words and of the runs holds of
      every character of the joined string. */
  lemma {:induction false} JoinedEvery(ws: seq<string>, runs: seq<string>, p: char -> bool)
    requires |ws| >= 1 && |runs| == |ws| - 1
    requires forall q :: 0 <= q < |ws| ==> Every(ws[q], p)
    requires forall q :: 0 <= q < |runs| ==> Every(runs[q], p)
    ensures Every(Joined(ws, runs), p)
    decreases |ws|
  {
    if |ws| > 1 {
      JoinedEvery(ws[1..], runs[1..], p);
      EveryAppend(ws[0], runs[0], p);
      EveryAppend(ws[0] + runs[0], Joined(ws[1..], runs[1..]), p);
    }
  }

  /** The first separator of `w + t` is where `t` starts, when `w` has none
      and `t` starts with one. */
  lemma {:induction false} SepIndexAt(w: string, t: string, sep: char -> bool)
    requires NoneIn(w, sep)
    requires |t| > 0 ==> sep(t[0])
    ensures SepIndex(w + t, sep) == |w|
  {
    if |w| > 0 {
      assert (w + t)[1..] == w[1..] + t;
      SepIndexAt(w[1..], t, sep);
    } else {
      assert w + t == t;
    }
  }

  /** The run of separators from `i` ends at the first non-separator. */
  lemma {:induction false} RunEndAt(s: string, i: nat, k: nat, sep: char -> bool)
    requires i <= k <= |s|
    requires forall m :: i <= m < k ==> sep(s[m])
    requires k < |s| ==> !sep(s[k])
    ensures RunEnd(s, i, sep) == k
    decreases k - i
  {
    if i < k {
      RunEndAt(s, i + 1, k, sep);
    }
  }

  /** Splitting undoes joining: words free of separators, the inner ones
      non-empty, joined by runs of separators split back into those words.
      With `SplitJoins`, `Split(s, sep)` is the one such word list for `s`. */
  lemma {:induction false} SplitJoined(ws: seq<string>, runs: seq<string>, sep: char -> bool)
    requires |ws| >= 1 && |runs| == |ws| - 1
    requires forall q :: 0 <= q < |ws| ==> NoneIn(ws[q], sep)
    requires forall q :: 0 < q < |ws| - 1 ==> |ws[q]| > 0
    requires SepRuns(runs, sep)
    ensures Split(Joined(ws, runs), sep) == ws
    decreases |ws|
  {
    if |ws| == 1 {
      SepIndexAt(ws[0], "", sep);
      assert ws[0] + "" == ws[0];
      assert ws == [ws[0]];
    } else {
      var vs, more := ws[1..], runs[1..];
      assert forall q :: 0 <= q < |vs| ==> vs[q] == ws[q + 1];
      assert forall q :: 0 <= q < |more| ==> more[q] == runs[q + 1];
      var tail := Joined(vs, more);
      SplitJoined(vs, more, sep);
      JoinedHead(vs, more);
      SplitStep(ws[0], runs[0], tail, sep);
      assert Joined(ws, runs) == ws[0] + runs[0] + tail;
      assert [ws[0]] + vs == ws;
    }
  }

  /** A word, a run of separators, and a rest not starting with one: the
      word is split off and the rest split on its own. */
  lemma SplitStep(w: string, run: string, tail: string, sep: char -> bool)
    requires NoneIn(w, sep)
    requires |run| > 0 && Every(run, sep)
    requires |tail| > 0 ==> !sep(tail[0])
    ensures Split(w + run + tail, sep) == [w] + Split(tail, sep)
  {
    StepFacts(w, run, tail, sep);
  }

  /** Where the first separator run of `w + run + tail` starts and ends. */
  lemma StepFacts(w: string, run: string, tail: string, sep: char -> bool)
    requires NoneIn(w, sep)
    requires |run| > 0 && Every(run, sep)
    requires |tail| > 0 ==> !sep(tail[0])
    ensures SepIndex(w + run + tail, sep) == |w|
    ensures RunEnd(w + run + tail, |w|, sep) == |w| + |run|
    ensures (w + run + tail)[..|w|] == w && (w + run + tail)[|w| + |run|..] == tail
  {
    var rt := run + tail;
    var s := w + rt;
    assert w + run + tail == s;
    SepIndexAt(w, rt, sep);
    var i, j := |w|, |w| + |run|;
    forall m | i <= m < j ensures sep(s[m]) {
      assert s[m] == rt[m - i] == run[m - i];
    }
    assert j < |s| ==> s[j] == rt[|run|] == tail[0];
    RunEndAt(s, i, j, sep);
    assert s[..i] == w;
    assert s[j..] == tail;
  }

  /** The words of `s` keep any property all characters of `s` have. */
  lemma {:induction false} SplitKeeps(s: string, sep: char -> bool, p: char -> bool)
    requires Every(s, p)
    ensures forall q :: 0 <= q < |Split(s, sep)| ==> Every(Split(s, sep)[q], p)
    decreases |s|
  {
    var i := SepIndex(s, sep);
    if i < |s| {
      var j := RunEnd(s, i, sep);
      assert Every(s[j..], p) by {
        forall k | 0 <= k < |s[j..]| ensures p(s[j..][k]) {
          assert s[j..][k] == s[j + k];
        }
      }
      SplitKeeps(s[j..], sep, p);
      var ws := Split(s, sep);
      assert ws == [s[..i]] + Split(s[j..], sep);
      forall q | 0 <= q < |ws|
        ensures Every(ws[q], p)
      {
        if q > 0 {
          assert ws[q] == Split(s[j..], sep)[q - 1];
        }
      }
    }
  }

  /** A string without separators is its own unseparated form. */
  lemma {:induction false} NoSepUnseparated(s: string, sep: char -> bool)
    requires NoneIn(s, sep)
    ensures Unseparated(s, sep) == s
  {
    if |s| > 0 {
      NoSepUnseparated(s[1..], sep);
    }
  }

  lemma {:induction false} UnseparatedAppend(a: string, b: string, sep: char -> bool)
    ensures Unseparated(a + b, sep) == Unseparated(a, sep) + Unseparated(b, sep)
  {
    if |a| > 0 {
      var h := if sep(a[0]) then "" else [a[0]];
      assert (a + b)[0] == a[0];
      assert (a + b)[1..] == a[1..] + b;
      UnseparatedAppend(a[1..], b, sep);
      assert Unseparated(a + b, sep) == h + (Unseparated(a[1..], sep) + Unseparated(b, sep));
      assert Unseparated(a, sep) == h + Unseparated(a[1..], sep);
    } else {
      assert a + b == b;
    }
  }

  lemma {:induction false} AllSepUnseparated(s: string, sep: char -> bool)
    requires forall k :: 0 <= k < |s| ==> sep(s[k])
    ensures Unseparated(s, sep) == ""
  {
    if |s| > 0 {
      AllSepUnseparated(s[1..], sep);
    }
  }

  /** Splitting off a word and the separator run after it. */
  lemma {:induction false} UnseparatedSplit(w: string, run: string, tail: string, sep: char -> bool)
    requires NoneIn(w, sep)
    requires forall k :: 0 <= k < |run| ==> sep(run[k])
    ensures Unseparated(w + run + tail, sep) == w + Unseparated(tail, sep)
  {
    assert w + run + tail == w + (run + tail);
    assert Unseparated(w, sep) == w by {
      NoSepUnseparated(w, sep);
    }
    assert Unseparated(run + tail, sep) == Unseparated(tail, sep) by {
      UnseparatedAppend(run, tail, sep);
      AllSepUnseparated(run, sep);
    }
    UnseparatedAppend(w, run + tail, sep);
  }

  /* ---------- case ---------- */

  /** `str.lower` on ASCII letters. */
  function LowerChar(c: char): (d: char)
    ensures 'A' <= c <= 'Z' ==> d as int == c as int + 32
    ensures !('A' <= c <= 'Z') ==> d == c
  {
    if 'A' <= c <= 'Z' then (c as int + 32) as char else c
  }

  /** `str.upper` on ASCII letters. */
  function UpperChar(c: char): (d: char)
    ensures 'a' <= c <= 'z' ==> d as int == c as int - 32
    ensures !('a' <= c <= 'z') ==> d == c
  {
    if 'a' <= c <= 'z' then (c as int - 32) as char else c
  }

  /** A character an output name may hold: neither a separator nor accented. */
  function Plain(c: char): bool { !IsSep(c) && !Accented(c) }

  /** Case changes keep a character plain, and lowering forgets upper-casing. */
  lemma CasePlain(c: char)
    ensures Plain(c) ==> Plain(LowerChar(c)) && Plain(UpperChar(c))
    ensures LowerChar(UpperChar(c)) == LowerChar(c)
    ensures LowerChar(LowerChar(c)) == LowerChar(c)
  {
  }

  function Lower(s: string): (r: string)
    ensures |r| == |s|
    ensures forall i :: 0 <= i < |s| ==> r[i] == LowerChar(s[i])
  {
    if |s| == 0 then [] else [LowerChar(s[0])] + Lower(s[1..])
  }

  /** `str.capitalize`: the first character upper case, the rest lower case. */
  function Capitalize(w: string): (r: string)
    ensures |r| == |w|
    ensures |w| > 0 ==> r[0] == UpperChar(w[0])
    ensures forall i :: 0 < i < |w| ==> r[i] == LowerChar(w[i])
  {
    if |w| == 0 then "" else [UpperChar(w[0])] + Lower(w[1..])
  }

  lemma {:induction false} LowerPlain(s: string)
    requires Every(s, Plain)
    ensures Every(Lower(s), Plain) && Every(Capitalize(s), Plain)
  {
    forall k | 0 <= k < |s| ensures Plain(Lower(s)[k]) && Plain(Capitalize(s)[k]) {
      CasePlain(s[k]);
    }
  }

  /** Lower-casing ignores earlier case changes. */
  lemma LowerCase(s: string)
    ensures Lower(Lower(s)) == Lower(s)
    ensures Lower(Capitalize(s)) == Lower(s)
  {
    forall k | 0 <= k < |s| ensures Lower(Lower(s))[k] == Lower(s)[k] && Lower(Capitalize(s))[k] == Lower(s)[k] {
      CasePlain(s[k]);
    }
  }

  lemma LowerAppend(a: string, b: string)
    ensures Lower(a + b) == Lower(a) + Lower(b)
  {
    assert forall k :: 0 <= k < |a + b| ==> Lower(a + b)[k] == (Lower(a) + Lower(b))[k];
  }

  /** `words[0].lower()` followed by the later words. */
  function CamelCase(ws: seq<string>): string
    requires |ws| >= 1
  {
    Lower(ws[0]) + Humps(ws[1..])
  }

  /** The loop over `words[1:]`: each non-empty word capitalised, an empty
      word contributing nothing. */
  function Humps(ws: seq<string>): string {
    if |ws| == 0 then "" else (if ws[0] != "" then Capitalize(ws[0]) else "") + Humps(ws[1..])
  }

  lemma {:induction false} HumpsPlain(ws: seq<string>)
    requires forall q :: 0 <= q < |ws| ==> Every(ws[q], Plain)
    ensures Every(Humps(ws), Plain)
  {
    if |ws| > 0 {
      HumpsPlain(ws[1..]);
      LowerPlain(ws[0]);
      EveryAppend(if ws[0] != "" then Capitalize(ws[0]) else "", Humps(ws[1..]), Plain);
    }
  }

  /** Lower-cased, the later words read as their concatenation. */
  lemma {:induction false} HumpsLower(ws: seq<string>)
    ensures Lower(Humps(ws)) == Lower(Concat(ws))
  {
    if |ws| > 0 {
      HumpsLower(ws[1..]);
      var h := if ws[0] != "" then Capitalize(ws[0]) else "";
      LowerAppend(h, Humps(ws[1..]));
      LowerAppend(ws[0], Concat(ws[1..]));
      LowerCase(ws[0]);
    }
  }

  /* ---------- the whole conversion ---------- */

  /** `clean_column_name`: strip, remove accents, split on separator runs and
      join the words in camelCase. The `if not words` branch is never taken:
      `re.split` always returns at least one word. */
  function CleanColumnName(name: string): (r: string)
    ensures Every(r, Plain)
  {
    var ws := Split(Deaccented(Strip(name)), IsSep);
    DeaccentedPlain(Strip(name));
    CamelPlain(ws);
    CamelCase(ws)
  }

  lemma CamelPlain(ws: seq<string>)
    requires |ws| >= 1
    requires forall q :: 0 <= q < |ws| ==> Every(ws[q], Plain)
    ensures Every(CamelCase(ws), Plain)
  {
    assert forall q :: 0 < q < |ws| ==> ws[1..][q - 1] == ws[q];
    HumpsPlain(ws[1..]);
    LowerPlain(ws[0]);
    EveryAppend(Lower(ws[0]), Humps(ws[1..]), Plain);
  }

  /** Words of a de-accented string hold no accent; with no separator in
      them either, they are plain. */
  lemma DeaccentedPlain(t: string)
    ensures forall q :: 0 <= q < |Split(Deaccented(t), IsSep)| ==> Every(Split(Deaccented(t), IsSep)[q], Plain)
  {
    var s := Deaccented(t);
    var notAccented := (c: char) => !Accented(c);
    assert Every(s, notAccented);
    SplitKeeps(s, IsSep, notAccented);
    var ws := Split(s, IsSep);
    forall q | 0 <= q < |ws|
      ensures Every(ws[q], Plain)
    {
      assert NoneIn(ws[q], IsSep);
      assert Every(ws[q], notAccented);
    }
  }

  /** A name with no separator and no accent comes out lower-cased. */
  lemma {:induction false} PlainNameLowered(name: string)
    requires Every(name, Plain)
    ensures CleanColumnName(name) == Lower(name)
  {
    assert StartOf(name) == 0;
    assert EndOf(name, 0) == |name|;
    assert Strip(name) == name;
    assert Deaccented(name) == name;
    assert SepIndex(name, IsSep) == |name|;
    assert Split(name, IsSep) == [name];
  }

  /** No separator carries an accent. */
  lemma SepNotAccented(c: char)
    ensures IsSep(c) ==> !Accented(c)
  {
  }

  /** With no empty word, the later words are capitalised and concatenated. */
  lemma {:induction false} HumpsCapitalized(ws: seq<string>)
    requires forall q :: 0 <= q < |ws| ==> |ws[q]| > 0
    ensures Humps(ws) == Concat(MapSeq(ws, Capitalize))
  {
    if |ws| > 0 {
      HumpsCapitalized(ws[1..]);
      var m := MapSeq(ws, Capitalize);
      assert m[1..] == MapSeq(ws[1..], Capitalize);
    }
  }

  function Unaccented(c: char): bool { !Accented(c) }

  /** Removing accents leaves a string without accents as it is. */
  lemma DeaccentedUnaccented(s: string)
    requires Every(s, Unaccented)
    ensures Deaccented(s) == s
  {
    forall k | 0 <= k < |s| ensures Deaccented(s)[k] == s[k] {
      assert Unaccented(s[k]);
    }
  }

  /** Stripping and removing accents leave non-empty plain words joined by
      runs of separators as they are. */
  lemma JoinedUnchanged(ws: seq<string>, runs: seq<string>)
    requires |ws| >= 1 && |runs| == |ws| - 1
    requires forall q :: 0 <= q < |ws| ==> |ws[q]| > 0 && Every(ws[q], Plain)
    requires SepRuns(runs, IsSep)
    ensures Deaccented(Strip(Joined(ws, runs))) == Joined(ws, runs)
  {
    var s := Joined(ws, runs);
    JoinedHead(ws, runs);
    JoinedLast(ws, runs);
    StripSurrounded("", s, "");
    assert "" + s + "" == s;
    forall q | 0 <= q < |ws| ensures Every(ws[q], Unaccented) {
      assert forall k :: 0 <= k < |ws[q]| ==> Plain(ws[q][k]);
    }
    forall q | 0 <= q < |runs| ensures Every(runs[q], Unaccented) {
      forall k | 0 <= k < |runs[q]| ensures Unaccented(runs[q][k]) {
        SepNotAccented(runs[q][k]);
      }
    }
    JoinedEvery(ws, runs, Unaccented);
    DeaccentedUnaccented(s);
  }

  /** The camelCase promise: non-empty plain words joined by runs of
      separators come out as the first word lower-cased followed by every
      later word capitalised. */
  lemma CleanJoined(ws: seq<string>, runs: seq<string>)
    requires |ws| >= 1 && |runs| == |ws| - 1
    requires forall q :: 0 <= q < |ws| ==> |ws[q]| > 0 && Every(ws[q], Plain)
    requires SepRuns(runs, IsSep)
    ensures CleanColumnName(Joined(ws, runs)) == Lower(ws[0]) + Concat(MapSeq(ws[1..], Capitalize))
  {
    JoinedUnchanged(ws, runs);
    PlainWordsSplit(ws, runs);
    CamelCapitalized(ws);
  }

  lemma PlainWordsSplit(ws: seq<string>, runs: seq<string>)
    requires |ws| >= 1 && |runs| == |ws| - 1
    requires forall q :: 0 <= q < |ws| ==> |ws[q]| > 0 && Every(ws[q], Plain)
    requires SepRuns(runs, IsSep)
    ensures Split(Joined(ws, runs), IsSep) == ws
  {
    forall q | 0 <= q < |ws| ensures NoneIn(ws[q], IsSep) {
      assert Every(ws[q], Plain);
    }
    SplitJoined(ws, runs, IsSep);
  }

  /** With no empty word, camelCase lower-cases the first word and
      capitalises every later one. */
  lemma CamelCapitalized(ws: seq<string>)
    requires |ws| >= 1
    requires forall q :: 0 <= q < |ws| ==> |ws[q]| > 0
    ensures CamelCase(ws) == Lower(ws[0]) + Concat(MapSeq(ws[1..], Capitalize))
  {
    assert forall q :: 0 <= q < |ws| - 1 ==> ws[1..][q] == ws[q + 1];
    HumpsCapitalized(ws[1..]);
  }

  /** Apart from letter case, the result is the stripped, de-accented name
      with its separators removed. */
  lemma {:induction false} CleanDropsOnlySeparators(name: string)
    ensures Lower(CleanColumnName(name)) == Lower(Unseparated(Deaccented(Strip(name)), IsSep))
  {
    var ws := Split(Deaccented(Strip(name)), IsSep);
    LowerAppend(Lower(ws[0]), Humps(ws[1..]));
    LowerCase(ws[0]);
    HumpsLower(ws[1..]);
    LowerAppend(ws[0], Concat(ws[1..]));
  }
}

=== FILE: convert.dfy ===
/** The converter's main loop: which spreadsheet files become datasets of
    `data.js`, under which key, and how the files are counted. */
module Convert {
  import opened Wrappers

  /** `DATASET_MAPPING`: spreadsheet file name to JavaScript key, in the
      dictionary's order. */
  const DatasetMapping: seq<(string, string)> := [
    ("scorecards_indicadores.xlsx", "scorecards"),
    ("series_historicas_indicadores.xlsx", "seriesHistoricas"),
    ("Pobreza_tableau.xlsx", "pobrezaTableau"),
    ("gini_panel_tableau.xlsx", "giniPanel"),
    ("pobreza_provincial.xlsx", "pobrezaProvincial"),
    ("pobreza_sexo_etnia.xlsx", "pobrezaSexoEtnia"),
    ("indicadores_sexo_etnia.xlsx", "indicadoresSexoEtnia"),
    ("WID_ingreso_percentiles_tableau.xlsx", "widIngresoPercentiles"),
    ("WID_riqueza_percentiles_tableau.xlsx", "widRiquezaPercentiles"),
    ("WID_ingreso_percentiles_ALC_tableau.xlsx", "widIngresoPercentilesALC"),
    ("WID_riqueza_percentiles_ALC_tableau.xlsx", "widRiquezaPercentilesALC"),
    ("pobreza_educacion.xlsx", "pobrezaEducacion"),
    ("pobreza_edad.xlsx", "pobrezaEdad"),
    ("pobreza_region.xlsx", "pobrezaRegion"),
    ("variacion_pobreza_significancia.xlsx", "variacionPobrezaSignificancia"),
    ("empleo_series.xlsx", "empleoSeries"),
    ("empleo_demografico.xlsx", "empleoDemografico"),
    ("empleo_scorecard.xlsx", "empleoScorecard"),
    ("variacion_empleo_significancia.xlsx", "variacionEmpleoSignificancia"),
    ("salarios_series.xlsx", "salariosSeries"),
    ("brechas_salariales.xlsx", "brechasSalariales"),
    ("crecimiento_percentiles.xlsx", "crecimientoPercentiles"),
    ("crecimiento_demografico.xlsx", "crecimientoDemografico"),
    ("crecimiento_empleo_sector.xlsx", "crecimientoEmpleoSector"),
    ("gini_lac_comparison.xlsx", "giniLacComparison"),
    ("pobreza_multidimensional_scorecard.xlsx", "pobrezaMultidimensionalScorecard"),
    ("pobreza_multidimensional_series.xlsx", "pobrezaMultidimensionalSeries"),
    ("iess_afiliados.xlsx", "iessAfiliados"),
    ("sri_percentiles_ingreso.xlsx", "sriPercentilesIngreso"),
    ("tributacion_graficos.xlsx", "tributacionGraficos"),
    ("gini_tax_impact.xlsx", "giniTaxImpact"),
    ("poblacion_percentiles.xlsx", "poblacionPercentiles")
  ]

  /** Office's lock files start with `~$`. */
  predicate IsTemporary(name: string) {
    |name| >= 2 && name[..2] == "~$"
  }

  /** `DATASET_MAPPING.get(name)`: the key of the entry for `name`, if any. */
  function Get(entries: seq<(string, string)>, name: string): (r: Option<string>)
    ensures r.Some? <==> exists i :: 0 <= i < |entries| && entries[i].0 == name
    ensures r.Some? ==> exists i :: 0 <= i < |entries| && entries[i] == (name, r.value)
  {
    if |entries| == 0 then None
    else if entries[0].0 == name then Some(entries[0].1)
    else
      var r := Get(entries[1..], name);
      assert forall i :: 0 <= i < |entries[1..]| ==> entries[1..][i] == entries[i + 1];
      r
  }

  /** `js_key = DATASET_MAPPING.get(name)` followed by `if not js_key`: no key
      for an unmapped name or an empty key. */
  function KeyFor(name: string): (r: Option<string>)
    ensures r.Some? ==> r.value != "" && exists i :: 0 <= i < |DatasetMapping| && DatasetMapping[i] == (name, r.value)
    ensures r.None? ==> Get(DatasetMapping, name) in {None, Some("")}
  {
    var g := Get(DatasetMapping, name);
    if g.Some? && g.value != "" then g else None
  }

  /** The state of the loop: the datasets collected so far and the two counters. */
  datatype Run<D> = Run(data: map<string, D>, processed: nat, skipped: nat)

  /** One iteration for file `name`; `read` stands for `read_excel_file`,
      which yields None when the spreadsheet cannot be read. */
  function Step<D>(run: Run<D>, name: string, read: string -> Option<D>): Run<D> {
    if IsTemporary(name) then run
    else match KeyFor(name)
      case None => run.(skipped := run.skipped + 1)
      case Some(key) =>
        match read(name)
        case None => run.(skipped := run.skipped + 1)
        case Some(d) => Run(run.data[key := d], run.processed + 1, run.skipped)
  }

  /** The loop over the sorted file names. */
  function Loop<D>(files: seq<string>, read: string -> Option<D>): Run<D> {
    if |files| == 0 then Run(map[], 0, 0)
    else Step(Loop(files[..|files| - 1], read), files[|files| - 1], read)
  }

  /** The file names that are not lock files. */
  function Counted(files: seq<string>): nat {
    if |files| == 0 then 0
    else Counted(files[..|files| - 1]) + (if IsTemporary(files[|files| - 1]) then 0 else 1)
  }

  /** A file is converted when it is not a lock file, has a key and can be read. */
  predicate Converted<D>(name: string, read: string -> Option<D>) {
    !IsTemporary(name) && KeyFor(name).Some? && read(name).Some?
  }

  /** Every file that is not a lock file is counted exactly once, as processed
      or as skipped. */
  lemma {:induction false} EveryFileCounted<D>(files: seq<string>, read: string -> Option<D>)
    ensures Loop(files, read).processed + Loop(files, read).skipped == Counted(files)
  {
    if |files| > 0 {
      EveryFileCounted(files[..|files| - 1], read);
    }
  }

  /** Reference: the keys of the converted files. */
  ghost function ConvertedKeys<D>(files: seq<string>, read: string -> Option<D>): set<string> {
    if |files| == 0 then {}
    else
      var x := files[|files| - 1];
      ConvertedKeys(files[..|files| - 1], read) + (if Converted(x, read) then {KeyFor(x).value} else {})
  }

  /** The keys of `data.js` are the keys of the converted files. */
  lemma {:induction false} KeysOfConverted<D>(files: seq<string>, read: string -> Option<D>)
    ensures Loop(files, read).data.Keys == ConvertedKeys(files, read)
  {
    if |files| > 0 {
      KeysOfConverted(files[..|files| - 1], read);
    }
  }

  /** No two entries of the mapping share a key. */
  lemma MappingKeysDistinct()
    ensures forall i, j :: 0 <= i < j < |DatasetMapping| ==> DatasetMapping[i].1 != DatasetMapping[j].1
  {
    KeysDistinctLow();
    KeysDistinctHigh();
    KeysDistinctAcross();
    KeysDistinctAcrossLast();
  }

  lemma KeysDistinctLow()
    ensures forall i, j :: 0 <= i < j < 16 ==> DatasetMapping[i].1 != DatasetMapping[j].1
  {
  }

  lemma KeysDistinctHigh()
    ensures forall i, j :: 16 <= i < j < 32 ==> DatasetMapping[i].1 != DatasetMapping[j].1
  {
  }

  lemma KeysDistinctAcrossLast()
    ensures forall i, j :: 0 <= i < 16 && 24 <= j < 32 ==> DatasetMapping[i].1 != DatasetMapping[j].1
  {
  }

  lemma KeysDistinctAcross()
    ensures forall i, j :: 0 <= i < 16 <= j < 24 ==> DatasetMapping[i].1 != DatasetMapping[j].1
  {
  }

  /** No two entries of the mapping share a file name. */
  lemma MappingNamesDistinct()
    ensures forall i, j :: 0 <= i < j < |DatasetMapping| ==> DatasetMapping[i].0 != DatasetMapping[j].0
  {
    NamesDistinctLow();
    NamesDistinctHigh();
    NamesDistinctAcross();
    NamesDistinctAcrossLast();
  }

  lemma NamesDistinctLow()
    ensures forall i, j :: 0 <= i < j < 16 ==> DatasetMapping[i].0 != DatasetMapping[j].0
  {
  }

  lemma NamesDistinctHigh()
    ensures forall i, j :: 16 <= i < j < 32 ==> DatasetMapping[i].0 != DatasetMapping[j].0
  {
  }

  lemma NamesDistinctAcrossLast()
    ensures forall i, j :: 0 <= i < 16 && 24 <= j < 32 ==> DatasetMapping[i].0 != DatasetMapping[j].0
  {
  }

  lemma NamesDistinctAcross()
    ensures forall i, j :: 0 <= i < 16 <= j < 24 ==> DatasetMapping[i].0 != DatasetMapping[j].0
  {
  }

  /** Different files get different keys. */
  lemma KeyInjective(a: string, b: string)
    ensures KeyFor(a).Some? && KeyFor(a) == KeyFor(b) ==> a == b
  {
    if KeyFor(a).Some? && KeyFor(a) == KeyFor(b) {
      var i :| 0 <= i < |DatasetMapping| && DatasetMapping[i] == (a, KeyFor(a).value);
      var j :| 0 <= j < |DatasetMapping| && DatasetMapping[j] == (b, KeyFor(b).value);
      MappingKeysDistinct();
      assert i == j;
    }
  }

  /** A file not among `files` brings a key none of them brought. */
  lemma {:induction false} KeyFresh<D>(files: seq<string>, read: string -> Option<D>, x: string)
    ensures x !in files && Converted(x, read) ==> KeyFor(x).value !in ConvertedKeys(files, read)
  {
    if |files| > 0 && x !in files && Converted(x, read) {
      var p := files[..|files| - 1];
      var y := files[|files| - 1];
      assert y != x && x !in p;
      KeyFresh(p, read, x);
      if Converted(y, read) && KeyFor(y).value == KeyFor(x).value {
        KeyInjective(x, y);
        assert false;
      }
    }
  }

  /** With distinct file names, each processed file adds exactly one new key. */
  lemma {:induction false} ProcessedAreKeys<D>(files: seq<string>, read: string -> Option<D>)
    requires forall i, j :: 0 <= i < j < |files| ==> files[i] != files[j]
    ensures Loop(files, read).processed == |Loop(files, read).data|
  {
    if |files| > 0 {
      var p := files[..|files| - 1];
      var x := files[|files| - 1];
      ProcessedAreKeys(p, read);
      if Converted(x, read) {
        KeysOfConverted(p, read);
        assert x !in p;
        KeyFresh(p, read, x);
      }
    }
  }
}

=== FILE: crosssection.dfy ===
/** The latest-year bar charts: keep the rows passing a filter, find the
    largest year among them with `uniqueSorted`, and show that year's rows,
    sorted by value or in input order. */
module CrossSection {
  import opened Wrappers
  import opened Seqs
  import opened Sorting
  import opened Aggregate
  import opened TimeSeries
  import opened Records
  import opened Indicators
  import opened Charts

  /** What a latest-year render draws: the single `'Sin datos'` bar, an empty
      chart, or the rows of the latest year. */
  datatype View<T> = NoData | Blank | Latest(year: int, rows: seq<T>)

  /** The filter `r => year(r) === y`. */
  function InYear<T>(year: T -> int, y: int): T -> bool {
    r => year(r) == y
  }

  /** Reference selection: the rows that pass `keep` and have year `y`, in input order. */
  ghost function Among<T>(rows: seq<T>, keep: T -> bool, year: T -> int, y: int): seq<T>
  {
    if |rows| == 0 then []
    else
      var x := rows[|rows| - 1];
      Among(rows[..|rows| - 1], keep, year, y) + (if keep(x) && year(x) == y then [x] else [])
  }

  /** `m` is the largest year of the rows passing `keep`. */
  ghost predicate IsMaxYear<T>(rows: seq<T>, keep: T -> bool, year: T -> int, m: int) {
    HasYear(rows, keep, year, m) && forall i :: 0 <= i < |rows| && keep(rows[i]) ==> year(rows[i]) <= m
  }

  /** Filtering twice selects the same rows as the reference. */
  lemma {:induction false} FilterTwice<T>(rows: seq<T>, keep: T -> bool, year: T -> int, y: int)
    ensures Filter(Filter(rows, keep), InYear(year, y)) == Among(rows, keep, year, y)
  {
    if |rows| > 0 {
      var p := rows[..|rows| - 1];
      var x := rows[|rows| - 1];
      var fp := Filter(p, keep);
      FilterTwice(p, keep, year, y);
      assert Filter(rows, keep) == fp + (if keep(x) then [x] else []);
      assert InYear(year, y)(x) == (year(x) == y);
      if keep(x) {
        FilterSnoc(fp, x, InYear(year, y));
      } else {
        assert Filter(rows, keep) == fp;
      }
    }
  }

  /** No row passes exactly when the filtered sequence is empty. */
  lemma FilterEmpty<T>(rows: seq<T>, keep: T -> bool)
    ensures |Filter(rows, keep)| == 0 <==> forall i :: 0 <= i < |rows| ==> !keep(rows[i])
  {
    var f := Filter(rows, keep);
    if |f| > 0 {
      FilterMember(rows, keep, f[0]);
    }
    if exists i :: 0 <= i < |rows| && keep(rows[i]) {
      var i :| 0 <= i < |rows| && keep(rows[i]);
      FilterMember(rows, keep, rows[i]);
    }
  }

  /** `years[years.length - 1]` for `years = uniqueSorted(data.map(year))`,
      when `data` is not empty: the largest year of the passing rows. */
  function LatestYear<T>(rows: seq<T>, keep: T -> bool, year: T -> int): (m: int)
    requires |Filter(rows, keep)| > 0
    ensures IsMaxYear(rows, keep, year, m)
  {
    var data := Filter(rows, keep);
    var ys := YearsOf(data, year);
    LastIsMax(ys);
    var u := UniqueSorted(ys);
    var m := u[|u| - 1];
    LatestYearIsMax(rows, keep, year, m);
    m
  }

  lemma LatestYearIsMax<T>(rows: seq<T>, keep: T -> bool, year: T -> int, m: int)
    requires var ys := YearsOf(Filter(rows, keep), year);
             m in ys && forall i :: 0 <= i < |ys| ==> ys[i] <= m
    ensures IsMaxYear(rows, keep, year, m)
  {
    var data := Filter(rows, keep);
    YearsOfFilter(rows, keep, year, m);
    forall i | 0 <= i < |rows| && keep(rows[i])
      ensures year(rows[i]) <= m
    {
      FilterMember(rows, keep, rows[i]);
      var q :| 0 <= q < |data| && data[q] == rows[i];
      assert YearsOf(data, year)[q] == year(rows[i]);
    }
  }

  /** What the etnia and employment-demography bars promise: the placeholder
      exactly when no row passes; otherwise the largest year among the
      passing rows, and all of that year's passing rows, ordered by
      non-increasing value, rows of equal value in their input order
      (`Array.prototype.sort` is stable). */
  ghost predicate SortedLatestOf<T>(v: View<T>, rows: seq<T>, keep: T -> bool, year: T -> int, value: T -> real) {
    !v.Blank?
    && (v.NoData? <==> forall i :: 0 <= i < |rows| ==> !keep(rows[i]))
    && (v.Latest? ==>
          IsMaxYear(rows, keep, year, v.year)
          && multiset(v.rows) == multiset(Among(rows, keep, year, v.year))
          && (forall i, j :: 0 <= i < j < |v.rows| ==> value(v.rows[i]) >= value(v.rows[j]))
          && forall x :: Filter(v.rows, KeyIs(value, x)) == Filter(Among(rows, keep, year, v.year), KeyIs(value, x)))
  }

  /** `if (!data.length)` placeholder, else the latest year's rows sorted by
      `(a, b) => value(b) - value(a)`. */
  function SortedLatest<T>(rows: seq<T>, keep: T -> bool, year: T -> int, value: T -> real): (v: View<T>)
    ensures SortedLatestOf(v, rows, keep, year, value)
  {
    FilterEmpty(rows, keep);
    var data := Filter(rows, keep);
    if |data| == 0 then NoData
    else
      var y := LatestYear(rows, keep, year);
      FilterTwice(rows, keep, year, y);
      Latest(y, SortDesc(Filter(data, InYear(year, y)), value))
  }

  /** The promise fixes the view: two views that both keep it are equal. */
  lemma SortedLatestDetermined<T>(v: View<T>, w: View<T>, rows: seq<T>, keep: T -> bool, year: T -> int, value: T -> real)
    requires SortedLatestOf(v, rows, keep, year, value)
    requires SortedLatestOf(w, rows, keep, year, value)
    ensures v == w
  {
    if v.Latest? && w.Latest? {
      var i :| 0 <= i < |rows| && keep(rows[i]) && year(rows[i]) == v.year;
      var j :| 0 <= j < |rows| && keep(rows[j]) && year(rows[j]) == w.year;
      assert v.year == w.year;
      var among := Among(rows, keep, year, v.year);
      forall x
        ensures Filter(v.rows, KeyIs(value, x)) == Filter(w.rows, KeyIs(value, x))
      {
        assert Filter(v.rows, KeyIs(value, x)) == Filter(among, KeyIs(value, x));
      }
      DescUnique(v.rows, w.rows, value);
    }
  }

  /** What the level/sex/education/age/region bars promise: an empty chart
      when no row passes or the largest year is 0 (`!latestYear`);
      otherwise the largest year and its passing rows in input order. */
  ghost predicate PlainLatestOf<T>(v: View<T>, rows: seq<T>, keep: T -> bool, year: T -> int) {
    !v.NoData?
    && (v.Blank? <==> (forall i :: 0 <= i < |rows| ==> !keep(rows[i])) || IsMaxYear(rows, keep, year, 0))
    && (v.Latest? ==>
          IsMaxYear(rows, keep, year, v.year) && v.year != 0
          && v.rows == Among(rows, keep, year, v.year))
  }

  /** `latestYear = years.length ? years[years.length - 1] : null`, an empty
      chart when `!latestYear`, else `data.filter(r => r.anio === latestYear)`. */
  function PlainLatest<T>(rows: seq<T>, keep: T -> bool, year: T -> int): (v: View<T>)
    ensures PlainLatestOf(v, rows, keep, year)
  {
    FilterEmpty(rows, keep);
    var data := Filter(rows, keep);
    var u := UniqueSorted(YearsOf(data, year));
    if |u| == 0 then
      assert |data| == 0;
      Blank
    else
      var y := u[|u| - 1];
      assert |data| > 0;
      LastIsMax(YearsOf(data, year));
      LatestYearIsMax(rows, keep, year, y);
      MaxYearUnique(rows, keep, year, y);
      FilterTwice(rows, keep, year, y);
      if y == 0 then Blank else Latest(y, Filter(data, InYear(year, y)))
  }

  /** The largest year is unique. */
  lemma MaxYearUnique<T>(rows: seq<T>, keep: T -> bool, year: T -> int, m: int)
    requires IsMaxYear(rows, keep, year, m)
    ensures forall m' :: IsMaxYear(rows, keep, year, m') ==> m' == m
  {
  }

  /* ---------- the renders ---------- */

  function EtniaKeep(indicator: string): GroupRow -> bool {
    (r: GroupRow) => r.tipoGrupo == "etnia" && r.indicador == MapIndicator(indicator) && r.valor.Some?
  }
  function GroupValue(r: GroupRow): real { Coerce(r.valor) }

  /** `renderPobrezaEtnia`: the latest year's ethnic groups, largest rate first. */
  function PobrezaEtnia(rows: seq<GroupRow>, indicator: string): (v: View<GroupRow>)
    ensures SortedLatestOf(v, rows, EtniaKeep(indicator), GroupAnio, GroupValue)
  {
    SortedLatest(rows, EtniaKeep(indicator), GroupAnio, GroupValue)
  }

  function DemoKeep(dimension: string): DemoRow -> bool {
    (r: DemoRow) => r.tipoCategoria == dimension && r.empleoAdecuado.Some?
  }
  function DemoAnio(r: DemoRow): int { r.anio }
  function DemoValue(r: DemoRow): real { Coerce(r.empleoAdecuado) }

  /** `renderEmpleoDemo`: the latest year's categories of the chosen dimension,
      largest adequate-employment rate first. */
  function EmpleoDemo(rows: seq<DemoRow>, dimension: string): (v: View<DemoRow>)
    ensures SortedLatestOf(v, rows, DemoKeep(dimension), DemoAnio, DemoValue)
  {
    SortedLatest(rows, DemoKeep(dimension), DemoAnio, DemoValue)
  }

  /** `renderPobrezaBarNivel`: the latest year's levels, with the unmapped indicator. */
  function BarNivel(rows: seq<LevelRow>, indicator: string): (v: View<LevelRow>)
    ensures PlainLatestOf(v, rows, LevelKeep(indicator), LevelAno)
  {
    PlainLatest(rows, LevelKeep(indicator), LevelAno)
  }

  function BarSexoKeep(indicator: string): GroupRow -> bool {
    (r: GroupRow) => r.tipoGrupo == "sexo" && r.indicador == MapIndicatorShort(indicator) && r.valor.Some?
  }

  /** `renderPobrezaBarSexo`: the latest year's sexes. */
  function BarSexo(rows: seq<GroupRow>, indicator: string): (v: View<GroupRow>)
    ensures PlainLatestOf(v, rows, BarSexoKeep(indicator), GroupAnio)
  {
    PlainLatest(rows, BarSexoKeep(indicator), GroupAnio)
  }

  function BarCategoryKeep(indicator: string): CategoryRow -> bool {
    (r: CategoryRow) => r.indicador == MapIndicatorShort(indicator) && r.valor.Some?
  }

  /** `renderPobrezaBarEducacion`, `renderPobrezaBarEdad` and
      `renderPobrezaBarRegion`: the latest year's categories. */
  function BarCategoria(rows: seq<CategoryRow>, indicator: string): (v: View<CategoryRow>)
    ensures PlainLatestOf(v, rows, BarCategoryKeep(indicator), CategoryAnio)
  {
    PlainLatest(rows, BarCategoryKeep(indicator), CategoryAnio)
  }

  /** The bar charts select the same rows as the time series of the same
      collection: their shorter indicator mapping agrees with the longer one. */
  lemma BarFiltersAgree(indicator: string, g: GroupRow, c: CategoryRow)
    ensures BarSexoKeep(indicator)(g) == SexoKeep(indicator)(g)
    ensures BarCategoryKeep(indicator)(c) == CategoryKeep(indicator)(c)
  {
    MappingForms(indicator);
  }

  /** Every poverty render compares rows with the label its collection
      stores: the level renders with `pobrezaTableau`'s label, the sex and
      ethnicity renders with `pobrezaSexoEtnia`'s, and the category renders
      with that of the collection `k` they read. */
  lemma FiltersUseStoredLabel(indicator: string, l: LevelRow, g: GroupRow, c: CategoryRow, k: Collection)
    ensures LevelKeep(indicator)(l) <==> l.indicador == StoredLabel(Tableau, indicator) && l.valor.Some?
    ensures SexoKeep(indicator)(g) <==>
              g.tipoGrupo == "sexo" && g.indicador == StoredLabel(SexoEtnia, indicator) && g.valor.Some?
    ensures BarSexoKeep(indicator)(g) <==>
              g.tipoGrupo == "sexo" && g.indicador == StoredLabel(SexoEtnia, indicator) && g.valor.Some?
    ensures EtniaKeep(indicator)(g) <==>
              g.tipoGrupo == "etnia" && g.indicador == StoredLabel(SexoEtnia, indicator) && g.valor.Some?
    ensures k != Tableau ==>
              (CategoryKeep(indicator)(c) <==> c.indicador == StoredLabel(k, indicator) && c.valor.Some?)
    ensures k != Tableau ==>
              (BarCategoryKeep(indicator)(c) <==> c.indicador == StoredLabel(k, indicator) && c.valor.Some?)
  {
    MappingForms(indicator);
  }

  /* ---------- wage gaps ---------- */

  /** `sheetMap` in `renderBrechas`: the sheet of `brechasSalariales` for a gap type. */
  function SheetFor(tipo: string): Option<string> {
    if tipo == "educacion" then Some("educacion")
    else if tipo == "genero" then Some("genero")
    else if tipo == "etnia" then Some("etnia")
    else if tipo == "edad" then Some("edad")
    else if tipo == "estado_civil" then Some("generoCivil")
    else None
  }

  /** `categoryField` in `renderBrechas`: the field naming a bar, `'sexo'` by default. */
  function CategoryField(tipo: string): string {
    if tipo == "educacion" then "nivelEducativo"
    else if tipo == "genero" then "sexo"
    else if tipo == "etnia" then "etnia"
    else if tipo == "edad" then "grupoEdad"
    else if tipo == "estado_civil" then "grupo"
    else "sexo"
  }

  /** The gap types with a sheet are exactly the five listed, and the default
      category field is never used for a type with a sheet. */
  lemma SheetTypes(tipo: string)
    ensures SheetFor(tipo).Some? <==> tipo in ["educacion", "genero", "etnia", "edad", "estado_civil"]
    ensures SheetFor(tipo).Some? && tipo != "genero" ==> CategoryField(tipo) != "sexo"
  {
  }

  /** One wage bar: the row's category (`undefined` when the row lacks the
      field) and `+r.salarioPromedio`, which turns a `null` salary into 0. */
  datatype WageBar = WageBar(category: Option<string>, salary: real)

  function WageAnio(r: WageRow): int { r.anio }

  function BarOf(field: string, r: WageRow): (b: WageBar)
    ensures field in r.fields ==> b.category == Some(r.fields[field])
    ensures field !in r.fields ==> b.category.None?
    ensures b.salary == Coerce(r.salarioPromedio)
  {
    WageBar(if field in r.fields then Some(r.fields[field]) else None, Coerce(r.salarioPromedio))
  }

  /** `renderBrechas`: the placeholder when the collection or the type's sheet
      is missing; an empty chart for an empty sheet (its latest year is
      `undefined`); otherwise one bar per row of the sheet's latest year. */
  function Brechas(sheets: Option<map<string, seq<WageRow>>>, tipo: string): (v: View<WageBar>)
    ensures v.NoData? <==> sheets.None? || SheetFor(tipo).None? || SheetFor(tipo).value !in sheets.value
    ensures v.Blank? <==> !v.NoData? && |sheets.value[SheetFor(tipo).value]| == 0
    ensures v.Latest? ==>
              var sheet := sheets.value[SheetFor(tipo).value];
              var chosen := Among(sheet, KeepAll, WageAnio, v.year);
              IsMaxYear(sheet, KeepAll, WageAnio, v.year)
              && |v.rows| == |chosen|
              && forall i :: 0 <= i < |v.rows| ==> v.rows[i] == BarOf(CategoryField(tipo), chosen[i])
  {
    if sheets.None? || SheetFor(tipo).None? || SheetFor(tipo).value !in sheets.value then NoData
    else
      var data := sheets.value[SheetFor(tipo).value];
      if |data| == 0 then Blank
      else
        FilterAll(data, KeepAll);
        var y := LatestYear(data, KeepAll, WageAnio);
        var latest := Filter(data, InYear(WageAnio, y));
        FilterTwice(data, KeepAll, WageAnio, y);
        Latest(y, Bars(CategoryField(tipo), latest))
  }

  /** `latest.map(r => ...)`: one bar per row, in order. */
  function Bars(field: string, rows: seq<WageRow>): (r: seq<WageBar>)
    ensures |r| == |rows|
    ensures forall i :: 0 <= i < |r| ==> r[i] == BarOf(field, rows[i])
  {
    if |rows| == 0 then [] else [BarOf(field, rows[0])] + Bars(field, rows[1..])
  }
}

=== FILE: datafile.dfy ===
/** The `data.js` file: the converter wraps the JSON text of all datasets in
    a header line and a `const DATA = ...;` assignment, and the validator
    peels the wrapper off again with string replacements. */
module DataFile {

  /** The header line the converter writes first. */
  const Header: string := "// Auto-generated \U{2014} do not edit\n"

  /** The assignment the JSON text follows. */
  const Prefix: string := "const DATA = "

  /** The text after the JSON. */
  const Suffix: string := ";\n"

  /** `pat` occurs in `s` starting at `i`. */
  predicate OccursAt(s: string, pat: string, i: int) {
    0 <= i && i + |pat| <= |s| && s[i..i + |pat|] == pat
  }

  /** `pat` occurs somewhere in `s`. */
  predicate Occurs(s: string, pat: string) {
    exists i :: 0 <= i <= |s| && OccursAt(s, pat, i)
  }

  /** The file the converter writes for JSON text `json`. */
  function Wrap(json: string): (file: string)
    ensures |file| == |Header| + |Prefix| + |json| + |Suffix|
    ensures file[..|Header|] == Header
    ensures file[|Header|..|Header| + |Prefix|] == Prefix
    ensures file[|Header| + |Prefix|..|file| - |Suffix|] == json
    ensures file[|file| - |Suffix|..] == Suffix
  {
    Header + Prefix + json + Suffix
  }

  /** `s.replace(pat, '')`: every occurrence of `pat`, scanning from the left
      and skipping past each one found, is deleted. */
  function Remove(s: string, pat: string): (r: string)
    requires |pat| > 0
    ensures |r| <= |s|
    decreases |s|
  {
    if |s| < |pat| then s
    else if s[..|pat|] == pat then Remove(s[|pat|..], pat)
    else [s[0]] + Remove(s[1..], pat)
  }

  /** `s.rstrip(chars)`: trailing characters from `chars` dropped. */
  function RStrip(s: string, chars: set<char>): (r: string)
    ensures |r| <= |s| && r == s[..|r|]
    ensures |r| > 0 ==> r[|r| - 1] !in chars
    ensures forall k :: |r| <= k < |s| ==> s[k] in chars
  {
    if |s| > 0 && s[|s| - 1] in chars then RStrip(s[..|s| - 1], chars) else s
  }

  /** The validator's extraction of the JSON text from the file's content. */
  function Unwrap(content: string): string {
    RStrip(Remove(Remove(content, Header), Prefix), {';', '\n'})
  }

  /** Removing a pattern that does not occur changes nothing. */
  lemma {:induction false} RemoveAbsent(s: string, pat: string)
    requires |pat| > 0 && !Occurs(s, pat)
    ensures Remove(s, pat) == s
    decreases |s|
  {
    if |s| >= |pat| {
      assert !OccursAt(s, pat, 0);
      assert !Occurs(s[1..], pat) by {
        forall i | OccursAt(s[1..], pat, i)
          ensures false
        {
          assert s[1..][i..i + |pat|] == s[i + 1..i + 1 + |pat|];
          assert OccursAt(s, pat, i + 1);
        }
      }
      RemoveAbsent(s[1..], pat);
      assert s == [s[0]] + s[1..];
    }
  }

  /** A leading occurrence is deleted and the scan goes on after it. */
  lemma RemoveLeading(pat: string, s: string)
    requires |pat| > 0
    ensures Remove(pat + s, pat) == Remove(s, pat)
  {
    assert (pat + s)[..|pat|] == pat;
    assert (pat + s)[|pat|..] == s;
  }

  /** A pattern that does not occur in `s`, whose last character is neither
      `;` nor, after a `;`, a newline, does not occur in `s + ";\n"`. */
  lemma AbsentBeforeSuffix(s: string, pat: string)
    requires |pat| >= 2 && !Occurs(s, pat)
    requires pat[|pat| - 1] != ';'
    requires pat[|pat| - 1] == '\n' ==> pat[|pat| - 2] != ';'
    ensures !Occurs(s + Suffix, pat)
  {
    var t := s + Suffix;
    assert t[|s|] == ';' && t[|s| + 1] == '\n';
    forall i | OccursAt(t, pat, i)
      ensures false
    {
      if i + |pat| <= |s| {
        assert t[i..i + |pat|] == s[i..i + |pat|];
        assert OccursAt(s, pat, i);
      }
    }
  }

  /** A pattern starting with `/` that does not occur in `s` does not occur
      in `Prefix + s` either: the prefix holds no `/`. */
  lemma AbsentAfterPrefix(s: string, pat: string)
    requires |pat| > 0 && pat[0] == '/' && !Occurs(s, pat)
    ensures !Occurs(Prefix + s, pat)
  {
    var t := Prefix + s;
    assert forall k :: 0 <= k < |Prefix| ==> t[k] == Prefix[k] && Prefix[k] != '/';
    forall i | OccursAt(t, pat, i)
      ensures false
    {
      if i >= |Prefix| {
        assert t[i..i + |pat|] == s[i - |Prefix|..i - |Prefix| + |pat|];
        assert OccursAt(s, pat, i - |Prefix|);
      }
    }
  }

  /** Deleting the header from a wrapped file leaves the assignment. */
  lemma HeaderRemoved(json: string)
    requires !Occurs(json, Header)
    ensures Remove(Wrap(json), Header) == Prefix + json + Suffix
  {
    var rest := json + Suffix;
    assert Wrap(json) == Header + (Prefix + rest);
    RemoveLeading(Header, Prefix + rest);
    AbsentBeforeSuffix(json, Header);
    AbsentAfterPrefix(rest, Header);
    RemoveAbsent(Prefix + rest, Header);
  }

  /** Deleting the prefix from the assignment leaves the JSON text and `;\n`. */
  lemma PrefixRemoved(json: string)
    requires !Occurs(json, Prefix)
    ensures Remove(Prefix + json + Suffix, Prefix) == json + Suffix
  {
    assert Prefix + json + Suffix == Prefix + (json + Suffix);
    RemoveLeading(Prefix, json + Suffix);
    AbsentBeforeSuffix(json, Prefix);
    RemoveAbsent(json + Suffix, Prefix);
  }

  /** Stripping `;` and newlines from the end drops exactly the suffix. */
  lemma SuffixStripped(json: string)
    requires |json| > 0 ==> json[|json| - 1] != ';' && json[|json| - 1] != '\n'
    ensures RStrip(json + Suffix, {';', '\n'}) == json
  {
    var t := json + Suffix;
    var r := RStrip(t, {';', '\n'});
    assert t[|json|] == ';' && t[|json| + 1] == '\n';
    assert |json| > 0 ==> t[|json| - 1] == json[|json| - 1];
    assert |r| == |json|;
    assert t[..|json|] == json;
  }

  /** Unwrapping inverts wrapping, for any JSON text that contains neither
      the header nor the assignment prefix and does not end in `;` or a
      newline. */
  lemma UnwrapWrap(json: string)
    requires !Occurs(json, Header) && !Occurs(json, Prefix)
    requires |json| > 0 ==> json[|json| - 1] != ';' && json[|json| - 1] != '\n'
    ensures Unwrap(Wrap(json)) == json
  {
    HeaderRemoved(json);
    PrefixRemoved(json);
    SuffixStripped(json);
  }
}

=== FILE: gic.dfy ===
/** The growth incidence curve (`renderGIC`): the annualised growth of each
    income decile's mean income between two years. */
module Gic {
  import opened Wrappers
  import opened Seqs
  import opened Records

  /** One bar: a decile and its annualised growth in percent. */
  datatype GicPoint = GicPoint(decil: int, growth: real)

  /** What the render draws: an empty chart when there is no data, the
      `'Seleccione años distintos'` bar when the start year is not before the
      end year, or one bar per decile with a growth. */
  datatype GicChart = EmptyChart | SelectDistinct | Points(points: seq<GicPoint>)

  /** The deciles the loop `for (let d = 1; d <= 10; d++)` visits. */
  const FirstDecile: int := 1
  const LastDecile: int := 10

  function AnioIs(y: int): DecileRow -> bool {
    (r: DecileRow) => r.anio == y
  }

  function DecilIs(d: int): DecileRow -> bool {
    (r: DecileRow) => r.decil == d
  }

  function DecilYear(d: int, y: int): DecileRow -> bool {
    (r: DecileRow) => r.decil == d && r.anio == y
  }

  /** `(Math.pow(e / s, 1 / n) - 1) * 100`, the annualised growth of mean
      income `s` over `n` years ending at mean income `e`; `pow` stands for
      `Math.pow`. */
  function Annualised(e: real, s: real, n: int, pow: (real, real) -> real): real
    requires s > 0.0 && n > 0
  {
    (pow(e / s, 1.0 / (n as real)) - 1.0) * 100.0
  }

  /** The start row has a positive mean income (`s.ingresoPromedio > 0`:
      false for `null`). */
  predicate PositiveStart(s: DecileRow) {
    s.ingresoPromedio.Some? && s.ingresoPromedio.value > 0.0
  }

  /** The loop body for decile `d`: `find` its row in each year's data; with
      both rows and a positive start income, the annualised growth, where a
      `null` end income counts as 0. */
  function PointOf(startData: seq<DecileRow>, endData: seq<DecileRow>, d: int, n: int,
                   pow: (real, real) -> real): (r: Option<GicPoint>)
    requires n > 0
    ensures r.Some? ==> r.value.decil == d
  {
    var s := Find(startData, DecilIs(d));
    var e := Find(endData, DecilIs(d));
    if s.Some? && e.Some? && PositiveStart(s.value) then
      Some(GicPoint(d, Annualised(Coerce(e.value.ingresoPromedio), s.value.ingresoPromedio.value, n, pow)))
    else None
  }

  /** The loop body as a function of the decile. */
  function PointAt(startData: seq<DecileRow>, endData: seq<DecileRow>, n: int,
                   pow: (real, real) -> real): (point: int -> Option<GicPoint>)
    requires n > 0
    ensures forall d :: point(d).Some? ==> point(d).value.decil == d
  {
    (d: int) => PointOf(startData, endData, d, n, pow)
  }

  /** The loop from decile `d` to the last decile: the bars of the deciles
      that have one, in decile order. */
  function PointsFrom(point: int -> Option<GicPoint>, d: int): (r: seq<GicPoint>)
    requires FirstDecile <= d <= LastDecile + 1
    requires forall c :: point(c).Some? ==> point(c).value.decil == c
    ensures forall i :: 0 <= i < |r| ==> d <= r[i].decil <= LastDecile
    ensures forall i, j :: 0 <= i < j < |r| ==> r[i].decil < r[j].decil
    decreases LastDecile + 1 - d
  {
    if d > LastDecile then []
    else
      var rest := PointsFrom(point, d + 1);
      if point(d).None? then rest
      else
        var r := [point(d).value] + rest;
        assert forall i :: 1 <= i < |r| ==> r[i] == rest[i - 1];
        r
  }

  /** Every bar the loop draws is the loop body's bar for its decile. */
  lemma {:induction false} PointsFromSound(point: int -> Option<GicPoint>, d: int)
    requires FirstDecile <= d <= LastDecile + 1
    requires forall c :: point(c).Some? ==> point(c).value.decil == c
    ensures forall i :: 0 <= i < |PointsFrom(point, d)| ==>
              point(PointsFrom(point, d)[i].decil) == Some(PointsFrom(point, d)[i])
    decreases LastDecile + 1 - d
  {
    if d <= LastDecile {
      PointsFromSound(point, d + 1);
      var rest := PointsFrom(point, d + 1);
      if point(d).Some? {
        var r := PointsFrom(point, d);
        assert r == [point(d).value] + rest;
        assert point(d).value.decil == d;
        forall i | 0 <= i < |r|
          ensures point(r[i].decil) == Some(r[i])
        {
          if i == 0 {
            assert r[0] == point(d).value;
          } else {
            assert r[i] == rest[i - 1];
          }
        }
      }
    }
  }

  /** Every bar the loop body gives for a visited decile is drawn. */
  lemma {:induction false} PointsFromComplete(point: int -> Option<GicPoint>, d: int)
    requires FirstDecile <= d <= LastDecile + 1
    requires forall c :: point(c).Some? ==> point(c).value.decil == c
    ensures forall c :: d <= c <= LastDecile && point(c).Some? ==> point(c).value in PointsFrom(point, d)
    decreases LastDecile + 1 - d
  {
    if d <= LastDecile {
      PointsFromComplete(point, d + 1);
    }
  }

  /** Reference: the first row of the whole table with decile `d` and year `y`. */
  ghost function FirstRow(data: seq<DecileRow>, d: int, y: int): Option<DecileRow> {
    if |data| == 0 then None
    else if data[0].decil == d && data[0].anio == y then Some(data[0])
    else FirstRow(data[1..], d, y)
  }

  /** Reference: the growth of decile `d` read off the first row of the whole
      table with that decile and each year. */
  ghost function Expected(data: seq<DecileRow>, d: int, startYear: int, endYear: int,
                          pow: (real, real) -> real): Option<real>
    requires startYear < endYear
  {
    var s := FirstRow(data, d, startYear);
    var e := FirstRow(data, d, endYear);
    if s.Some? && e.Some? && PositiveStart(s.value)
    then Some(Annualised(Coerce(e.value.ingresoPromedio), s.value.ingresoPromedio.value, endYear - startYear, pow))
    else None
  }

  /** `find` over the whole table is the first matching row. */
  lemma {:induction false} FindIsFirstRow(data: seq<DecileRow>, d: int, y: int)
    ensures Find(data, DecilYear(d, y)) == FirstRow(data, d, y)
  {
    if |data| > 0 {
      FindIsFirstRow(data[1..], d, y);
      var p := DecilYear(d, y);
      if !p(data[0]) {
        match FirstIndex(data[1..], p)
        case None =>
        case Some(i) => {
          FirstIndexUnique(data, p, i + 1);
        }
      }
    }
  }

  /** Looking a decile up in one year's rows is looking it up in the whole table. */
  lemma {:induction false} PointIsExpected(data: seq<DecileRow>, d: int, startYear: int, endYear: int, pow: (real, real) -> real)
    requires startYear < endYear
    ensures var p := PointOf(Filter(data, AnioIs(startYear)), Filter(data, AnioIs(endYear)), d, endYear - startYear, pow);
            (p.Some? <==> Expected(data, d, startYear, endYear, pow).Some?)
            && (p.Some? ==> p.value == GicPoint(d, Expected(data, d, startYear, endYear, pow).value))
  {
    FindFiltered(data, AnioIs(startYear), DecilIs(d), DecilYear(d, startYear));
    FindFiltered(data, AnioIs(endYear), DecilIs(d), DecilYear(d, endYear));
    FindIsFirstRow(data, d, startYear);
    FindIsFirstRow(data, d, endYear);
  }

  /** The loop over the deciles for the rows of the two selected years. */
  function PointsBetween(data: seq<DecileRow>, startYear: int, endYear: int, pow: (real, real) -> real): (r: seq<GicPoint>)
    requires startYear < endYear
    ensures forall i :: 0 <= i < |r| ==> FirstDecile <= r[i].decil <= LastDecile
    ensures forall i, j :: 0 <= i < j < |r| ==> r[i].decil < r[j].decil
  {
    PointsFrom(PointAt(Filter(data, AnioIs(startYear)), Filter(data, AnioIs(endYear)), endYear - startYear, pow), FirstDecile)
  }

  /** `renderGIC`. */
  function GicOf(data: seq<DecileRow>, startYear: int, endYear: int, pow: (real, real) -> real): (r: GicChart)
    ensures r.EmptyChart? <==> |data| == 0
    ensures r.SelectDistinct? <==> |data| > 0 && startYear >= endYear
    ensures r.Points? ==> |r.points| <= LastDecile - FirstDecile + 1
    ensures r.Points? ==> forall i, j :: 0 <= i < j < |r.points| ==> r.points[i].decil < r.points[j].decil
    ensures r.Points? ==> startYear < endYear && forall i :: 0 <= i < |r.points| ==>
              FirstDecile <= r.points[i].decil <= LastDecile
              && ExpectedAt(data, startYear, endYear, pow)(r.points[i].decil) == Some(r.points[i].growth)
    ensures r.Points? ==> forall d :: FirstDecile <= d <= LastDecile && ExpectedAt(data, startYear, endYear, pow)(d).Some? ==>
              GicPoint(d, ExpectedAt(data, startYear, endYear, pow)(d).value) in r.points
  {
    if |data| == 0 then EmptyChart
    else if startYear >= endYear then SelectDistinct
    else
      var ps := PointsBetween(data, startYear, endYear, pow);
      PointsAreExpected(data, startYear, endYear, pow);
      StrictDeciles(ps);
      Points(ps)
  }

  /** The loop draws a bar for exactly the deciles `expected` gives a growth
      for, with that growth, when the loop body agrees with `expected`. */
  lemma PointsMatch(point: int -> Option<GicPoint>, expected: int -> Option<real>)
    requires forall c :: point(c).Some? ==> point(c).value.decil == c
    requires forall d :: FirstDecile <= d <= LastDecile ==>
               point(d) == if expected(d).Some? then Some(GicPoint(d, expected(d).value)) else None
    ensures var ps := PointsFrom(point, FirstDecile);
            forall i :: 0 <= i < |ps| ==> expected(ps[i].decil) == Some(ps[i].growth)
    ensures var ps := PointsFrom(point, FirstDecile);
            forall d :: FirstDecile <= d <= LastDecile && expected(d).Some? ==> GicPoint(d, expected(d).value) in ps
  {
    PointsFromSound(point, FirstDecile);
    PointsFromComplete(point, FirstDecile);
  }

  /** The reference as a function of the decile. */
  ghost function ExpectedAt(data: seq<DecileRow>, startYear: int, endYear: int, pow: (real, real) -> real): int -> Option<real>
    requires startYear < endYear
  {
    (d: int) => Expected(data, d, startYear, endYear, pow)
  }

  /** The bars the loop draws are exactly the deciles with an expected growth,
      each with that growth. */
  lemma PointsAreExpected(data: seq<DecileRow>, startYear: int, endYear: int, pow: (real, real) -> real)
    requires startYear < endYear
    ensures var ps := PointsBetween(data, startYear, endYear, pow);
            forall i :: 0 <= i < |ps| ==> ExpectedAt(data, startYear, endYear, pow)(ps[i].decil) == Some(ps[i].growth)
    ensures var ps := PointsBetween(data, startYear, endYear, pow);
            forall d :: FirstDecile <= d <= LastDecile && ExpectedAt(data, startYear, endYear, pow)(d).Some? ==>
              GicPoint(d, ExpectedAt(data, startYear, endYear, pow)(d).value) in ps
  {
    var point := PointAt(Filter(data, AnioIs(startYear)), Filter(data, AnioIs(endYear)), endYear - startYear, pow);
    var ps := PointsBetween(data, startYear, endYear, pow);
    var expected := ExpectedAt(data, startYear, endYear, pow);
    forall d | FirstDecile <= d <= LastDecile
      ensures point(d) == if expected(d).Some? then Some(GicPoint(d, expected(d).value)) else None
    {
      PointIsExpected(data, d, startYear, endYear, pow);
    }
    PointsMatch(point, expected);
  }

  /** Strictly increasing deciles between the first and the last are at most ten. */
  lemma StrictDeciles(ps: seq<GicPoint>)
    requires forall i :: 0 <= i < |ps| ==> FirstDecile <= ps[i].decil <= LastDecile
    requires forall i, j :: 0 <= i < j < |ps| ==> ps[i].decil < ps[j].decil
    ensures |ps| <= LastDecile - FirstDecile + 1
  {
    if |ps| > 0 {
      StrictFrom(ps, 0);
    }
  }

  lemma {:induction false} StrictFrom(ps: seq<GicPoint>, i: nat)
    requires i < |ps|
    requires forall k :: 0 <= k < |ps| ==> FirstDecile <= ps[k].decil <= LastDecile
    requires forall k, j :: 0 <= k < j < |ps| ==> ps[k].decil < ps[j].decil
    ensures ps[i].decil + (|ps| - 1 - i) <= LastDecile
    decreases |ps| - i
  {
    if i + 1 < |ps| {
      StrictFrom(ps, i + 1);
    }
  }
}

=== FILE: indicators.dfy ===
/** The indicator selector offers `'Pobreza'` and `'Pobreza Extrema'`, but some
    collections store the second as `'Pobreza extrema'`. Each render maps the
    selected label to the stored one for its collection. */
module Indicators {

  /** The five poverty collections an indicator selector filters. */
  datatype Collection = Tableau | SexoEtnia | Educacion | Edad | Region

  /** The mapping the time-series and etnia renders write out in full:
      `'Pobreza'` to itself, `'Pobreza Extrema'` to `'Pobreza extrema'`,
      anything else unchanged. */
  function MapIndicator(indicator: string): string {
    if indicator == "Pobreza" then "Pobreza"
    else if indicator == "Pobreza Extrema" then "Pobreza extrema"
    else indicator
  }

  /** The shorter mapping the latest-year bar renders write. */
  function MapIndicatorShort(indicator: string): string {
    if indicator == "Pobreza Extrema" then "Pobreza extrema" else indicator
  }

  /** The two written forms of the mapping agree on every label, and the
      mapping changes only `'Pobreza Extrema'`. */
  lemma MappingForms(indicator: string)
    ensures MapIndicator(indicator) == MapIndicatorShort(indicator)
    ensures MapIndicator(indicator) == "Pobreza extrema" <==>
              indicator == "Pobreza Extrema" || indicator == "Pobreza extrema"
    ensures indicator != "Pobreza Extrema" ==> MapIndicator(indicator) == indicator
  {
  }

  /** The stored label a render compares rows of collection `c` against:
      `pobrezaTableau` stores the selector's label as is, the other four
      collections store the mapped one. */
  function StoredLabel(c: Collection, indicator: string): (r: string)
    ensures c == Tableau ==> r == indicator
    ensures c != Tableau && indicator == "Pobreza Extrema" ==> r == "Pobreza extrema"
    ensures indicator != "Pobreza Extrema" ==> r == indicator
  {
    if c == Tableau then indicator else MapIndicator(indicator)
  }
}

=== FILE: records.dfy ===
/** The row shapes of the dashboard's data collections, one datatype per
    collection. A numeric field that may be `null` in the data is an
    `Option<real>`; a year is an `int`. */
module Records {
  import opened Wrappers

  /** `pobrezaTableau`: poverty rates by national/urban/rural level. */
  datatype LevelRow = LevelRow(indicador: string, nivel: string, ano: int, valor: Option<real>)

  /** `pobrezaSexoEtnia`: poverty rates by sex or ethnicity (`tipoGrupo`). */
  datatype GroupRow = GroupRow(tipoGrupo: string, grupo: string, indicador: string, anio: int, valor: Option<real>)

  /** `pobrezaEducacion`, `pobrezaEdad` and `pobrezaRegion`: poverty rates by one
      category, whose field is `nivelEducativo`, `grupoEtario` or `region`. */
  datatype CategoryRow = CategoryRow(indicador: string, categoria: string, anio: int, valor: Option<real>)

  /** `empleoSeries`: employment indicators over time. */
  datatype SeriesRow = SeriesRow(indicador: string, anio: int, valor: Option<real>)

  /** `giniTaxImpact`: the Gini coefficient before and after taxes. */
  datatype GiniTaxRow = GiniTaxRow(categoria: string, anio: int, gini: Option<real>)

  /** `giniPanel`: the Gini coefficient for Ecuador and its areas, and LAC. */
  datatype GiniPanelRow = GiniPanelRow(categoria: string, ano: int, valor: Option<real>)

  /** The WID collections: a percentile's share of national income or wealth.
      `income` and `wealth` are the `participacionEnElIngresoNacional(%)` and
      `participacionEnLaRiquezaNacional(%)` fields. */
  datatype ShareRow = ShareRow(percentil: string, pais: string, ano: int, income: Option<real>, wealth: Option<real>)

  /** `empleoDemografico`: adequate employment by a demographic category. */
  datatype DemoRow = DemoRow(tipoCategoria: string, categoria: string, anio: int, empleoAdecuado: Option<real>)

  /** `crecimientoEmpleoSector`: employment (thousands) by sector and year. */
  datatype SectorRow = SectorRow(sector: string, anio: int, empleoMiles: Option<real>)

  /** `decilesIngresoAnual`: mean income by decile and year. */
  datatype DecileRow = DecileRow(decil: int, anio: int, ingresoPromedio: Option<real>)

  /** `pobrezaProvincial`: poverty rates by province. */
  datatype ProvRow = ProvRow(provincia: string, indicador: string, anio: int, valor: Option<real>)

  /** A sheet of `brechasSalariales`: mean salary by a category whose field
      name depends on the sheet, so the string fields are kept as a map. */
  datatype WageRow = WageRow(anio: int, fields: map<string, string>, salarioPromedio: Option<real>)

  /** `tributacionGraficos.grafico17Carga`: tax burden by decile. */
  datatype BurdenRow = BurdenRow(decil: int, anio: int, cargaTributariaPct: Option<real>)

  /** `crecimientoDemografico`: mean income by dimension and category. */
  datatype DemoGrowthRow = DemoGrowthRow(dimension: Option<string>, categoria: Option<string>, ingreso: Option<real>)
}

=== FILE: sector.dfy ===
/** Employment growth by sector between two years (`renderEmpleoSector` and
    `renderCrecEmpleo`, which compute the same top ten). */
module Sector {
  import opened Wrappers
  import opened Seqs
  import opened Sorting
  import opened Aggregate
  import opened Records

  /** One bar: a sector and its growth in percent. */
  datatype SectorGrowth = SectorGrowth(sector: string, valor: real)

  /** The number of sectors shown (`results.slice(0, 10)`). */
  const TopCount: nat := 10

  /** JavaScript truthiness of a numeric field: present and not 0. */
  predicate Truthy(o: Option<real>) {
    o.Some? && o.value != 0.0
  }

  function SectorOf(r: SectorRow): string { r.sector }

  function YearIs(y: int): SectorRow -> bool {
    (r: SectorRow) => r.anio == y
  }

  function SectorYear(k: string, y: int): SectorRow -> bool {
    (r: SectorRow) => r.sector == k && r.anio == y
  }

  /** The employment of a start and an end row, when both rows exist and both
      employment values are truthy. */
  ghost function Ends(a: Option<SectorRow>, b: Option<SectorRow>): Option<(real, real)> {
    if a.Some? && b.Some? && Truthy(a.value.empleoMiles) && Truthy(b.value.empleoMiles)
    then Some((a.value.empleoMiles.value, b.value.empleoMiles.value))
    else None
  }

  /** Reference: the endpoints of sector `k`, read off the first row of the
      whole table with that sector and year. */
  ghost function Endpoints(raw: seq<SectorRow>, k: string, startYear: int, endYear: int): Option<(real, real)> {
    Ends(Find(raw, SectorYear(k, startYear)), Find(raw, SectorYear(k, endYear)))
  }

  /** `v` is the growth in percent from employment `p.0` to employment `p.1`. */
  ghost predicate IsGrowth(v: real, p: (real, real)) {
    v * p.0 == (p.1 - p.0) * 100.0
  }

  /** A start employment other than 0 determines the growth. */
  lemma GrowthUnique(a: real, b: real, p: (real, real))
    requires p.0 != 0.0 && IsGrowth(a, p) && IsGrowth(b, p)
    ensures a == b
  {
    assert (a - b) * p.0 == 0.0;
  }

  /** Sector `k` has endpoints and `v` is its growth in percent. */
  ghost predicate Grows(raw: seq<SectorRow>, k: string, startYear: int, endYear: int, v: real) {
    var p := Endpoints(raw, k, startYear, endYear);
    p.Some? && IsGrowth(v, p.value)
  }

  /** The body of the `forEach` over one group: `rows.find` for each year and,
      when both rows and both employment values are truthy, the growth. */
  function GrowthOf(k: string, rows: seq<SectorRow>, startYear: int, endYear: int): (r: Option<SectorGrowth>)
    ensures var p := Ends(Find(rows, YearIs(startYear)), Find(rows, YearIs(endYear)));
            (r.Some? <==> p.Some?)
            && (r.Some? ==> r.value.sector == k && IsGrowth(r.value.valor, p.value))
  {
    var a := Find(rows, YearIs(startYear));
    var b := Find(rows, YearIs(endYear));
    if a.Some? && b.Some? && Truthy(a.value.empleoMiles) && Truthy(b.value.empleoMiles) then
      var x := a.value.empleoMiles.value;
      var z := b.value.empleoMiles.value;
      Some(SectorGrowth(k, ((z - x) / x) * 100.0))
    else None
  }

  /** `results`: the growth of every group that has one, in group order. */
  function Collect(gs: seq<Group<string, SectorRow>>, startYear: int, endYear: int): seq<SectorGrowth>
  {
    if |gs| == 0 then []
    else
      var g := GrowthOf(gs[0].key, gs[0].rows, startYear, endYear);
      (if g.Some? then [g.value] else []) + Collect(gs[1..], startYear, endYear)
  }

  lemma {:induction false} CollectComplete(gs: seq<Group<string, SectorRow>>, startYear: int, endYear: int, i: nat)
    requires i < |gs| && GrowthOf(gs[i].key, gs[i].rows, startYear, endYear).Some?
    ensures GrowthOf(gs[i].key, gs[i].rows, startYear, endYear).value in Collect(gs, startYear, endYear)
  {
    if i > 0 {
      CollectComplete(gs[1..], startYear, endYear, i - 1);
    }
  }

  lemma {:induction false} CollectSound(gs: seq<Group<string, SectorRow>>, startYear: int, endYear: int, g: SectorGrowth)
    requires g in Collect(gs, startYear, endYear)
    ensures exists i :: 0 <= i < |gs| && GrowthOf(gs[i].key, gs[i].rows, startYear, endYear) == Some(g)
  {
    var h := GrowthOf(gs[0].key, gs[0].rows, startYear, endYear);
    if !(h.Some? && h.value == g) {
      CollectSound(gs[1..], startYear, endYear, g);
      var i :| 0 <= i < |gs[1..]| && GrowthOf(gs[1..][i].key, gs[1..][i].rows, startYear, endYear) == Some(g);
      assert gs[1..][i] == gs[i + 1];
    }
  }

  /** Searching a sector's group for a year finds what searching the whole
      table for that sector and year finds. */
  lemma FindInGroup(raw: seq<SectorRow>, k: string, y: int)
    ensures Find(Matching(raw, SectorOf, k), YearIs(y)) == Find(raw, SectorYear(k, y))
  {
    FindMatching(raw, SectorOf, k, YearIs(y), SectorYear(k, y));
  }

  /** A growth the groups produce is the growth of its sector in the whole table. */
  lemma CollectGrows(raw: seq<SectorRow>, startYear: int, endYear: int, g: SectorGrowth)
    requires g in Collect(GroupBy(raw, SectorOf), startYear, endYear)
    ensures Grows(raw, g.sector, startYear, endYear, g.valor)
  {
    var gs := GroupBy(raw, SectorOf);
    CollectSound(gs, startYear, endYear, g);
    var q :| 0 <= q < |gs| && GrowthOf(gs[q].key, gs[q].rows, startYear, endYear) == Some(g);
    var k := gs[q].key;
    assert gs[q].rows == Matching(raw, SectorOf, k);
    FindInGroup(raw, k, startYear);
    FindInGroup(raw, k, endYear);
    assert Ends(Find(gs[q].rows, YearIs(startYear)), Find(gs[q].rows, YearIs(endYear)))
        == Endpoints(raw, k, startYear, endYear);
  }

  /** A sector with a growth in the whole table gets that growth from its group. */
  lemma GrowsCollected(raw: seq<SectorRow>, startYear: int, endYear: int, k: string, v: real)
    requires Grows(raw, k, startYear, endYear, v)
    ensures SectorGrowth(k, v) in Collect(GroupBy(raw, SectorOf), startYear, endYear)
  {
    var gs := GroupBy(raw, SectorOf);
    var a := Find(raw, SectorYear(k, startYear));
    var i0 :| 0 <= i0 < |raw| && raw[i0] == a.value && SectorYear(k, startYear)(raw[i0]);
    KeysInMember(raw, SectorOf, i0);
    assert k in GroupKeys(gs);
    var q :| 0 <= q < |gs| && gs[q].key == k;
    FindInGroup(raw, k, startYear);
    FindInGroup(raw, k, endYear);
    var g := GrowthOf(k, gs[q].rows, startYear, endYear);
    var p := Endpoints(raw, k, startYear, endYear);
    assert Ends(Find(gs[q].rows, YearIs(startYear)), Find(gs[q].rows, YearIs(endYear))) == p;
    GrowthUnique(g.value.valor, v, p.value);
    assert g.value == SectorGrowth(k, v);
    CollectComplete(gs, startYear, endYear, q);
  }

  function GrowthSector(g: SectorGrowth): string { g.sector }

  /** Groups with distinct keys give growths of distinct sectors. */
  lemma {:induction false} CollectDistinct(gs: seq<Group<string, SectorRow>>, startYear: int, endYear: int)
    requires DistinctKeys(gs)
    ensures KeysDistinct(Collect(gs, startYear, endYear), GrowthSector)
  {
    if |gs| > 0 {
      var t := gs[1..];
      assert DistinctKeys(t) by {
        assert forall i :: 0 <= i < |t| ==> t[i] == gs[i + 1];
      }
      CollectDistinct(t, startYear, endYear);
      var rest := Collect(t, startYear, endYear);
      var g := GrowthOf(gs[0].key, gs[0].rows, startYear, endYear);
      if g.Some? {
        assert [g.value] + rest == Collect(gs, startYear, endYear);
        forall i | 0 <= i < |t|
          ensures t[i].key != gs[0].key
        {
          assert t[i] == gs[i + 1];
        }
        CollectAvoids(t, startYear, endYear, gs[0].key);
        ConsDistinct(g.value, rest, GrowthSector);
      }
    }
  }

  /** No growth collected from groups without key `k` is for sector `k`. */
  lemma CollectAvoids(t: seq<Group<string, SectorRow>>, startYear: int, endYear: int, k: string)
    requires forall i :: 0 <= i < |t| ==> t[i].key != k
    ensures forall j :: 0 <= j < |Collect(t, startYear, endYear)| ==> GrowthSector(Collect(t, startYear, endYear)[j]) != k
  {
    var rest := Collect(t, startYear, endYear);
    forall j | 0 <= j < |rest|
      ensures rest[j].sector != k
    {
      assert rest[j] in rest;
      CollectSound(t, startYear, endYear, rest[j]);
    }
  }

  /** `s` is `results` ordered by non-increasing growth, results of equal
      growth in their original order. */
  ghost predicate RankedFrom(s: seq<SectorGrowth>, results: seq<SectorGrowth>) {
    multiset(s) == multiset(results)
    && (forall i, j :: 0 <= i < j < |s| ==> s[i].valor >= s[j].valor)
    && forall v :: Filter(s, KeyIs(SectorValor, v)) == Filter(results, KeyIs(SectorValor, v))
  }

  /** The top ten sectors by growth between `startYear` and `endYear`: the
      first ten of the collected results after a stable descending sort. */
  function TopSectors(raw: seq<SectorRow>, startYear: int, endYear: int): (r: seq<SectorGrowth>)
    ensures |r| <= TopCount
    ensures forall i, j :: 0 <= i < j < |r| ==> r[i].valor >= r[j].valor
    ensures forall i, j :: 0 <= i < j < |r| ==> r[i].sector != r[j].sector
    ensures forall i :: 0 <= i < |r| ==> Grows(raw, r[i].sector, startYear, endYear, r[i].valor)
    ensures exists s :: r == Take(s, TopCount) && RankedFrom(s, Collect(GroupBy(raw, SectorOf), startYear, endYear))
  {
    var results := Collect(GroupBy(raw, SectorOf), startYear, endYear);
    var sorted := SortDesc(results, SectorValor);
    CollectDistinct(GroupBy(raw, SectorOf), startYear, endYear);
    KeysDistinctPermutation(results, sorted, GrowthSector);
    var r := Take(sorted, TopCount);
    forall i | 0 <= i < |r|
      ensures Grows(raw, r[i].sector, startYear, endYear, r[i].valor)
    {
      assert r[i] in multiset(sorted);
      CollectGrows(raw, startYear, endYear, r[i]);
    }
    assert RankedFrom(sorted, results);
    r
  }

  function SectorValor(g: SectorGrowth): real { g.valor }

  /** Any stable descending ranking of the collected results has the same
      first ten as the chart: the contract above fixes the chart exactly. */
  lemma TopSectorsDetermined(raw: seq<SectorRow>, startYear: int, endYear: int, s: seq<SectorGrowth>)
    requires RankedFrom(s, Collect(GroupBy(raw, SectorOf), startYear, endYear))
    ensures TopSectors(raw, startYear, endYear) == Take(s, TopCount)
  {
    var results := Collect(GroupBy(raw, SectorOf), startYear, endYear);
    var t :| TopSectors(raw, startYear, endYear) == Take(t, TopCount) && RankedFrom(t, results);
    assert RankedFrom(t, results);
    forall v
      ensures Filter(s, KeyIs(SectorValor, v)) == Filter(t, KeyIs(SectorValor, v))
    {
      assert Filter(s, KeyIs(SectorValor, v)) == Filter(results, KeyIs(SectorValor, v));
      assert Filter(t, KeyIs(SectorValor, v)) == Filter(results, KeyIs(SectorValor, v));
    }
    forall i, j | 0 <= i < j < |s|
      ensures SectorValor(s[i]) >= SectorValor(s[j])
    {
    }
    forall i, j | 0 <= i < j < |t|
      ensures SectorValor(t[i]) >= SectorValor(t[j])
    {
    }
    DescUnique(s, t, SectorValor);
  }

  /** A sector whose growth is `v` is shown, or ten sectors with growth at
      least `v` are shown instead. */
  lemma {:induction false} TopSectorsComplete(raw: seq<SectorRow>, startYear: int, endYear: int, k: string, v: real)
    requires Grows(raw, k, startYear, endYear, v)
    ensures var r := TopSectors(raw, startYear, endYear);
            (exists i :: 0 <= i < |r| && r[i].sector == k && r[i].valor == v)
            || (|r| == TopCount && forall i :: 0 <= i < |r| ==> r[i].valor >= v)
  {
    var results := Collect(GroupBy(raw, SectorOf), startYear, endYear);
    var sorted := SortDesc(results, SectorValor);
    assert TopSectors(raw, startYear, endYear) == Take(sorted, TopCount);
    GrowsCollected(raw, startYear, endYear, k, v);
    assert SectorGrowth(k, v) in multiset(sorted);
    TopOfDescending(sorted, SectorGrowth(k, v));
  }

  /** The first ten of a descending sequence hold a given element, or are ten
      elements at least as large. */
  lemma TopOfDescending(sorted: seq<SectorGrowth>, g: SectorGrowth)
    requires g in sorted
    requires forall i, j :: 0 <= i < j < |sorted| ==> sorted[i].valor >= sorted[j].valor
    ensures var r := Take(sorted, TopCount);
            (exists i :: 0 <= i < |r| && r[i] == g)
            || (|r| == TopCount && forall i :: 0 <= i < |r| ==> r[i].valor >= g.valor)
  {
    var t :| 0 <= t < |sorted| && sorted[t] == g;
    if t < TopCount {
      assert Take(sorted, TopCount)[t] == g;
    }
  }
}

=== FILE: seqs.dfy ===
/** Sequence helpers standing in for JavaScript's `Array.prototype.filter`,
    `find` and `slice`. */
module Seqs {
  import opened Wrappers

  /** The elements of `s` satisfying `p`, in their original order. */
  function Filter<T>(s: seq<T>, p: T -> bool): (r: seq<T>)
    ensures |r| <= |s|
    ensures forall i :: 0 <= i < |r| ==> p(r[i])
  {
    if |s| == 0 then []
    else
      var t := s[..|s| - 1];
      var x := s[|s| - 1];
      assert s == t + [x];
      Filter(t, p) + (if p(x) then [x] else [])
  }

  /** An element is kept exactly when it occurs in `s` and satisfies `p`. */
  lemma {:induction false} FilterMember<T>(s: seq<T>, p: T -> bool, x: T)
    ensures x in Filter(s, p) <==> x in s && p(x)
  {
    if |s| > 0 {
      var t := s[..|s| - 1];
      FilterMember(t, p, x);
      assert s == t + [s[|s| - 1]];
    }
  }

  /** Filtering distributes over concatenation. */
  lemma {:induction false} FilterAppend<T>(a: seq<T>, b: seq<T>, p: T -> bool)
    ensures Filter(a + b, p) == Filter(a, p) + Filter(b, p)
  {
    if |b| == 0 {
      assert a + b == a;
    } else {
      var c := b[..|b| - 1];
      var x := b[|b| - 1];
      assert b == c + [x];
      assert a + b == (a + c) + [x];
      FilterAppend(a, c, p);
      FilterSnoc(a + c, x, p);
      FilterSnoc(c, x, p);
    }
  }

  /** Filtering a sequence extended by one element. */
  lemma FilterSnoc<T>(s: seq<T>, x: T, p: T -> bool)
    ensures Filter(s + [x], p) == Filter(s, p) + (if p(x) then [x] else [])
  {
    assert (s + [x])[..|s|] == s;
  }

  /** Filtering a single element. */
  lemma FilterOne<T>(x: T, p: T -> bool)
    ensures Filter([x], p) == if p(x) then [x] else []
  {
    assert [x][..0] == [];
  }

  /** Filtering a sequence with one more element in front. */
  lemma FilterCons<T>(y: T, u: seq<T>, p: T -> bool)
    ensures p(y) ==> Filter([y] + u, p) == [y] + Filter(u, p)
    ensures !p(y) ==> Filter([y] + u, p) == Filter(u, p)
  {
    FilterAppend([y], u, p);
    FilterOne(y, p);
    assert [] + Filter(u, p) == Filter(u, p);
  }

  /** Filtering with a predicate every element satisfies is the identity. */
  lemma {:induction false} FilterAll<T>(s: seq<T>, p: T -> bool)
    requires forall i :: 0 <= i < |s| ==> p(s[i])
    ensures Filter(s, p) == s
  {
    if |s| > 0 {
      var t := s[..|s| - 1];
      assert s == t + [s[|s| - 1]];
      FilterAll(t, p);
      FilterSnoc(t, s[|s| - 1], p);
    }
  }

  /** The index of the first element satisfying `p`, if any. */
  function FirstIndex<T>(s: seq<T>, p: T -> bool): (r: Option<nat>)
    ensures r.Some? ==> r.value < |s| && p(s[r.value])
    ensures r.Some? ==> forall j :: 0 <= j < r.value ==> !p(s[j])
    ensures r.None? <==> forall j :: 0 <= j < |s| ==> !p(s[j])
  {
    if |s| == 0 then None
    else if p(s[0]) then Some(0)
    else match FirstIndex(s[1..], p)
      case None => None
      case Some(i) => Some(i + 1)
  }

  /** `Array.prototype.find`: the first element satisfying `p`, or None. */
  function Find<T>(s: seq<T>, p: T -> bool): (r: Option<T>)
    ensures r.None? <==> forall j :: 0 <= j < |s| ==> !p(s[j])
    ensures r.Some? ==> exists i :: 0 <= i < |s| && s[i] == r.value && p(s[i])
                                    && forall j :: 0 <= j < i ==> !p(s[j])
  {
    match FirstIndex(s, p)
    case None => None
    case Some(i) => Some(s[i])
  }

  /** Appending an element changes the result of `find` only when nothing
      before it was found. */
  lemma FindAppend<T>(a: seq<T>, x: T, p: T -> bool)
    ensures Find(a + [x], p) == if Find(a, p).Some? then Find(a, p) else if p(x) then Some(x) else None
  {
    var s := a + [x];
    assert forall j :: 0 <= j < |a| ==> s[j] == a[j];
    match FirstIndex(a, p)
    case Some(i) => {
      assert FirstIndex(s, p) == Some(i) by {
        FirstIndexUnique(s, p, i);
      }
    }
    case None => {
      if p(x) {
        FirstIndexUnique(s, p, |a|);
      }
    }
  }

  /** Searching the filtered sequence finds what searching the whole sequence
      for elements satisfying both predicates finds. */
  lemma {:induction false} FindFiltered<T>(s: seq<T>, p: T -> bool, q: T -> bool, pq: T -> bool)
    requires forall x :: pq(x) == (p(x) && q(x))
    ensures Find(Filter(s, p), q) == Find(s, pq)
  {
    if |s| > 0 {
      var d := s[..|s| - 1];
      var x := s[|s| - 1];
      assert s == d + [x];
      FindFiltered(d, p, q, pq);
      FindAppend(d, x, pq);
      FilterSnoc(d, x, p);
      if p(x) {
        FindAppend(Filter(d, p), x, q);
      } else {
        assert Filter(s, p) == Filter(d, p);
      }
    }
  }

  /** The first index is the only index satisfying `p` with none before it. */
  lemma FirstIndexUnique<T>(s: seq<T>, p: T -> bool, i: nat)
    requires i < |s| && p(s[i])
    requires forall j :: 0 <= j < i ==> !p(s[j])
    ensures FirstIndex(s, p) == Some(i)
  {
  }

  /** `Array.prototype.map`: `f` applied to each element, in order. */
  function MapSeq<A, B>(s: seq<A>, f: A -> B): (r: seq<B>)
    ensures |r| == |s|
    ensures forall i :: 0 <= i < |r| ==> r[i] == f(s[i])
  {
    if |s| == 0 then []
    else
      var p := MapSeq(s[..|s| - 1], f);
      assert forall i :: 0 <= i < |p| ==> s[..|s| - 1][i] == s[i];
      p + [f(s[|s| - 1])]
  }

  /** `key` tells the elements of `s` apart. */
  ghost predicate KeysDistinct<T, K>(s: seq<T>, key: T -> K) {
    forall i, j :: 0 <= i < j < |s| ==> key(s[i]) != key(s[j])
  }

  /** Prepending an element whose key no other element has keeps keys distinct. */
  lemma ConsDistinct<T, K>(x: T, rest: seq<T>, key: T -> K)
    requires KeysDistinct(rest, key)
    requires forall j :: 0 <= j < |rest| ==> key(rest[j]) != key(x)
    ensures KeysDistinct([x] + rest, key)
  {
    var c := [x] + rest;
    forall a, b | 0 <= a < b < |c|
      ensures key(c[a]) != key(c[b])
    {
      assert c[b] == rest[b - 1];
      if a > 0 {
        assert c[a] == rest[a - 1];
      }
    }
  }

  /** An element at two positions occurs at least twice. */
  lemma Twice<T>(s: seq<T>, i: nat, j: nat)
    requires i < j < |s| && s[i] == s[j]
    ensures multiset(s)[s[i]] >= 2
  {
    assert s == s[..j] + [s[j]] + s[j + 1..];
    assert s[i] in s[..j];
  }

  /** In a sequence whose elements have distinct keys, each element occurs once. */
  lemma {:induction false} Once<T, K>(s: seq<T>, key: T -> K, x: T)
    requires KeysDistinct(s, key)
    ensures multiset(s)[x] <= 1
  {
    if |s| > 0 {
      var t := s[1..];
      assert s == [s[0]] + t;
      assert KeysDistinct(t, key) by {
        forall i, j | 0 <= i < j < |t|
          ensures key(t[i]) != key(t[j])
        {
          assert t[i] == s[i + 1] && t[j] == s[j + 1];
        }
      }
      Once(t, key, x);
      if x == s[0] {
        assert x !in t by {
          forall i | 0 <= i < |t|
            ensures t[i] != x
          {
            assert t[i] == s[i + 1];
          }
        }
      }
    }
  }

  /** A permutation of a sequence whose elements have distinct keys has
      distinct keys too. */
  lemma KeysDistinctPermutation<T, K>(a: seq<T>, b: seq<T>, key: T -> K)
    requires multiset(a) == multiset(b) && KeysDistinct(a, key)
    ensures KeysDistinct(b, key)
  {
    forall i, j | 0 <= i < j < |b|
      ensures key(b[i]) != key(b[j])
    {
      if key(b[i]) == key(b[j]) {
        assert b[i] in multiset(a) && b[j] in multiset(a);
        var p :| 0 <= p < |a| && a[p] == b[i];
        var q :| 0 <= q < |a| && a[q] == b[j];
        assert p == q;
        Twice(b, i, j);
        Once(a, key, b[i]);
      }
    }
  }

  /** `Array.prototype.slice(0, n)`: at most the first `n` elements. */
  function Take<T>(s: seq<T>, n: nat): (r: seq<T>)
    ensures |r| <= n && |r| <= |s|
    ensures |s| <= n ==> r == s
    ensures |s| > n ==> |r| == n
    ensures forall i :: 0 <= i < |r| ==> r[i] == s[i]
  {
    if |s| <= n then s else s[..n]
  }
}

=== FILE: sorting.dfy ===
/** `Array.prototype.sort` with a comparator, modelled as a stable insertion
    sort (the ECMAScript 2019 specification requires sort to be stable). */
module Sorting {
  import opened Seqs

  /** `le(a, b)` holds when the comparator lets `a` stay before `b`. Every two
      elements of `s` are comparable one way or the other. */
  ghost predicate TotalOn<T>(s: seq<T>, le: (T, T) -> bool) {
    forall i, j :: 0 <= i < |s| && 0 <= j < |s| ==> le(s[i], s[j]) || le(s[j], s[i])
  }

  /** `le` is transitive on the elements of `s`. */
  ghost predicate TransitiveOn<T>(s: seq<T>, le: (T, T) -> bool) {
    forall i, j, k :: 0 <= i < |s| && 0 <= j < |s| && 0 <= k < |s| ==>
      (le(s[i], s[j]) && le(s[j], s[k]) ==> le(s[i], s[k]))
  }

  /** Each element may stay before its successor. */
  ghost predicate Sorted<T>(s: seq<T>, le: (T, T) -> bool) {
    forall i :: 0 <= i < |s| - 1 ==> le(s[i], s[i + 1])
  }

  /** Inserts `x` in front of the first element it may precede. */
  function InsertBy<T>(x: T, s: seq<T>, le: (T, T) -> bool): (r: seq<T>)
    requires Sorted(s, le)
    requires forall i :: 0 <= i < |s| ==> le(x, s[i]) || le(s[i], x)
    ensures Sorted(r, le)
    ensures multiset(r) == multiset(s) + multiset{x}
    ensures |r| == |s| + 1
    ensures r[0] == x || (|s| > 0 && r[0] == s[0])
  {
    if |s| == 0 || le(x, s[0]) then
      InsertFront(x, s, le);
      [x] + s
    else
      var rest := s[1..];
      assert Sorted(rest, le) by {
        forall i | 0 <= i < |rest| - 1
          ensures le(rest[i], rest[i + 1])
        {
          assert rest[i] == s[i + 1] && rest[i + 1] == s[i + 2];
        }
      }
      assert forall i :: 0 <= i < |rest| ==> le(x, rest[i]) || le(rest[i], x) by {
        forall i | 0 <= i < |rest|
          ensures le(x, rest[i]) || le(rest[i], x)
        {
          assert rest[i] == s[i + 1];
        }
      }
      var t := InsertBy(x, rest, le);
      InsertBehind(x, s, t, le);
      [s[0]] + t
  }

  /** The first case of `InsertBy`: `x` goes in front. */
  lemma InsertFront<T>(x: T, s: seq<T>, le: (T, T) -> bool)
    requires Sorted(s, le)
    requires |s| > 0 ==> le(x, s[0])
    ensures var r := [x] + s;
            Sorted(r, le) && multiset(r) == multiset(s) + multiset{x} && |r| == |s| + 1 && r[0] == x
  {
    ConsSorted(x, s, le);
    assert multiset([x] + s) == multiset([x]) + multiset(s);
  }

  /** The second case of `InsertBy`: the head stays in front of `t`, the
      insertion of `x` into the rest. */
  lemma InsertBehind<T>(x: T, s: seq<T>, t: seq<T>, le: (T, T) -> bool)
    requires |s| > 0 && Sorted(s, le) && le(s[0], x)
    requires Sorted(t, le) && multiset(t) == multiset(s[1..]) + multiset{x} && |t| == |s|
    requires t[0] == x || (|s| > 1 && t[0] == s[1])
    ensures var r := [s[0]] + t;
            Sorted(r, le) && multiset(r) == multiset(s) + multiset{x} && |r| == |s| + 1 && r[0] == s[0]
  {
    ConsSorted(s[0], t, le);
    assert s == [s[0]] + s[1..];
    assert multiset([s[0]] + t) == multiset([s[0]]) + multiset(t);
    assert multiset(s) == multiset([s[0]]) + multiset(s[1..]);
  }

  /** An element that may precede the head of a sorted sequence may be put in front of it. */
  lemma ConsSorted<T>(x: T, s: seq<T>, le: (T, T) -> bool)
    requires Sorted(s, le)
    requires |s| > 0 ==> le(x, s[0])
    ensures Sorted([x] + s, le)
  {
    var c := [x] + s;
    forall i | 0 <= i < |c| - 1
      ensures le(c[i], c[i + 1])
    {
      assert c[i + 1] == s[i];
      if i > 0 {
        assert c[i] == s[i - 1];
      }
    }
  }

  /** The sorted arrangement of `s` under `le`. */
  function SortBy<T>(s: seq<T>, le: (T, T) -> bool): (r: seq<T>)
    requires TotalOn(s, le)
    ensures Sorted(r, le)
    ensures multiset(r) == multiset(s)
    ensures |r| == |s|
  {
    if |s| == 0 then []
    else
      var rest := s[1..];
      assert TotalOn(rest, le) by {
        forall i, j | 0 <= i < |rest| && 0 <= j < |rest|
          ensures le(rest[i], rest[j]) || le(rest[j], rest[i])
        {
          assert rest[i] == s[i + 1] && rest[j] == s[j + 1];
        }
      }
      var t := SortBy(rest, le);
      assert s == [s[0]] + rest;
      assert forall i :: 0 <= i < |t| ==> le(s[0], t[i]) || le(t[i], s[0]) by {
        forall i | 0 <= i < |t|
          ensures le(s[0], t[i]) || le(t[i], s[0])
        {
          assert t[i] in multiset(rest);
          var j :| 0 <= j < |rest| && rest[j] == t[i];
          assert s[j + 1] == t[i];
        }
      }
      InsertBy(s[0], t, le)
  }

  /** Inserting `x` keeps it ahead of every element of a group it may precede:
      such an element is never passed over. */
  lemma {:induction false} InsertFilter<T>(x: T, t: seq<T>, le: (T, T) -> bool, p: T -> bool)
    requires Sorted(t, le)
    requires forall i :: 0 <= i < |t| ==> le(x, t[i]) || le(t[i], x)
    requires p(x) ==> forall i :: 0 <= i < |t| && p(t[i]) ==> le(x, t[i])
    ensures Filter(InsertBy(x, t, le), p) == Filter([x], p) + Filter(t, p)
  {
    if |t| == 0 || le(x, t[0]) {
      FilterAppend([x], t, p);
    } else {
      var rest := t[1..];
      assert forall i :: 0 <= i < |rest| ==> rest[i] == t[i + 1];
      var u := InsertBy(x, rest, le);
      InsertFilter(x, rest, le, p);
      assert p(x) ==> !p(t[0]);
      FilterShift(x, t[0], u, rest, p);
      assert InsertBy(x, t, le) == [t[0]] + u;
      assert t == [t[0]] + rest;
    }
  }

  /** Putting `y` in front on both sides keeps the filtered equation, when
      `y` and `x` are not both kept. */
  lemma FilterShift<T>(x: T, y: T, u: seq<T>, rest: seq<T>, p: T -> bool)
    requires Filter(u, p) == Filter([x], p) + Filter(rest, p)
    requires p(x) ==> !p(y)
    ensures Filter([y] + u, p) == Filter([x], p) + Filter([y] + rest, p)
  {
    FilterCons(y, u, p);
    FilterCons(y, rest, p);
    FilterOne(x, p);
    if !p(x) {
      assert Filter(u, p) == Filter(rest, p);
      assert [] + Filter([y] + rest, p) == Filter([y] + rest, p);
    }
  }


  /** Stability: a group of elements that may all precede one another keeps
      its original order. */
  lemma {:induction false} SortByStable<T>(s: seq<T>, le: (T, T) -> bool, p: T -> bool)
    requires TotalOn(s, le)
    requires forall i, j :: 0 <= i < |s| && 0 <= j < |s| && p(s[i]) && p(s[j]) ==> le(s[i], s[j])
    ensures Filter(SortBy(s, le), p) == Filter(s, p)
  {
    if |s| > 0 {
      var rest := s[1..];
      assert forall i :: 0 <= i < |rest| ==> rest[i] == s[i + 1];
      var t := SortBy(rest, le);
      SortByStable(rest, le, p);
      forall i | 0 <= i < |t|
        ensures (le(s[0], t[i]) || le(t[i], s[0])) && (p(s[0]) && p(t[i]) ==> le(s[0], t[i]))
      {
        PermMember(t, rest, i);
      }
      InsertFilter(s[0], t, le, p);
      assert s == [s[0]] + rest;
      FilterAppend([s[0]], rest, p);
    }
  }

  /** An element of a permutation of `b` is an element of `b`. */
  lemma PermMember<T>(a: seq<T>, b: seq<T>, i: nat)
    requires multiset(a) == multiset(b) && i < |a|
    ensures exists j :: 0 <= j < |b| && a[i] == b[j]
  {
    assert a[i] in multiset(b);
  }

  /** The elements satisfying `p` are those whose key is `v`. */
  function KeyIs<T>(key: T -> real, v: real): T -> bool {
    (x: T) => key(x) == v
  }

  /** With a comparator that lets equal keys stay in either order, elements
      with equal keys keep their original order. */
  lemma KeyStable<T>(s: seq<T>, le: (T, T) -> bool, key: T -> real)
    requires TotalOn(s, le)
    requires forall i, j :: 0 <= i < |s| && 0 <= j < |s| && key(s[i]) == key(s[j]) ==> le(s[i], s[j])
    ensures forall v :: Filter(SortBy(s, le), KeyIs(key, v)) == Filter(s, KeyIs(key, v))
  {
    forall v ensures Filter(SortBy(s, le), KeyIs(key, v)) == Filter(s, KeyIs(key, v)) {
      SortByStable(s, le, KeyIs(key, v));
    }
  }

  /** With a transitive comparator, adjacent order gives order between any two positions. */
  lemma SortedAll<T>(s: seq<T>, le: (T, T) -> bool)
    requires Sorted(s, le)
    requires TransitiveOn(s, le)
    ensures forall i, j :: 0 <= i < j < |s| ==> le(s[i], s[j])
  {
    forall i, j | 0 <= i < j < |s|
      ensures le(s[i], s[j])
    {
      SortedFrom(s, le, i, j);
    }
  }

  lemma {:induction false} SortedFrom<T>(s: seq<T>, le: (T, T) -> bool, i: nat, j: nat)
    requires Sorted(s, le)
    requires TransitiveOn(s, le)
    requires i < j < |s|
    ensures le(s[i], s[j])
  {
    if j > i + 1 {
      SortedFrom(s, le, i, j - 1);
      assert le(s[j - 1], s[j]);
    }
  }

  /** `sort((a, b) => key(a) - key(b))`: ascending by a numeric key. */
  function SortAsc<T>(s: seq<T>, key: T -> real): (r: seq<T>)
    ensures forall i, j :: 0 <= i < j < |r| ==> key(r[i]) <= key(r[j])
    ensures multiset(r) == multiset(s)
    ensures |r| == |s|
    ensures forall v :: Filter(r, KeyIs(key, v)) == Filter(s, KeyIs(key, v))
  {
    var le := (a: T, b: T) => key(a) <= key(b);
    var r := SortBy(s, le);
    SortedAll(r, le);
    KeyStable(s, le, key);
    r
  }

  /** `sort((a, b) => key(b) - key(a))`: descending by a numeric key. */
  function SortDesc<T>(s: seq<T>, key: T -> real): (r: seq<T>)
    ensures forall i, j :: 0 <= i < j < |r| ==> key(r[i]) >= key(r[j])
    ensures multiset(r) == multiset(s)
    ensures |r| == |s|
    ensures forall v :: Filter(r, KeyIs(key, v)) == Filter(s, KeyIs(key, v))
  {
    var le := (a: T, b: T) => key(a) >= key(b);
    var r := SortBy(s, le);
    SortedAll(r, le);
    KeyStable(s, le, key);
    r
  }

  /** Dropping the same first element from two permutations leaves permutations. */
  lemma TailPerm<T>(a: seq<T>, b: seq<T>)
    requires multiset(a) == multiset(b) && |a| > 0 && |b| > 0 && a[0] == b[0]
    ensures multiset(a[1..]) == multiset(b[1..])
  {
    assert a == [a[0]] + a[1..] && b == [b[0]] + b[1..];
    assert multiset(a) == multiset([a[0]]) + multiset(a[1..]);
    assert multiset(b) == multiset([b[0]]) + multiset(b[1..]);
    forall x
      ensures multiset(a[1..])[x] == multiset(b[1..])[x]
    {
      assert multiset(a)[x] == multiset([a[0]])[x] + multiset(a[1..])[x];
      assert multiset(b)[x] == multiset([b[0]])[x] + multiset(b[1..])[x];
    }
  }

  /** Two sequences with the same first element and the same filtered
      subsequence keep the same filtered subsequence after the first element. */
  lemma FilterTail<T>(a: seq<T>, b: seq<T>, p: T -> bool)
    requires |a| > 0 && |b| > 0 && a[0] == b[0]
    requires Filter(a, p) == Filter(b, p)
    ensures Filter(a[1..], p) == Filter(b[1..], p)
  {
    assert a == [a[0]] + a[1..] && b == [b[0]] + b[1..];
    FilterCons(a[0], a[1..], p);
    FilterCons(b[0], b[1..], p);
    if p(a[0]) {
      assert Filter(a[1..], p) == ([a[0]] + Filter(a[1..], p))[1..];
      assert Filter(b[1..], p) == ([b[0]] + Filter(b[1..], p))[1..];
    }
  }

  /** Sequences with the same first element and the same rest are equal. */
  lemma SameHeadTail<T>(a: seq<T>, b: seq<T>)
    requires |a| > 0 && |b| > 0 && a[0] == b[0] && a[1..] == b[1..]
    ensures a == b
  {
    assert a == [a[0]] + a[1..] && b == [b[0]] + b[1..];
  }

  /** A first element that passes the filter comes first in the result. */
  lemma FilterHead<T>(a: seq<T>, p: T -> bool)
    requires |a| > 0 && p(a[0])
    ensures |Filter(a, p)| > 0 && Filter(a, p)[0] == a[0]
  {
    assert a == [a[0]] + a[1..];
    FilterCons(a[0], a[1..], p);
  }

  /** Two stable descending orderings of the same elements start alike. */
  lemma SameHead<T>(a: seq<T>, b: seq<T>, key: T -> real)
    requires multiset(a) == multiset(b) && |a| > 0 && |b| > 0
    requires forall i, j :: 0 <= i < j < |a| ==> key(a[i]) >= key(a[j])
    requires forall i, j :: 0 <= i < j < |b| ==> key(b[i]) >= key(b[j])
    requires Filter(a, KeyIs(key, key(a[0]))) == Filter(b, KeyIs(key, key(a[0])))
    ensures a[0] == b[0]
  {
    PermMember(a, b, 0);
    PermMember(b, a, 0);
    var m := key(a[0]);
    assert key(b[0]) == m;
    FilterHead(a, KeyIs(key, m));
    FilterHead(b, KeyIs(key, m));
  }

  /** A stable descending order is unique: two orderings of the same elements,
      both non-increasing by `key` and both keeping equal keys in the same
      relative order, are the same sequence. */
  lemma {:induction false} DescUnique<T>(a: seq<T>, b: seq<T>, key: T -> real)
    requires multiset(a) == multiset(b)
    requires forall i, j :: 0 <= i < j < |a| ==> key(a[i]) >= key(a[j])
    requires forall i, j :: 0 <= i < j < |b| ==> key(b[i]) >= key(b[j])
    requires forall v :: Filter(a, KeyIs(key, v)) == Filter(b, KeyIs(key, v))
    ensures a == b
    decreases |a|
  {
    assert |a| == |multiset(a)| && |b| == |multiset(b)|;
    if |a| > 0 {
      SameHead(a, b, key);
      TailPerm(a, b);
      var ta, tb := a[1..], b[1..];
      forall v
        ensures Filter(ta, KeyIs(key, v)) == Filter(tb, KeyIs(key, v))
      {
        FilterTail(a, b, KeyIs(key, v));
      }
      assert forall i, j :: 0 <= i < j < |ta| ==> key(ta[i]) >= key(ta[j]) by {
        forall i, j | 0 <= i < j < |ta| ensures key(ta[i]) >= key(ta[j]) {
          assert ta[i] == a[i + 1] && ta[j] == a[j + 1];
        }
      }
      assert forall i, j :: 0 <= i < j < |tb| ==> key(tb[i]) >= key(tb[j]) by {
        forall i, j | 0 <= i < j < |tb| ensures key(tb[i]) >= key(tb[j]) {
          assert tb[i] == b[i + 1] && tb[j] == b[j + 1];
        }
      }
      DescUnique(ta, tb, key);
      SameHeadTail(a, b);
    }
  }

  /** Two stable descending sorts of the same sequence `s` are equal. */
  lemma SameStableSort<T>(a: seq<T>, b: seq<T>, s: seq<T>, key: T -> real)
    requires multiset(a) == multiset(s) && multiset(b) == multiset(s)
    requires forall i, j :: 0 <= i < j < |a| ==> key(a[i]) >= key(a[j])
    requires forall i, j :: 0 <= i < j < |b| ==> key(b[i]) >= key(b[j])
    requires forall v :: Filter(a, KeyIs(key, v)) == Filter(s, KeyIs(key, v))
    requires forall v :: Filter(b, KeyIs(key, v)) == Filter(s, KeyIs(key, v))
    ensures a == b
  {
    forall v
      ensures Filter(a, KeyIs(key, v)) == Filter(b, KeyIs(key, v))
    {
      assert Filter(a, KeyIs(key, v)) == Filter(s, KeyIs(key, v));
    }
    DescUnique(a, b, key);
  }

  /** `a.localeCompare(b) <= 0`, modelled as lexicographic order on characters. */
  predicate StrLe(a: string, b: string)
    decreases |a|
  {
    |a| == 0 || (|b| > 0 && (a[0] < b[0] || (a[0] == b[0] && StrLe(a[1..], b[1..]))))
  }

  /** Any two strings are ordered one way or the other. */
  lemma {:induction false} StrLeTotal(a: string, b: string)
    ensures StrLe(a, b) || StrLe(b, a)
    decreases |a|
  {
    if |a| > 0 && |b| > 0 && a[0] == b[0] {
      StrLeTotal(a[1..], b[1..]);
    }
  }

  /** The string order is transitive. */
  lemma {:induction false} StrLeTrans(a: string, b: string, c: string)
    requires StrLe(a, b) && StrLe(b, c)
    ensures StrLe(a, c)
    decreases |a|
  {
    if |a| > 0 && a[0] == b[0] && b[0] == c[0] {
      StrLeTrans(a[1..], b[1..], c[1..]);
    }
  }

  /** Two strings ordered both ways are equal. */
  lemma {:induction false} StrLeAntisymmetric(a: string, b: string)
    requires StrLe(a, b) && StrLe(b, a)
    ensures a == b
    decreases |a|
  {
    if |a| > 0 {
      StrLeAntisymmetric(a[1..], b[1..]);
      assert a == [a[0]] + a[1..] && b == [b[0]] + b[1..];
    }
  }
}

=== FILE: tables.dfy ===
/** The provincial poverty table, the income-by-demography bars and the tax
    burden by decile. */
module Tables {
  import opened Wrappers
  import opened Seqs
  import opened Sorting
  import opened Aggregate
  import opened Records

  /* ---------- provincial table (`renderProvTable`) ---------- */

  /** One table line: a province with its poverty and extreme-poverty rates,
      `null` when the province has no row for that indicator. */
  datatype ProvLine = ProvLine(prov: string, pob: Option<real>, ext: Option<real>)

  const PobrezaName: string := "Pobreza"
  const ExtremaName: string := "Pobreza extrema"

  function ProvYear(y: int): ProvRow -> bool {
    (r: ProvRow) => r.anio == y
  }

  function ProvinciaOf(r: ProvRow): string { r.provincia }

  function IndicadorIs(indicator: string): ProvRow -> bool {
    (r: ProvRow) => r.indicador == indicator
  }

  function ProvIndicador(k: string, indicator: string): ProvRow -> bool {
    (r: ProvRow) => r.provincia == k && r.indicador == indicator
  }

  function ProvYearIndicador(k: string, y: int, indicator: string): ProvRow -> bool {
    (r: ProvRow) => r.provincia == k && r.anio == y && r.indicador == indicator
  }

  /** `pob ? +pob.valor : null`: the value of a found row, `null` reading as 0. */
  function ValueOf(found: Option<ProvRow>): (v: Option<real>)
    ensures found.None? ==> v.None?
    ensures found.Some? && found.value.valor.Some? ==> v == found.value.valor
    ensures found.Some? && found.value.valor.None? ==> v == Some(0.0)
  {
    match found
    case None => None
    case Some(r) => Some(Coerce(r.valor))
  }

  /** The line of one province's group: its first row of each indicator. */
  function LineOf(g: Group<string, ProvRow>): ProvLine {
    ProvLine(g.key, ValueOf(Find(g.rows, IndicadorIs(PobrezaName))),
             ValueOf(Find(g.rows, IndicadorIs(ExtremaName))))
  }

  /** One line per group, in group order. */
  function Lines(gs: seq<Group<string, ProvRow>>): (r: seq<ProvLine>)
    ensures |r| == |gs|
    ensures forall i :: 0 <= i < |r| ==> r[i] == LineOf(gs[i])
  {
    MapSeq(gs, LineOf)
  }

  /** `(r.pob || 0)`: the sort key. */
  function PobKey(l: ProvLine): real { Coerce(l.pob) }

  /** The provinces with a row in year `y`. */
  ghost function ProvincesIn(rows: seq<ProvRow>, y: int): set<string> {
    KeysIn(Filter(rows, ProvYear(y)), ProvinciaOf)
  }

  /** Reference: the rate of indicator `indicator` for province `k` in year
      `y`, read off the first such row of the whole table. */
  ghost function Reading(rows: seq<ProvRow>, k: string, y: int, indicator: string): Option<real> {
    ValueOf(Find(rows, ProvYearIndicador(k, y, indicator)))
  }

  /** `l` is the line of its province in year `y`. */
  ghost predicate IsLine(rows: seq<ProvRow>, y: int, l: ProvLine) {
    l.prov in ProvincesIn(rows, y)
    && l.pob == Reading(rows, l.prov, y, PobrezaName)
    && l.ext == Reading(rows, l.prov, y, ExtremaName)
  }

  /** A province's group, searched for an indicator, gives the reference reading. */
  lemma GroupReading(rows: seq<ProvRow>, y: int, k: string, indicator: string)
    ensures ValueOf(Find(Matching(Filter(rows, ProvYear(y)), ProvinciaOf, k), IndicadorIs(indicator)))
            == Reading(rows, k, y, indicator)
  {
    FindMatching(Filter(rows, ProvYear(y)), ProvinciaOf, k, IndicadorIs(indicator), ProvIndicador(k, indicator));
    FindFiltered(rows, ProvYear(y), ProvIndicador(k, indicator), ProvYearIndicador(k, y, indicator));
  }

  /** Any arrangement of the lines of the groups of year `y` holds only
      lines of provinces of that year. */
  lemma {:induction false} LinesAreLines(rows: seq<ProvRow>, y: int, r: seq<ProvLine>)
    requires multiset(r) == multiset(Lines(GroupBy(Filter(rows, ProvYear(y)), ProvinciaOf)))
    ensures forall i :: 0 <= i < |r| ==> IsLine(rows, y, r[i])
  {
    var gs := GroupBy(Filter(rows, ProvYear(y)), ProvinciaOf);
    var lines := Lines(gs);
    forall i | 0 <= i < |r|
      ensures IsLine(rows, y, r[i])
    {
      assert r[i] in multiset(lines);
      var q :| 0 <= q < |lines| && lines[q] == r[i];
      assert gs[q].key in GroupKeys(gs);
      GroupReading(rows, y, gs[q].key, PobrezaName);
      GroupReading(rows, y, gs[q].key, ExtremaName);
    }
  }

  /** The lines of year `y` before sorting: one per province, in the order
      in which the provinces first appear. */
  function FirstSeenLines(rows: seq<ProvRow>, y: int): seq<ProvLine> {
    Lines(GroupBy(Filter(rows, ProvYear(y)), ProvinciaOf))
  }

  /** `renderProvTable`: the lines of year `y`, highest poverty rate first;
      provinces of equal rate stay in first-seen order. */
  function ProvTable(rows: seq<ProvRow>, y: int): (r: seq<ProvLine>)
    ensures forall i :: 0 <= i < |r| ==> IsLine(rows, y, r[i])
    ensures forall i, j :: 0 <= i < j < |r| ==> PobKey(r[i]) >= PobKey(r[j])
    ensures |r| == |ProvincesIn(rows, y)|
    ensures multiset(r) == multiset(FirstSeenLines(rows, y))
    ensures forall v :: Filter(r, KeyIs(PobKey, v)) == Filter(FirstSeenLines(rows, y), KeyIs(PobKey, v))
  {
    var gs := GroupBy(Filter(rows, ProvYear(y)), ProvinciaOf);
    var lines := Lines(gs);
    var r := SortDesc(lines, PobKey);
    LinesAreLines(rows, y, r);
    GroupCount(Filter(rows, ProvYear(y)), ProvinciaOf);
    r
  }

  /** Any stable descending ordering of the first-seen lines by poverty rate
      is the table: the contract above fixes it exactly. */
  lemma ProvTableDetermined(rows: seq<ProvRow>, y: int, t: seq<ProvLine>)
    requires multiset(t) == multiset(FirstSeenLines(rows, y))
    requires forall i, j :: 0 <= i < j < |t| ==> PobKey(t[i]) >= PobKey(t[j])
    requires forall v :: Filter(t, KeyIs(PobKey, v)) == Filter(FirstSeenLines(rows, y), KeyIs(PobKey, v))
    ensures t == ProvTable(rows, y)
  {
    SameStableSort(t, ProvTable(rows, y), FirstSeenLines(rows, y), PobKey);
  }

  /** Every province with a row in year `y` has a line. */
  lemma ProvTableCovers(rows: seq<ProvRow>, y: int, k: string)
    requires k in ProvincesIn(rows, y)
    ensures exists i :: 0 <= i < |ProvTable(rows, y)| && ProvTable(rows, y)[i].prov == k
  {
    var gs := GroupBy(Filter(rows, ProvYear(y)), ProvinciaOf);
    var lines := Lines(gs);
    var r := ProvTable(rows, y);
    assert r == SortDesc(lines, PobKey);
    assert k in GroupKeys(gs);
    var q :| 0 <= q < |gs| && gs[q].key == k;
    assert lines[q] in multiset(r);
    var i :| 0 <= i < |r| && r[i] == lines[q];
  }

  /* ---------- income by demography (`renderCrecDemo`) ---------- */

  /** One bar: its label and its income. */
  datatype DemoBar = DemoBar(caption: string, value: real)

  /** JavaScript truthiness of a text field: present and not empty. */
  predicate Present(o: Option<string>) {
    o.Some? && |o.value| > 0
  }

  /** `parts.join(sep)`. */
  function Join(parts: seq<string>, sep: string): string {
    if |parts| == 0 then ""
    else if |parts| == 1 then parts[0]
    else parts[0] + sep + Join(parts[1..], sep)
  }

  lemma JoinPair(a: string, b: string, sep: string)
    ensures Join([a, b], sep) == a + sep + b
  {
    assert [a, b][1..] == [b];
  }

  /** The label of one row: the present parts among dimension and category,
      joined by `': '`. */
  function LabelOf(r: DemoGrowthRow): (s: string)
    ensures Present(r.dimension) && Present(r.categoria) ==> s == r.dimension.value + ": " + r.categoria.value
    ensures Present(r.dimension) && !Present(r.categoria) ==> s == r.dimension.value
    ensures !Present(r.dimension) && Present(r.categoria) ==> s == r.categoria.value
    ensures !Present(r.dimension) && !Present(r.categoria) ==> s == ""
  {
    var parts := (if Present(r.dimension) then [r.dimension.value] else [])
                 + (if Present(r.categoria) then [r.categoria.value] else []);
    JoinPair(r.dimension.GetOr(""), r.categoria.GetOr(""), ": ");
    Join(parts, ": ")
  }

  /** `renderCrecDemo`: one bar per row, in input order, a `null` income
      drawn as 0; no data draws an empty chart. */
  function CrecDemo(data: seq<DemoGrowthRow>): (r: seq<DemoBar>)
    ensures |r| == |data|
    ensures forall i :: 0 <= i < |r| ==> r[i].caption == LabelOf(data[i]) && r[i].value == Coerce(data[i].ingreso)
  {
    if |data| == 0 then []
    else [DemoBar(LabelOf(data[0]), Coerce(data[0].ingreso))] + CrecDemo(data[1..])
  }

  /* ---------- tax burden by decile (`renderTaxBurdenChart`) ---------- */

  /** One bar: a decile and its tax burden in percent. */
  datatype BurdenBar = BurdenBar(decil: int, value: real)

  function BurdenYear(y: int): BurdenRow -> bool {
    (r: BurdenRow) => r.anio == y
  }

  function DecilKey(r: BurdenRow): real { r.decil as real }

  /** The bar of one row, `+r.cargaTributariaPct` reading `null` as 0. */
  function BarOf(r: BurdenRow): BurdenBar {
    BurdenBar(r.decil, Coerce(r.cargaTributariaPct))
  }

  function BarsOf(rows: seq<BurdenRow>): (r: seq<BurdenBar>)
    ensures |r| == |rows|
    ensures forall i :: 0 <= i < |r| ==> r[i] == BurdenBar(rows[i].decil, Coerce(rows[i].cargaTributariaPct))
  {
    MapSeq(rows, BarOf)
  }

  /** `renderTaxBurdenChart`: the rows of year `y`, lowest decile first, each
      drawn as `+r.cargaTributariaPct` (0 for `null`). */
  function TaxBurden(rows: seq<BurdenRow>, y: int): (r: seq<BurdenBar>)
    ensures |r| == |Filter(rows, BurdenYear(y))|
    ensures forall i, j :: 0 <= i < j < |r| ==> r[i].decil <= r[j].decil
    ensures forall i :: 0 <= i < |r| ==>
              exists q :: 0 <= q < |rows| && rows[q].anio == y && rows[q].decil == r[i].decil
                          && Coerce(rows[q].cargaTributariaPct) == r[i].value
    ensures exists s :: multiset(s) == multiset(Filter(rows, BurdenYear(y))) && r == BarsOf(s)
  {
    var kept := Filter(rows, BurdenYear(y));
    var sorted := SortAsc(kept, DecilKey);
    SortedYearRows(rows, y);
    BarsOf(sorted)
  }

  /** Every row of year `y` is drawn. */
  lemma TaxBurdenCovers(rows: seq<BurdenRow>, y: int, q: nat)
    ensures q < |rows| && rows[q].anio == y ==> BarOf(rows[q]) in TaxBurden(rows, y)
  {
    if q < |rows| && rows[q].anio == y {
      var kept := Filter(rows, BurdenYear(y));
      var r := TaxBurden(rows, y);
      FilterMember(rows, BurdenYear(y), rows[q]);
      var s :| multiset(s) == multiset(kept) && r == BarsOf(s);
      assert rows[q] in multiset(s);
      var k :| 0 <= k < |s| && s[k] == rows[q];
      assert r[k] == BarOf(rows[q]);
    }
  }

  /** Every row the chart sorts is a row of year `y`. */
  lemma SortedYearRows(rows: seq<BurdenRow>, y: int)
    ensures var sorted := SortAsc(Filter(rows, BurdenYear(y)), DecilKey);
            forall i :: 0 <= i < |sorted| ==> exists q :: 0 <= q < |rows| && rows[q] == sorted[i] && rows[q].anio == y
  {
    var kept := Filter(rows, BurdenYear(y));
    var sorted := SortAsc(kept, DecilKey);
    forall i | 0 <= i < |sorted|
      ensures exists q :: 0 <= q < |rows| && rows[q] == sorted[i] && rows[q].anio == y
    {
      assert sorted[i] in multiset(kept);
      FilterMember(rows, BurdenYear(y), sorted[i]);
    }
  }
}

=== FILE: timeseries.dfy ===
/** The line-chart template the dashboard repeats for every time series:
    filter the rows, group them by a category, build the year axis with
    `uniqueSorted`, and give each category one value per axis year from a
    year-to-value object filled by `forEach` (so the last row for a year wins),
    with `null` for a year the category has no row for. */
module TimeSeries {
  import opened Wrappers
  import opened Seqs
  import opened Aggregate

  /** One dataset of a line chart: its category and its values along the axis. */
  datatype Series<K> = Series(name: K, data: seq<Option<real>>)

  /** A line chart: the year axis and one dataset per category. */
  datatype LineChart<K> = LineChart(years: seq<int>, series: seq<Series<K>>)

  /** `rows.forEach(r => map[r.anio] = r.valor)`: each row overwrites the
      entry for its year. */
  function YearMap<T>(rows: seq<T>, year: T -> int, val: T -> Option<real>): map<int, Option<real>>
  {
    if |rows| == 0 then map[]
    else YearMap(rows[..|rows| - 1], year, val)[year(rows[|rows| - 1]) := val(rows[|rows| - 1])]
  }

  /** `map[y] != null ? +map[y] : null`: an absent year and a stored `null`
      both read as `null`. */
  function Lookup(m: map<int, Option<real>>, y: int): Option<real> {
    if y in m then m[y] else None
  }

  /** Reference reading: the value of the last row whose year is `y`, or
      `null` when no row has that year. */
  function LastValue<T>(rows: seq<T>, year: T -> int, val: T -> Option<real>, y: int): Option<real>
  {
    if |rows| == 0 then None
    else if year(rows[|rows| - 1]) == y then val(rows[|rows| - 1])
    else LastValue(rows[..|rows| - 1], year, val, y)
  }

  /** Reading the year object gives the last row's value for that year. */
  lemma {:induction false} YearMapIsLastValue<T>(rows: seq<T>, year: T -> int, val: T -> Option<real>, y: int)
    ensures Lookup(YearMap(rows, year, val), y) == LastValue(rows, year, val, y)
  {
    if |rows| > 0 {
      YearMapIsLastValue(rows[..|rows| - 1], year, val, y);
    }
  }

  /** Row `r` passes the chart's filter and belongs to category `k` and year `y`. */
  ghost predicate Hit<T, K>(r: T, keep: T -> bool, key: T -> K, year: T -> int, k: K, y: int) {
    keep(r) && key(r) == k && year(r) == y
  }

  /** The value the chart shows for category `k` in year `y`, read off the
      unfiltered collection: the value of the last row that passes the filter
      and has that category and year, or `null` when there is none. */
  ghost function LastMatch<T, K>(rows: seq<T>, keep: T -> bool, key: T -> K, year: T -> int,
                                 val: T -> Option<real>, k: K, y: int): Option<real>
  {
    if |rows| == 0 then None
    else if Hit(rows[|rows| - 1], keep, key, year, k, y) then val(rows[|rows| - 1])
    else LastMatch(rows[..|rows| - 1], keep, key, year, val, k, y)
  }

  /** No hitting row: the chart value is `null`. */
  lemma {:induction false} NoHitNone<T, K>(rows: seq<T>, keep: T -> bool, key: T -> K, year: T -> int,
                                           val: T -> Option<real>, k: K, y: int)
    requires forall i :: 0 <= i < |rows| ==> !Hit(rows[i], keep, key, year, k, y)
    ensures LastMatch(rows, keep, key, year, val, k, y) == None
  {
    if |rows| > 0 {
      var p := rows[..|rows| - 1];
      assert forall i :: 0 <= i < |p| ==> p[i] == rows[i];
      NoHitNone(p, keep, key, year, val, k, y);
    }
  }

  /** The chart value is the value of the last hitting row. */
  lemma {:induction false} LastHitShown<T, K>(rows: seq<T>, keep: T -> bool, key: T -> K, year: T -> int,
                                              val: T -> Option<real>, k: K, y: int, i: nat)
    requires i < |rows| && Hit(rows[i], keep, key, year, k, y)
    requires forall j :: i < j < |rows| ==> !Hit(rows[j], keep, key, year, k, y)
    ensures LastMatch(rows, keep, key, year, val, k, y) == val(rows[i])
  {
    if i < |rows| - 1 {
      var p := rows[..|rows| - 1];
      assert forall j :: 0 <= j < |p| ==> p[j] == rows[j];
      LastHitShown(p, keep, key, year, val, k, y, i);
    }
  }

  /** The last value of a sequence extended by one row. */
  lemma LastValueSnoc<T>(rows: seq<T>, x: T, year: T -> int, val: T -> Option<real>, y: int)
    ensures LastValue(rows + [x], year, val, y) == if year(x) == y then val(x) else LastValue(rows, year, val, y)
  {
    assert (rows + [x])[..|rows|] == rows;
  }

  /** Grouping the filtered rows and taking a group's last value for a year
      agrees with the reference reading of the unfiltered collection. */
  lemma {:induction false} GroupValueIsLastMatch<T, K>(rows: seq<T>, keep: T -> bool, key: T -> K, year: T -> int,
                                                       val: T -> Option<real>, k: K, y: int)
    ensures LastValue(Matching(Filter(rows, keep), key, k), year, val, y) == LastMatch(rows, keep, key, year, val, k, y)
  {
    if |rows| > 0 {
      var p := rows[..|rows| - 1];
      var x := rows[|rows| - 1];
      assert rows == p + [x];
      var f := Filter(p, keep);
      GroupValueIsLastMatch(p, keep, key, year, val, k, y);
      FilterSnoc(p, x, keep);
      var m := Matching(f, key, k);
      assert LastValue(m, year, val, y) == LastMatch(p, keep, key, year, val, k, y);
      if keep(x) {
        assert Filter(rows, keep) == f + [x];
        MatchingSnoc(f, x, key, k);
        if key(x) == k {
          assert Matching(Filter(rows, keep), key, k) == m + [x];
          LastValueSnoc(m, x, year, val, y);
        } else {
          assert Matching(Filter(rows, keep), key, k) == m;
          assert !Hit(x, keep, key, year, k, y);
        }
      } else {
        assert Filter(rows, keep) == f;
        assert !Hit(x, keep, key, year, k, y);
      }
    }
  }

  /** The years of a sequence of rows, in row order. */
  function YearsOf<T>(rows: seq<T>, year: T -> int): (ys: seq<int>)
    ensures |ys| == |rows|
    ensures forall i :: 0 <= i < |rows| ==> ys[i] == year(rows[i])
  {
    seq(|rows|, i requires 0 <= i < |rows| => year(rows[i]))
  }

  /** Some row of `rows` passes `keep` and has year `y`. */
  ghost predicate HasYear<T>(rows: seq<T>, keep: T -> bool, year: T -> int, y: int) {
    exists i :: 0 <= i < |rows| && keep(rows[i]) && year(rows[i]) == y
  }

  /** A year is on the axis exactly when a filtered row has it. */
  lemma YearsOfFilter<T>(rows: seq<T>, keep: T -> bool, year: T -> int, y: int)
    ensures y in YearsOf(Filter(rows, keep), year) <==> HasYear(rows, keep, year, y)
  {
    var f := Filter(rows, keep);
    var ys := YearsOf(f, year);
    if y in ys {
      var i :| 0 <= i < |ys| && ys[i] == y;
      FilterMember(rows, keep, f[i]);
      var j :| 0 <= j < |rows| && rows[j] == f[i];
      assert keep(rows[j]) && year(rows[j]) == y;
    }
    if HasYear(rows, keep, year, y) {
      var j :| 0 <= j < |rows| && keep(rows[j]) && year(rows[j]) == y;
      FilterMember(rows, keep, rows[j]);
      var i :| 0 <= i < |f| && f[i] == rows[j];
      assert ys[i] == y;
    }
  }

  /** The categories that filtered rows carry. */
  ghost function KeptKeys<T, K>(rows: seq<T>, keep: T -> bool, key: T -> K): set<K> {
    set i | 0 <= i < |rows| && keep(rows[i]) :: key(rows[i])
  }

  /** The keys of the filtered rows are the categories of the rows that pass. */
  lemma {:induction false} KeysInFilter<T, K>(rows: seq<T>, keep: T -> bool, key: T -> K)
    ensures KeysIn(Filter(rows, keep), key) == KeptKeys(rows, keep, key)
  {
    if |rows| > 0 {
      var p := rows[..|rows| - 1];
      var x := rows[|rows| - 1];
      var f := Filter(p, keep);
      KeysInFilter(p, keep, key);
      var add := if keep(x) then {key(x)} else {};
      assert KeptKeys(rows, keep, key) == KeptKeys(p, keep, key) + add by {
        assert forall i :: 0 <= i < |p| ==> rows[i] == p[i];
        forall c | c in KeptKeys(rows, keep, key)
          ensures c in KeptKeys(p, keep, key) + add
        {
          var i :| 0 <= i < |rows| && keep(rows[i]) && key(rows[i]) == c;
          if i < |p| {
            assert c in KeptKeys(p, keep, key);
          }
        }
      }
      if keep(x) {
        assert Filter(rows, keep) == f + [x];
        assert (f + [x])[..|f|] == f;
      } else {
        assert Filter(rows, keep) == f;
      }
    }
  }

  /** Filtering a strictly ascending sequence keeps it strictly ascending. */
  lemma {:induction false} FilterAscending(s: seq<int>, p: int -> bool)
    requires StrictlyAscending(s)
    ensures StrictlyAscending(Filter(s, p))
  {
    if |s| > 0 {
      var t := s[..|s| - 1];
      var x := s[|s| - 1];
      assert StrictlyAscending(t);
      FilterAscending(t, p);
      var f := Filter(t, p);
      forall i | 0 <= i < |f| ensures f[i] < x {
        FilterMember(t, p, f[i]);
      }
    }
  }

  /** The categories the datasets of a chart are named after. */
  ghost function Names<K>(series: seq<Series<K>>): set<K> {
    set s | 0 <= s < |series| :: series[s].name
  }

  /** Everything the chart template promises about chart `c` drawn from the
      collection `rows`: the axis holds exactly the years of the rows that pass
      `keep` (and `keepYear`), ascending without repeats; there is one dataset
      per category of those rows, in first-seen order; each dataset has one
      value per axis year; and that value is the last passing row's value for
      its category and year, or `null` when there is no such row. */
  ghost predicate Shows<T, K>(c: LineChart<K>, rows: seq<T>, keep: T -> bool, key: T -> K, year: T -> int,
                              val: T -> Option<real>, keepYear: int -> bool)
  {
    StrictlyAscending(c.years)
    && (forall y :: y in c.years <==> keepYear(y) && HasYear(rows, keep, year, y))
    && Names(c.series) == KeptKeys(rows, keep, key)
    && (forall s, t :: 0 <= s < t < |c.series| ==> c.series[s].name != c.series[t].name)
    && (forall s, t :: 0 <= s < t < |c.series| ==>
          SeenBefore(Filter(rows, keep), key, c.series[s].name, c.series[t].name))
    && (forall s :: 0 <= s < |c.series| ==> |c.series[s].data| == |c.years|)
    && (forall s, j :: 0 <= s < |c.series| && 0 <= j < |c.years| ==>
          c.series[s].data[j] == LastMatch(rows, keep, key, year, val, c.series[s].name, c.years[j]))
  }

  /** In a chart that shows `rows`, an entry is the value of the last row
      that passes the filter and has the entry's category and year. */
  lemma ShownIsLastHit<T, K>(c: LineChart<K>, rows: seq<T>, keep: T -> bool, key: T -> K, year: T -> int,
                             val: T -> Option<real>, keepYear: int -> bool, s: nat, j: nat, i: nat)
    requires Shows(c, rows, keep, key, year, val, keepYear)
    requires s < |c.series| && j < |c.years| && i < |rows|
    requires Hit(rows[i], keep, key, year, c.series[s].name, c.years[j])
    requires forall q :: i < q < |rows| ==> !Hit(rows[q], keep, key, year, c.series[s].name, c.years[j])
    ensures c.series[s].data[j] == val(rows[i])
  {
    LastHitShown(rows, keep, key, year, val, c.series[s].name, c.years[j], i);
  }

  /** The chart template: `filtered = rows.filter(keep)`,
      `groupBy(filtered, key)`, `uniqueSorted(filtered.map(year))` (further
      filtered by `keepYear`), and per group
      `years.map(y => map[y] != null ? +map[y] : null)`. */
  function Chart<T, K(==)>(rows: seq<T>, keep: T -> bool, key: T -> K, year: T -> int,
                           val: T -> Option<real>, keepYear: int -> bool): (c: LineChart<K>)
    ensures Shows(c, rows, keep, key, year, val, keepYear)
  {
    var data := Filter(rows, keep);
    var groups := GroupBy(data, key);
    var years := Filter(UniqueSorted(YearsOf(data, year)), keepYear);
    var c := LineChart(years, seq(|groups|, g requires 0 <= g < |groups| =>
               Series(groups[g].key, seq(|years|, j requires 0 <= j < |years| =>
                 Lookup(YearMap(groups[g].rows, year, val), years[j])))));
    ChartShows(rows, keep, key, year, val, keepYear, c);
    c
  }

  lemma {:induction false} ChartShows<T, K>(rows: seq<T>, keep: T -> bool, key: T -> K, year: T -> int,
                         val: T -> Option<real>, keepYear: int -> bool, c: LineChart<K>)
    requires var data := Filter(rows, keep);
             var groups := GroupBy(data, key);
             c.years == Filter(UniqueSorted(YearsOf(data, year)), keepYear)
             && |c.series| == |groups|
             && forall g :: 0 <= g < |groups| ==>
                  c.series[g].name == groups[g].key
                  && |c.series[g].data| == |c.years|
                  && forall j :: 0 <= j < |c.years| ==>
                       c.series[g].data[j] == Lookup(YearMap(groups[g].rows, year, val), c.years[j])
    ensures Shows(c, rows, keep, key, year, val, keepYear)
  {
    var data := Filter(rows, keep);
    var groups := GroupBy(data, key);
    AxisShows(rows, keep, year, keepYear, c.years);
    LabelsShow(rows, keep, key, groups, c.series);
    forall s, j | 0 <= s < |c.series| && 0 <= j < |c.years|
      ensures c.series[s].data[j] == LastMatch(rows, keep, key, year, val, c.series[s].name, c.years[j])
    {
      ValueShows(rows, keep, key, year, val, groups[s], c.years[j]);
    }
  }

  /** The axis holds exactly the years of the passing rows, ascending. */
  lemma AxisShows<T>(rows: seq<T>, keep: T -> bool, year: T -> int, keepYear: int -> bool, years: seq<int>)
    requires years == Filter(UniqueSorted(YearsOf(Filter(rows, keep), year)), keepYear)
    ensures StrictlyAscending(years)
    ensures forall y :: y in years <==> keepYear(y) && HasYear(rows, keep, year, y)
  {
    FilterAscending(UniqueSorted(YearsOf(Filter(rows, keep), year)), keepYear);
    forall y ensures y in years <==> keepYear(y) && HasYear(rows, keep, year, y) {
      FilterMember(UniqueSorted(YearsOf(Filter(rows, keep), year)), keepYear, y);
      YearsOfFilter(rows, keep, year, y);
    }
  }

  /** The datasets are named after the groups, so they carry each category
      once, in first-seen order. */
  lemma LabelsShow<T, K>(rows: seq<T>, keep: T -> bool, key: T -> K, groups: seq<Group<K, T>>, series: seq<Series<K>>)
    requires groups == GroupBy(Filter(rows, keep), key)
    requires |series| == |groups|
    requires forall g :: 0 <= g < |groups| ==> series[g].name == groups[g].key
    ensures Names(series) == KeptKeys(rows, keep, key)
    ensures forall s, t :: 0 <= s < t < |series| ==> series[s].name != series[t].name
    ensures forall s, t :: 0 <= s < t < |series| ==>
              SeenBefore(Filter(rows, keep), key, series[s].name, series[t].name)
  {
    KeysInFilter(rows, keep, key);
    assert Names(series) == GroupKeys(groups);
  }

  /** A group's value for a year is the reference value for its category. */
  lemma ValueShows<T, K>(rows: seq<T>, keep: T -> bool, key: T -> K, year: T -> int,
                         val: T -> Option<real>, g: Group<K, T>, y: int)
    requires g.rows == Matching(Filter(rows, keep), key, g.key)
    ensures Lookup(YearMap(g.rows, year, val), y) == LastMatch(rows, keep, key, year, val, g.key, y)
  {
    YearMapIsLastValue(g.rows, year, val, y);
    GroupValueIsLastMatch(rows, keep, key, year, val, g.key, y);
  }

  /** Every series of a chart drawn from rows that all pass the filter with a
      value has, for each axis year, a value exactly when its category has a
      row for that year: absent years are `null`, never zero. */
  lemma NullExactlyWhenAbsent<T, K>(rows: seq<T>, keep: T -> bool, key: T -> K, year: T -> int,
                                    val: T -> Option<real>, k: K, y: int)
    requires forall i :: 0 <= i < |rows| && keep(rows[i]) ==> val(rows[i]).Some?
    ensures LastMatch(rows, keep, key, year, val, k, y).None? <==>
              forall i :: 0 <= i < |rows| ==> !Hit(rows[i], keep, key, year, k, y)
  {
    if exists i :: 0 <= i < |rows| && Hit(rows[i], keep, key, year, k, y) {
      var i := LastHit(rows, keep, key, year, k, y);
      LastHitShown(rows, keep, key, year, val, k, y, i);
    } else {
      NoHitNone(rows, keep, key, year, val, k, y);
    }
  }

  /** The position of the last hitting row. */
  lemma LastHit<T, K>(rows: seq<T>, keep: T -> bool, key: T -> K, year: T -> int, k: K, y: int) returns (i: nat)
    requires exists i :: 0 <= i < |rows| && Hit(rows[i], keep, key, year, k, y)
    ensures i < |rows| && Hit(rows[i], keep, key, year, k, y)
    ensures forall j :: i < j < |rows| ==> !Hit(rows[j], keep, key, year, k, y)
  {
    var n := |rows| - 1;
    if Hit(rows[n], keep, key, year, k, y) {
      i := n;
    } else {
      var p := rows[..n];
      assert exists i :: 0 <= i < |p| && Hit(p[i], keep, key, year, k, y) by {
        var m :| 0 <= m < |rows| && Hit(rows[m], keep, key, year, k, y);
        assert m < n && p[m] == rows[m];
      }
      i := LastHit(p, keep, key, year, k, y);
      assert forall j :: i < j < |p| ==> p[j] == rows[j];
    }
  }

  /** Every line of a chart belongs to a category some passing row carries,
      and every axis year is kept and is the year of some passing row. */
  lemma ShowsBacked<T, K>(c: LineChart<K>, rows: seq<T>, keep: T -> bool, key: T -> K, year: T -> int,
                          val: T -> Option<real>, keepYear: int -> bool)
    requires Shows(c, rows, keep, key, year, val, keepYear)
    ensures forall s :: 0 <= s < |c.series| ==> c.series[s].name in KeptKeys(rows, keep, key)
    ensures forall j :: 0 <= j < |c.years| ==> keepYear(c.years[j]) && HasYear(rows, keep, year, c.years[j])
  {
    forall s | 0 <= s < |c.series|
      ensures c.series[s].name in KeptKeys(rows, keep, key)
    {
      assert c.series[s].name in Names(c.series);
    }
    forall j | 0 <= j < |c.years|
      ensures keepYear(c.years[j]) && HasYear(rows, keep, year, c.years[j])
    {
      assert c.years[j] in c.years;
    }
  }
}

=== FILE: validate.dfy ===
/** The dashboard validator's checks on the parsed `data.js` object. */
module Validate {
  import opened Wrappers
  import opened Convert

  /** A JSON scalar as the validator sees it. */
  datatype Scalar = Null | Bool(b: bool) | Num(n: real) | Str(s: string)

  /** Python truthiness. */
  predicate Truthy(v: Scalar) {
    match v
    case Null => false
    case Bool(b) => b
    case Num(n) => n != 0.0
    case Str(s) => |s| > 0
  }

  /** One record of a dataset. */
  type Row = map<string, Scalar>

  /** A dataset: a list of records (one sheet), an object of sheets, or
      anything else. */
  datatype Dataset = Records(rows: seq<Row>) | Sheets(sheets: seq<(string, seq<Row>)>) | Other

  /** The parsed `DATA` object. */
  type Data = map<string, Dataset>

  /** `r.get(k)`: `None` for a missing field. */
  function Get(r: Row, k: string): Scalar {
    if k in r then r[k] else Null
  }

  /** The elements of a list, as a set. */
  function SetOf(xs: seq<string>): set<string> {
    set x | x in xs
  }

  /** A list has no elements exactly when its set is empty. */
  lemma SetOfEmpty(xs: seq<string>)
    ensures SetOf(xs) == {} <==> |xs| == 0
  {
    if |xs| > 0 {
      assert xs[0] in SetOf(xs);
    }
  }

  /** The sheet names of an object of sheets. */
  function SheetNames(sheets: seq<(string, seq<Row>)>): set<string> {
    set i | 0 <= i < |sheets| :: sheets[i].0
  }

  /* ---------- required datasets ---------- */

  /** `required_datasets`: the datasets each dashboard page needs, page by page. */
  const RequiredDatasets: seq<(string, seq<string>)> := [
    ("Pobreza", ["pobrezaTableau", "pobrezaSexoEtnia", "pobrezaEducacion", "pobrezaEdad",
                 "pobrezaRegion", "variacionPobrezaSignificancia", "pobrezaProvincial"]),
    ("Empleo", ["empleoSeries", "empleoDemografico", "crecimientoEmpleoSector", "variacionEmpleoSignificancia"]),
    ("Salarios", ["salariosSeries", "brechasSalariales"]),
    ("Crecimiento", ["crecimientoPercentiles", "crecimientoDemografico", "crecimientoEmpleoSector"]),
    ("Desigualdad", ["giniPanel"])
  ]

  /** The datasets in the order the nested loop visits them. */
  function Visits(pages: seq<(string, seq<string>)>): seq<string> {
    if |pages| == 0 then [] else Visits(pages[..|pages| - 1]) + pages[|pages| - 1].1
  }

  /** What the check prints for one dataset. */
  datatype Presence = Missing | SheetCount(n: nat) | RowCount(n: nat) | Unexpected

  function PresenceOf(data: Data, ds: string): (p: Presence)
    ensures p.Missing? <==> ds !in data
    ensures ds in data && data[ds].Sheets? ==> p == SheetCount(|data[ds].sheets|)
    ensures ds in data && data[ds].Records? ==> p == RowCount(|data[ds].rows|)
    ensures p.Unexpected? <==> ds in data && data[ds].Other?
  {
    if ds !in data then Missing
    else match data[ds]
      case Sheets(ss) => SheetCount(|ss|)
      case Records(rows) => RowCount(|rows|)
      case Other => Unexpected
  }

  /** `all_good` after the loop: every dataset the pages require is present. */
  predicate AllPresent(data: Data) {
    forall i :: 0 <= i < |Visits(RequiredDatasets)| ==> Visits(RequiredDatasets)[i] in data
  }

  /** The loop of section 2: one report per visited dataset, and `all_good`
      false exactly when some required dataset is missing. */
  method RequiredCheck(data: Data) returns (allGood: bool, report: seq<Presence>)
    ensures |report| == |Visits(RequiredDatasets)|
    ensures forall i :: 0 <= i < |report| ==> report[i] == PresenceOf(data, Visits(RequiredDatasets)[i])
    ensures allGood <==> forall i :: 0 <= i < |Visits(RequiredDatasets)| ==> Visits(RequiredDatasets)[i] in data
    ensures allGood == AllPresent(data)
    ensures allGood <==> forall i :: 0 <= i < |report| ==> !report[i].Missing?
  {
    var names := Visits(RequiredDatasets);
    allGood := true;
    report := [];
    var n := 0;
    while n < |names|
      invariant 0 <= n <= |names|
      invariant |report| == n
      invariant forall i :: 0 <= i < n ==> report[i] == PresenceOf(data, names[i])
      invariant allGood <==> forall i :: 0 <= i < n ==> names[i] in data
    {
      var p := PresenceOf(data, names[n]);
      if p.Missing? {
        allGood := false;
      }
      report := report + [p];
      n := n + 1;
    }
  }

  /** `all_good` depends only on which datasets are present, not on their
      types: replacing a present dataset by another keeps it. */
  lemma AllPresentIgnoresTypes(data: Data, ds: string, d: Dataset)
    ensures ds in data ==> (AllPresent(data[ds := d]) <==> AllPresent(data))
  {
    if ds in data {
      assert data[ds := d].Keys == data.Keys;
    }
  }

  /** `all_good` holds exactly when the data has every dataset the pages name. */
  lemma AllPresentKeys(data: Data)
    ensures AllPresent(data) <==> SetOf(Visits(RequiredDatasets)) <= data.Keys
  {
  }

  /** Every dataset the validator requires is a key the converter produces
      for some spreadsheet. */
  lemma RequiredAreMapped()
    ensures forall name :: name in Visits(RequiredDatasets) ==> IsMapped(name)
  {
    VisitsRequired();
    PobrezaMapped();
    PobrezaRestMapped();
    EmpleoMapped();
    SalariosMapped();
    CrecimientoMapped();
  }

  lemma PobrezaMapped()
    ensures IsMapped("pobrezaTableau") && IsMapped("pobrezaSexoEtnia") && IsMapped("pobrezaEducacion") && IsMapped("pobrezaEdad")
  {
    MappedAt("pobrezaTableau", 2);
    MappedAt("pobrezaSexoEtnia", 5);
    MappedAt("pobrezaEducacion", 11);
    MappedAt("pobrezaEdad", 12);
  }

  lemma PobrezaRestMapped()
    ensures IsMapped("pobrezaRegion") && IsMapped("variacionPobrezaSignificancia") && IsMapped("pobrezaProvincial")
  {
    MappedAt("pobrezaRegion", 13);
    MappedAt("variacionPobrezaSignificancia", 14);
    MappedAt("pobrezaProvincial", 4);
  }

  lemma EmpleoMapped()
    ensures IsMapped("empleoSeries") && IsMapped("empleoDemografico") && IsMapped("crecimientoEmpleoSector") && IsMapped("variacionEmpleoSignificancia")
  {
    MappedAt("empleoSeries", 15);
    MappedAt("empleoDemografico", 16);
    MappedAt("crecimientoEmpleoSector", 23);
    MappedAt("variacionEmpleoSignificancia", 18);
  }

  lemma SalariosMapped()
    ensures IsMapped("salariosSeries") && IsMapped("brechasSalariales")
  {
    MappedAt("salariosSeries", 19);
    MappedAt("brechasSalariales", 20);
  }

  lemma CrecimientoMapped()
    ensures IsMapped("crecimientoPercentiles") && IsMapped("crecimientoDemografico") && IsMapped("giniPanel")
  {
    MappedAt("crecimientoPercentiles", 21);
    MappedAt("crecimientoDemografico", 22);
    MappedAt("giniPanel", 3);
  }

  /** Some spreadsheet converts to a dataset called `name`. */
  ghost predicate IsMapped(name: string) {
    exists j :: 0 <= j < |DatasetMapping| && DatasetMapping[j].1 == name
  }

  lemma MappedAt(name: string, j: nat)
    requires j < |DatasetMapping| && DatasetMapping[j].1 == name
    ensures IsMapped(name)
  {
  }

  /** The datasets the nested loop visits, written out. */
  lemma VisitsRequired()
    ensures Visits(RequiredDatasets) ==
      ["pobrezaTableau", "pobrezaSexoEtnia", "pobrezaEducacion", "pobrezaEdad",
       "pobrezaRegion", "variacionPobrezaSignificancia", "pobrezaProvincial",
       "empleoSeries", "empleoDemografico", "crecimientoEmpleoSector", "variacionEmpleoSignificancia",
       "salariosSeries", "brechasSalariales",
       "crecimientoPercentiles", "crecimientoDemografico", "crecimientoEmpleoSector",
       "giniPanel"]
  {
    var r := RequiredDatasets;
    assert Visits(r[..1]) == r[0].1;
    assert r[..2][..1] == r[..1];
    assert Visits(r[..2]) == r[0].1 + r[1].1;
    assert r[..3][..2] == r[..2];
    assert Visits(r[..3]) == r[0].1 + r[1].1 + r[2].1;
    assert r[..4][..3] == r[..3];
    assert Visits(r[..4]) == r[0].1 + r[1].1 + r[2].1 + r[3].1;
    assert r[..5] == r;
  }

  /* ---------- field names ---------- */

  /** `field_checks`: the fields expected in the first record of some datasets. */
  const FieldChecks: seq<(string, seq<string>)> := [
    ("pobrezaTableau", ["ano", "indicador", "nivel", "valor"]),
    ("pobrezaEducacion", ["anio", "nivelEducativo", "indicador", "valor"]),
    ("pobrezaEdad", ["anio", "grupoEtario", "indicador", "valor"]),
    ("pobrezaSexoEtnia", ["anio", "grupo", "tipoGrupo", "indicador", "valor"]),
    ("empleoDemografico", ["anio", "tipoCategoria", "categoria", "empleoAdecuado"]),
    ("empleoSeries", ["anio", "indicador", "valor"]),
    ("salariosSeries", ["anio", "tipo", "valor"]),
    ("giniPanel", ["ano", "categoria", "valor"])
  ]

  /** The outcome of the field check for one dataset: clean, or the missing
      and extra fields; for an object of sheets, the fields of its first
      sheet; `NoFirstSheet` for an empty object, where `list(...)[0]` raises
      `IndexError` and the script stops. */
  datatype FieldReport =
    | Clean(fields: set<string>)
    | Mismatch(missing: set<string>, extra: set<string>)
    | FirstSheet(sheet: string, sheetFields: Option<set<string>>)
    | NoFirstSheet
    | NotChecked

  function FieldCheck(data: Data, ds: string, expected: seq<string>): (r: FieldReport)
    ensures r.Clean? <==> ds in data && data[ds].Records? && |data[ds].rows| > 0
                          && data[ds].rows[0].Keys == SetOf(expected)
    ensures r.Mismatch? <==> ds in data && data[ds].Records? && |data[ds].rows| > 0
                             && data[ds].rows[0].Keys != SetOf(expected)
    ensures r.Mismatch? ==> r.missing == SetOf(expected) - data[ds].rows[0].Keys
                            && r.extra == data[ds].rows[0].Keys - SetOf(expected)
                            && (r.missing != {} || r.extra != {})
    ensures r.FirstSheet? <==> ds in data && data[ds].Sheets? && |data[ds].sheets| > 0
    ensures r.FirstSheet? ==> r.sheet == data[ds].sheets[0].0
                              && r.sheetFields == (if |data[ds].sheets[0].1| > 0 then Some(data[ds].sheets[0].1[0].Keys) else None)
    ensures r.NoFirstSheet? <==> ds in data && data[ds].Sheets? && |data[ds].sheets| == 0
    ensures r.NotChecked? <==> ds !in data || data[ds].Other? || (data[ds].Records? && |data[ds].rows| == 0)
  {
    if ds in data && data[ds].Records? && |data[ds].rows| > 0 then
      var actual := data[ds].rows[0].Keys;
      var missing := SetOf(expected) - actual;
      var extra := actual - SetOf(expected);
      if missing == {} && extra == {} then Clean(actual) else Mismatch(missing, extra)
    else if ds in data && data[ds].Sheets? then
      var ss := data[ds].sheets;
      if |ss| == 0 then NoFirstSheet
      else FirstSheet(ss[0].0, if |ss[0].1| > 0 then Some(ss[0].1[0].Keys) else None)
    else NotChecked
  }

  /** The missing and extra fields account for the whole difference: the
      actual fields are the expected ones less the missing plus the extra,
      and the other way round. */
  lemma MismatchAccounts(data: Data, ds: string, expected: seq<string>)
    requires FieldCheck(data, ds, expected).Mismatch?
    ensures var r := FieldCheck(data, ds, expected);
            var actual := data[ds].rows[0].Keys;
            actual == (SetOf(expected) - r.missing) + r.extra
            && SetOf(expected) == (actual - r.extra) + r.missing
            && r.missing !! r.extra
  {
  }

  /* ---------- multi-sheet datasets ---------- */

  /** `multi_sheet`: the sheets expected in two datasets. */
  const MultiSheet: seq<(string, seq<string>)> := [
    ("brechasSalariales", ["educacion", "genero", "etnia"]),
    ("crecimientoPercentiles", ["percentiles", "deciles"])
  ]

  /** The outcome of the sheet check: all expected sheets present (with the
      first sheet and the fields of its first record), the missing sheets,
      or no check. */
  datatype SheetReport =
    | SheetsPresent(first: string, firstFields: Option<set<string>>)
    | MissingSheets(missing: set<string>)
    | EmptyObject
    | NotAnObject

  function MultiSheetCheck(data: Data, ds: string, expected: seq<string>): (r: SheetReport)
    ensures r.SheetsPresent? <==> ds in data && data[ds].Sheets? && |data[ds].sheets| > 0
                                  && SetOf(expected) <= SheetNames(data[ds].sheets)
    ensures r.MissingSheets? ==> ds in data && data[ds].Sheets?
                                 && r.missing == SetOf(expected) - SheetNames(data[ds].sheets) && r.missing != {}
    ensures r.NotAnObject? <==> ds !in data || !data[ds].Sheets?
    ensures r.EmptyObject? ==> |expected| == 0
    ensures r.SheetsPresent? ==> r.first == data[ds].sheets[0].0
    ensures r.SheetsPresent? ==> r.firstFields == (if |data[ds].sheets[0].1| > 0
                                                 then Some(data[ds].sheets[0].1[0].Keys) else None)
  {
    if ds in data && data[ds].Sheets? then
      var ss := data[ds].sheets;
      if !(SetOf(expected) <= SheetNames(ss)) then
        var x :| x in SetOf(expected) && x !in SheetNames(ss);
        var missing := SetOf(expected) - SheetNames(ss);
        assert x in missing;
        MissingSheets(missing)
      else if |ss| == 0 then
        SetOfEmpty(expected);
        EmptyObject
      else SheetsPresent(ss[0].0, if |ss[0].1| > 0 then Some(ss[0].1[0].Keys) else None)
    else NotAnObject
  }

  /* ---------- completeness ---------- */

  /** `completeness_checks`: dataset, group field and optional indicator filter. */
  const CompletenessChecks: seq<(string, string, Option<string>)> := [
    ("pobrezaEducacion", "nivelEducativo", Some("Pobreza")),
    ("pobrezaEdad", "grupoEtario", Some("Pobreza")),
    ("pobrezaRegion", "region", Some("Pobreza")),
    ("empleoSeries", "indicador", None),
    ("salariosSeries", "tipo", None)
  ]

  /** `r.get('anio') or r.get('ano')`. */
  function YearOf(r: Row): (y: Scalar)
    ensures Truthy(Get(r, "anio")) ==> y == Get(r, "anio")
    ensures !Truthy(Get(r, "anio")) ==> y == Get(r, "ano")
  {
    var a := Get(r, "anio");
    if Truthy(a) then a else Get(r, "ano")
  }

  /** The records whose `indicador` equals `indicator`. */
  function WithIndicator(rows: seq<Row>, indicator: string): (r: seq<Row>)
    ensures forall i :: 0 <= i < |r| ==> Get(r[i], "indicador") == Str(indicator)
    ensures forall x :: x in rows && Get(x, "indicador") == Str(indicator) ==> x in r
    ensures forall x :: x in r ==> x in rows
  {
    if |rows| == 0 then []
    else (if Get(rows[0], "indicador") == Str(indicator) then [rows[0]] else []) + WithIndicator(rows[1..], indicator)
  }

  /** The distinct truthy values of field `f`. */
  function Values(rows: seq<Row>, f: string): (vs: set<Scalar>)
    ensures forall v :: v in vs <==> exists i :: 0 <= i < |rows| && Truthy(Get(rows[i], f)) && Get(rows[i], f) == v
  {
    if |rows| == 0 then {}
    else
      var p := rows[..|rows| - 1];
      var x := rows[|rows| - 1];
      var vs := Values(p, f) + (if Truthy(Get(x, f)) then {Get(x, f)} else {});
      assert forall i :: 0 <= i < |p| ==> p[i] == rows[i];
      vs
  }

  /** The distinct truthy years, `anio` falling back to `ano`. */
  function Years(rows: seq<Row>): (ys: set<Scalar>)
    ensures forall v :: v in ys <==> exists i :: 0 <= i < |rows| && Truthy(YearOf(rows[i])) && YearOf(rows[i]) == v
  {
    if |rows| == 0 then {}
    else
      var p := rows[..|rows| - 1];
      var x := rows[|rows| - 1];
      var ys := Years(p) + (if Truthy(YearOf(x)) then {YearOf(x)} else {});
      assert forall i :: 0 <= i < |p| ==> p[i] == rows[i];
      ys
  }

  /** One completeness check: for a list dataset, the groups and the years
      among its records (only those of `indicator` when one is given). */
  function Completeness(data: Data, ds: string, groupField: string, indicator: Option<string>): (r: Option<(set<Scalar>, set<Scalar>)>)
    ensures r.Some? <==> ds in data && data[ds].Records? && groupField != ""
    ensures r.Some? ==>
              var rows := if indicator.Some? && indicator.value != "" then WithIndicator(data[ds].rows, indicator.value)
                          else data[ds].rows;
              (forall v :: v in r.value.0 <==> exists i :: 0 <= i < |rows| && Truthy(Get(rows[i], groupField)) && Get(rows[i], groupField) == v)
              && (forall v :: v in r.value.1 <==> exists i :: 0 <= i < |rows| && Truthy(YearOf(rows[i])) && YearOf(rows[i]) == v)
  {
    if ds in data && data[ds].Records? && groupField != "" then
      var rows := if indicator.Some? && indicator.value != "" then WithIndicator(data[ds].rows, indicator.value)
                  else data[ds].rows;
      Some((Values(rows, groupField), Years(rows)))
    else None
  }
}

=== FILE: variation.dfy ===
/** The national year-over-year variation table of the poverty section
    (`renderSigTable`). */
module Variation {
  import opened Wrappers
  import opened Seqs
  import opened Sorting
  import opened Records

  /** One table line: the year, the indicator, this year's and the previous
      observation's rate, the change in percentage points and the relative
      change in percent (`null` when the previous rate is 0). */
  datatype VarRow = VarRow(anio: int, indicador: string, valor: real, valorAnt: real,
                           varPp: real, varPct: Option<real>)

  /** The indicators listed in the table, with the capitalisation the
      national-level rows are looked up by. */
  const TableIndicators: seq<string> := ["Pobreza", "Pobreza Extrema"]

  function NationalKeep(indicator: string): LevelRow -> bool {
    (r: LevelRow) => r.indicador == indicator && r.nivel == "Nacional" && r.valor.Some?
  }

  function AnoKey(r: LevelRow): real { r.ano as real }

  /** The national observations of one indicator, oldest first; two
      observations of the same year keep their input order. */
  function National(rows: seq<LevelRow>, indicator: string): (r: seq<LevelRow>)
    ensures multiset(r) == multiset(Filter(rows, NationalKeep(indicator)))
    ensures forall i :: 0 <= i < |r| ==> r[i].indicador == indicator && r[i].nivel == "Nacional" && r[i].valor.Some?
    ensures forall i, j :: 0 <= i < j < |r| ==> r[i].ano <= r[j].ano
    ensures forall v :: Filter(r, KeyIs(AnoKey, v)) == Filter(Filter(rows, NationalKeep(indicator)), KeyIs(AnoKey, v))
  {
    var kept := Filter(rows, NationalKeep(indicator));
    var r := SortAsc(kept, AnoKey);
    forall i | 0 <= i < |r|
      ensures NationalKeep(indicator)(r[i])
    {
      assert r[i] in multiset(kept);
    }
    r
  }

  /** Rows that are a permutation of rows all of year `y` are all of year `y`. */
  lemma SameYearAll(s: seq<LevelRow>, t: seq<LevelRow>, y: int)
    requires multiset(s) == multiset(t)
    requires forall i :: 0 <= i < |t| ==> t[i].ano == y
    ensures Filter(s, KeyIs(AnoKey, y as real)) == s
  {
    forall i | 0 <= i < |s|
      ensures KeyIs(AnoKey, y as real)(s[i])
    {
      PermMember(s, t, i);
      var j :| 0 <= j < |t| && s[i] == t[j];
      assert AnoKey(s[i]) == y as real;
    }
    FilterAll(s, KeyIs(AnoKey, y as real));
  }

  /** When every national observation of the indicator falls in one year,
      the sort leaves them exactly as the sheet lists them. */
  lemma NationalOneYear(rows: seq<LevelRow>, indicator: string, y: int)
    requires forall i :: 0 <= i < |rows| && NationalKeep(indicator)(rows[i]) ==> rows[i].ano == y
    ensures National(rows, indicator) == Filter(rows, NationalKeep(indicator))
  {
    var kept := Filter(rows, NationalKeep(indicator));
    forall i | 0 <= i < |kept|
      ensures kept[i].ano == y
    {
      FilterMember(rows, NationalKeep(indicator), kept[i]);
      var q :| 0 <= q < |rows| && rows[q] == kept[i];
    }
    SameYearAll(kept, kept, y);
    SameYearAll(National(rows, indicator), kept, y);
  }

  /** `v` compares observation `curr` with the preceding observation `prev`. */
  ghost predicate Compares(v: VarRow, indicator: string, prev: LevelRow, curr: LevelRow) {
    v.anio == curr.ano && v.indicador == indicator
    && v.valor == Coerce(curr.valor) && v.valorAnt == Coerce(prev.valor)
    && v.varPp == v.valor - v.valorAnt
    && (v.varPct.None? <==> v.valorAnt == 0.0)
    && (v.varPct.Some? ==> v.varPct.value * v.valorAnt == v.varPp * 100.0)
  }

  /** One comparison of consecutive observations. */
  function Step(indicator: string, prev: LevelRow, curr: LevelRow): (v: VarRow)
    ensures Compares(v, indicator, prev, curr)
  {
    var before := Coerce(prev.valor);
    var now := Coerce(curr.valor);
    var pp := now - before;
    VarRow(curr.ano, indicator, now, before, pp, if before != 0.0 then Some((pp / before) * 100.0) else None)
  }

  /** The loop `for (let i = 1; i < national.length; i++)`: one line per
      pair of consecutive observations. */
  function Pairs(indicator: string, national: seq<LevelRow>): (r: seq<VarRow>)
    ensures |r| == if |national| == 0 then 0 else |national| - 1
    ensures forall i :: 0 <= i < |r| ==> Compares(r[i], indicator, national[i], national[i + 1])
  {
    if |national| < 2 then []
    else [Step(indicator, national[0], national[1])] + Pairs(indicator, national[1..])
  }

  /** The table order `b.anio - a.anio || a.indicador.localeCompare(b.indicador)`:
      most recent year first, then by indicator. */
  predicate NewerFirst(a: VarRow, b: VarRow) {
    a.anio > b.anio || (a.anio == b.anio && StrLe(a.indicador, b.indicador))
  }

  lemma NewerFirstTotal(s: seq<VarRow>)
    ensures TotalOn(s, NewerFirst)
  {
    forall i, j | 0 <= i < |s| && 0 <= j < |s|
      ensures NewerFirst(s[i], s[j]) || NewerFirst(s[j], s[i])
    {
      StrLeTotal(s[i].indicador, s[j].indicador);
    }
  }

  lemma NewerFirstTransitive(s: seq<VarRow>)
    ensures TransitiveOn(s, NewerFirst)
  {
    forall i, j, k | 0 <= i < |s| && 0 <= j < |s| && 0 <= k < |s| && NewerFirst(s[i], s[j]) && NewerFirst(s[j], s[k])
      ensures NewerFirst(s[i], s[k])
    {
      if s[i].anio == s[j].anio == s[k].anio {
        StrLeTrans(s[i].indicador, s[j].indicador, s[k].indicador);
      }
    }
  }

  /** The lines of both indicators before sorting. */
  function Unsorted(rows: seq<LevelRow>): seq<VarRow> {
    Pairs(TableIndicators[0], National(rows, TableIndicators[0]))
    + Pairs(TableIndicators[1], National(rows, TableIndicators[1]))
  }

  /** `renderSigTable`: the lines of both indicators, newest year first and,
      within a year, ordered by indicator. */
  function SigTable(rows: seq<LevelRow>): (r: seq<VarRow>)
    ensures multiset(r) == multiset(Unsorted(rows))
    ensures forall i, j :: 0 <= i < j < |r| ==> r[i].anio >= r[j].anio
    ensures forall i, j :: 0 <= i < j < |r| && r[i].anio == r[j].anio ==> StrLe(r[i].indicador, r[j].indicador)
  {
    var all := Unsorted(rows);
    NewerFirstTotal(all);
    var r := SortBy(all, NewerFirst);
    NewerFirstTransitive(r);
    SortedAll(r, NewerFirst);
    r
  }

  /** Every line of the table compares two consecutive national observations
      of one of the two indicators, and there is one line per such pair. */
  lemma SigTableLines(rows: seq<LevelRow>, v: VarRow)
    ensures v in SigTable(rows) <==>
              exists n :: 0 <= n < 2 && v in Pairs(TableIndicators[n], National(rows, TableIndicators[n]))
    ensures |SigTable(rows)| == |Unsorted(rows)|
  {
    var p0 := Pairs(TableIndicators[0], National(rows, TableIndicators[0]));
    var p1 := Pairs(TableIndicators[1], National(rows, TableIndicators[1]));
    SameElements(SigTable(rows), Unsorted(rows), v);
    assert v in p0 + p1 <==> v in p0 || v in p1;
    if v in p0 {
      assert 0 <= 0 < 2 && v in Pairs(TableIndicators[0], National(rows, TableIndicators[0]));
    } else if v in p1 {
      assert 0 <= 1 < 2 && v in Pairs(TableIndicators[1], National(rows, TableIndicators[1]));
    }
  }

  /** Sequences with the same multiset have the same elements and length. */
  lemma SameElements<T>(a: seq<T>, b: seq<T>, v: T)
    requires multiset(a) == multiset(b)
    ensures v in a <==> v in b
    ensures |a| == |b|
  {
    assert v in a <==> v in multiset(a);
    assert v in b <==> v in multiset(b);
    assert |a| == |multiset(a)|;
  }

  /** Worked example: a falling rate, 10 then 9 then 9, gives -1 point (-10%)
      and then no change. */
  lemma FallingRate()
    ensures Pairs("Pobreza", [LevelRow("Pobreza", "Nacional", 2010, Some(10.0)),
                              LevelRow("Pobreza", "Nacional", 2011, Some(9.0)),
                              LevelRow("Pobreza", "Nacional", 2012, Some(9.0))])
            == [VarRow(2011, "Pobreza", 9.0, 10.0, -1.0, Some(-10.0)),
                VarRow(2012, "Pobreza", 9.0, 9.0, 0.0, Some(0.0))]
  {
  }

  /** Worked example: a zero previous rate has no relative change. */
  lemma FromZero()
    ensures Step("Pobreza", LevelRow("Pobreza", "Nacional", 2010, Some(0.0)),
                            LevelRow("Pobreza", "Nacional", 2011, Some(5.0)))
            == VarRow(2011, "Pobreza", 5.0, 0.0, 5.0, None)
  {
  }
}

=== FILE: wrappers.dfy ===
/** Optional values: the model's rendering of JavaScript's `null`/`undefined`
    and Python's `None`. */
module Wrappers {

  datatype Option<+T> = None | Some(value: T) {

    /** Returns the value in Some, or `default` for None. */
    function GetOr(default: T): T {
      match this
      case Some(v) => v
      case None => default
    }
  }

  /** JavaScript's unary plus on a numeric field that may be null: `+null` is 0,
      `+v` is v. */
  function Coerce(o: Option<real>): (r: real)
    ensures o.Some? ==> r == o.value
    ensures o.None? ==> r == 0.0
  {
    o.GetOr(0.0)
  }
}
